=== FILE: README.md ===
# A verified model of the play-to-earn game portal

The system is a mobile game portal. Players sign in with a Solana wallet and play
web games. They earn points for time played and for ad clicks. An Express/Prisma
server keeps the ledger and a React Native client keeps a small session store.
An administrator console edits users, games and point rules behind a captcha
login and a Bearer-token gate.

This project models the deterministic core of that system in Dafny. Each route
handler is a pure function. It takes the tables as immutable sequences and
returns the new tables plus a reply: either `Ok(value)` or `Err(status, message)`.
Everything the code hands to a library is a parameter of the model:
- clocks and random draws;
- URL parsing;
- the signature, token and password checks;
- `JSON.parse`;
- the device locale and the key-value store.

The modules follow the source files:

| module | file | models |
|---|---|---|
| `Wrappers` | wrappers.dfy | `Option`, `Result`, `Reply` (a status code and message, or a value), `Math.max`/`Math.min` |
| `JsText` | jstext.dfy | JavaScript string behaviour the code relies on: `trim`, ASCII `toLowerCase`, `startsWith`, `includes`, `split`, `parseInt`, `String(n)` |
| `Base64` | base64.dfy | UTF-8 encoding and Base64 as in section 4 of RFC 4648, with its decoder |
| `Sorting` | sorting.dfy | `where` filters, `orderBy` on an integer column, newest-first order |
| `Paging` | paging.dfy | `page`/`limit` parsing, Prisma `skip`/`take`, `totalPages`, `hasMore` |
| `Db` | db.dfy | the users, game plays, games and rule tables; lookups; the ledger invariant |
| `PointsRules` | points_rules.dfy | the award rules of `POST /earn`: tiers, the per-game daily cap, the daily ad cap, the cost |
| `PointsRoute` | points_route.dfy | `POST /earn` and `POST /ad-click` as ledger transitions |
| `ClientStore` | client_store.dfy | the app store: login/logout, paged game loading, the game-session life cycle |
| `AdminRoutes` | admin_routes.dfy | console routes: user list and edit, game toggle/create/update, points histogram, game-play list |
| `HtmlGenerator` | html_generator.dfy | `extractFileNameFromUrl` and `generateGameHTML` |
| `Captcha` | captcha.dfy | the captcha store: generate, verify once, sweep |
| `Seed` | seed.dfy | `seedDatabase`: clearing, rule keys, demo games, default administrator |
| `AuthRoutes` | auth_routes.dfy | wallet `POST /login` and `POST /dev-login` (find-or-create) |
| `AdminGate` | admin_gate.dfy | the `requireAdmin` middleware |
| `AdminAuth` | admin_auth.dfy | console `POST /login`, `GET /me`, `POST /change-password` |
| `UserRoutes` | user_routes.dfy | `GET /user/profile` and `GET /user/history` |
| `GamesRoutes` | games_routes.dfy | the public catalogue: list, banners, hot, detail |
| `ConfigRoutes` | config_routes.dfy | `GET /config/rules`, `/announcement`, `/exchange-info` |
| `I18n` | i18n.dfy | language choice, device-language detection, translation lookup |
| `Cors` | cors.dfy | the CORS origin decision |

The ledger invariant `Db.Balanced` says four things:
- user ids are unique and allocated;
- every game-play row belongs to an allocated user;
- every row has an allocated id;
- every balance equals the sum of the `earnedPoints` of its owner's rows.

`/earn`, find-or-create and `/ad-click` on the caller's own row are proved to
keep it. `/ad-click` on another user's row is proved to break it: the route does
not check who owns the row.

Behaviour of the code worth noting:
- The per-game daily cap recomputes today's earlier sessions from their stored durations. This recompute does not apply the `min_play_time` gate (`PointsRules.HistoricalTimePoints`).
- The capped time points can be negative. Say today's recomputed sum is over 45 and this session reaches no tier. Then the remaining allowance, a negative number, is taken as the time points and reduces the ad points before the floor at 0 (`PointsRules.NegativeTimePoints`).
- The device-language check follows the code's whole fallback chain. If `getLocales()` throws or reports nothing, it tries `Localization.locale`, then the first entry of `Localization.locales` (`I18n.SystemLanguage`).
- Suppose `CORS_ORIGIN` is set but empty. `"".split(',')` is `[""]`, not an empty list, so the allow-all branch is not taken. Every request that sends an `Origin` header is refused (`Cors.EmptySettingRefuses`).
- The seeded `points_15min`/`points_30min`/`points_60min` rules are never read: the tiers 10/20/45 are constants of the code.

## Model

| member | source | states |
|---|---|---|
| JsText.Trim | server/src/utils/captcha.ts:72 | `trim` removes exactly the leading and trailing white space: the result is a slice with white space outside it and none at its ends |
| JsText.TrimPadded | server/src/utils/captcha.ts:72 | trimming text padded with white space on both sides gives the unpadded text back |
| JsText.ToLower | server/src/utils/captcha.ts:72 | `toLowerCase` maps each ASCII capital to its small letter and keeps every other character, length preserved |
| JsText.LowerOfUpper | server/src/utils/captcha.ts:72 | lower-casing forgets the case the text was written in: `ToLower(ToUpper(s)) == ToLower(s)` |
| JsText.Split | server/src/index.ts:43 | `split(',')` yields pieces without the separator whose join with ',' is the input |
| JsText.SplitJoin | server/src/index.ts:43 | splitting a comma-join of comma-free parts gives the parts back |
| JsText.IntOr | server/src/routes/points.ts:33-40 | `parseInt(v) \|\| fallback`: NaN and 0 both give the fallback, any other parsed value is kept |
| JsText.ParseInt | server/src/routes/admin.ts:24-25 | `parseInt` gives NaN on blank text; a number only when the first non-blank character is a sign or a decimal digit, and always when it is 1 to 9 |
| JsText.DecimalString | server/src/routes/auth.ts:45 | `String(n)`: non-empty, starting with '-' exactly for a negative number |
| JsText.ParseIntDecimalString | server/src/routes/points.ts:31 | `parseInt(String(n)) == n` for every integer |
| Paging.QueryInt | server/src/routes/admin.ts:24-25 | `parseInt(q) \|\| fallback`: an absent parameter gives the fallback and the result is never 0 unless the fallback is |
| Paging.CeilDiv | server/src/routes/admin.ts:58 | `Math.ceil(total / limit)`: the least `t` with `total <= t * limit` for a positive limit |
| Paging.Window | server/src/routes/admin.ts:35-39 | Prisma `skip`/`take`: a negative skip fails; otherwise the rows after `skip`, at most `take` from the front, or from the back for a negative `take` |
| Paging.Take | server/src/routes/games.ts:79-86 | `take` alone: the first `take` rows, or the last `-take` rows for a negative value |
| Paging.PageOf | server/src/routes/admin.ts:26-60 | a page reply: 500 exactly when `(page - 1) * limit < 0`; otherwise page, limit, total, `ceil(total / limit)` and `hasMore == skip + returned < total`, with the rows of the window |
| Paging.Paginate | server/src/routes/games.ts:10-45 | the page `PageOf` gives for the parsed `page` and `limit` (page 1 and the route's default when absent, zero or NaN): a 500 exactly when the skip is negative, otherwise the `skip`/`take` window of the rows with the total, `Math.ceil(total / limit)` pages and `hasMore = skip + returned < total` |
| Paging.BeforeLastPage | server/src/routes/admin.ts:58-59 | with `t = ceil(total / limit)`, page `p` ends before the total exactly when `p < t` |
| Paging.HasMoreIffNotLast | server/src/routes/admin.ts:52-60 | for page >= 1 and a positive limit, `hasMore` holds exactly when the page is before `totalPages` |
| Paging.FirstPagesPrefix | server/src/routes/user.ts:103-109 | reading pages 1..n in order lists the first `n * limit` rows, each once, in order |
| Paging.AllPagesCover | server/src/routes/user.ts:103-109 | pages 1..totalPages together list the whole result |
| Sorting.SortBy | server/src/routes/games.ts:17 | `orderBy: { sortOrder: 'asc' }` returns a sorted permutation of the rows |
| Sorting.Filter | server/src/routes/games.ts:16 | a `where` filter keeps only passing rows, a sub-multiset of the table |
| Sorting.FilterKeeps | server/src/routes/games.ts:16 | every passing row is kept as often as it occurs |
| Sorting.FilterMembers | server/src/routes/games.ts:52-58 | a row is in the filtered list exactly when it is in the table and passes |
| Sorting.FilterSorted | server/src/routes/games.ts:15-19 | filtering keeps a sorted list sorted |
| Sorting.Reverse | server/src/routes/user.ts:77 | newest first: element `i` is element `n - 1 - i` of the insertion order, same multiset |
| Sorting.ReverseReverse | server/src/routes/user.ts:77 | reversing twice restores the list |
| Db.FindFirst | server/src/routes/points.ts:21-23 | a search on one unique column: a found position is the first row holding the key; `None` means no row holds it |
| Db.FindFirstSameColumn | server/src/routes/points.ts:21-23 | tables that agree on the searched column give the same answer, whatever their other columns hold |
| Db.UserByWallet | server/src/routes/points.ts:21-23 | `findUnique({ walletAddr })`: a found position holds that wallet; `None` means no row does |
| Db.UserById | server/src/routes/admin.ts:113-115 | `findUnique({ id })` on users: found position has that id; `None` means no row does |
| Db.PlayById | server/src/routes/points.ts:239-240 | `findUnique({ id })` on game plays, with the same found/absent guarantee |
| Db.GameById | server/src/routes/games.ts:109-125 | `findUnique({ id })` on games, with the same found/absent guarantee |
| Db.ConfigByKey | server/src/routes/config.ts:29-31 | `findUnique({ key })` on the rule table, with the same found/absent guarantee |
| Db.ConfigValue | server/src/routes/points.ts:233-236 | a value is found exactly when some row has the key, and it is the value of such a row |
| Db.PlaysOf | server/src/routes/user.ts:25-32 | the user's rows: each belongs to the user, and every row of the user is included |
| Db.Credit | server/src/routes/points.ts:188-193 | `points: { increment }` adds to one user's balance and changes nothing else |
| Db.Record | server/src/routes/points.ts:177-193 | storing a session appends exactly one row and credits its owner by its `earnedPoints` |
| Db.EarnedSumAppend | server/src/routes/points.ts:177-193 | appending a row adds its points to its owner's sum and leaves every other user's sum alone |
| Db.RecordPreservesBalanced | server/src/routes/points.ts:177-193 | appending a row and crediting the same points keeps every balance equal to its owner's row sum |
| Db.CreditKeepsWallets | server/src/routes/points.ts:188-193 | crediting a balance does not change any wallet lookup |
| PointsRules.RuleValue | server/src/routes/points.ts:30-34 | a rule read with `parseInt(value) \|\| fallback`: a missing key or NaN gives the fallback, and the result is never 0 unless the fallback is |
| PointsRules.RuleValueDecimal | server/src/routes/points.ts:31-40 | a value stored as `String(n)` reads back as `n`, except that 0 falls back to the default |
| PointsRules.LoadRules | server/src/routes/points.ts:30-40 | missing rules default to 50 points per click, cost 0 and minimum play time 900 seconds; click value and minimum time are never 0 |
| PointsRules.Minutes | server/src/routes/points.ts:37 | `Math.floor(duration / 60)`, floored for negative durations as well |
| PointsRules.Tier | server/src/routes/points.ts:84-99 | tier points are 45 from 60 minutes, 20 from 30, 10 from 15, else 0 |
| PointsRules.TierMonotone | server/src/routes/points.ts:84-99 | a longer session never reaches a lower tier |
| PointsRules.RawTimePoints | server/src/routes/points.ts:88-99 | below `min_play_time` the session earns 0; from it, exactly its tier |
| PointsRules.HistoricalTimePoints | server/src/routes/points.ts:62-81 | today's same-game sum is the sum of the tiers of the stored durations, with no `min_play_time` gate: between 0 and 45 per row |
| PointsRules.CapTimePoints | server/src/routes/points.ts:101-122 | positive raw points with no allowance left give 0; points over the allowance give the allowance; at or under 45 earned the result lies in [0, allowance]; over 45 with raw 0 it is the negative allowance |
| PointsRules.ValidAdClicks | server/src/routes/points.ts:139-146 | `min(reported, max(0, 3 - clicksToday))`: never more than reported or than the clicks left today; a negative report passes through |
| PointsRules.Milestone | server/src/routes/points.ts:203 | the label names the tier the minutes reach: "60分钟", "30分钟", "15分钟" or "未达标" |
| PointsRules.Evaluate | server/src/routes/points.ts:84-157 | the award: `max(0, time + ads - cost)`, ad points are valid clicks times the click value, time points never exceed the raw tier |
| PointsRules.DailyTimeCap | server/src/routes/points.ts:101-122 | however a day's sessions of one game are split, their time points total at most what is left of 45 |
| PointsRules.DailyAdCap | server/src/routes/points.ts:139-146 | on an abstract run of click reports, each counted against the clicks stored so far, non-negative reports are paid for at most the 3 clicks left; `PointsRoute.EarnDayAdCap` states this for real `/earn` calls |
| PointsRules.NegativeClicksRaiseCap | server/src/routes/points.ts:140-145 | negative reported clicks pass the cap, and a negative stored count raises the allowance (8 clicks paid) |
| PointsRules.NegativeTimePoints | server/src/routes/points.ts:103-122 | two full hours already played today make a short session's time points -45, eating 45 of its 150 ad points |
| PointsRoute.PlaysOnDay | server/src/routes/points.ts:126-137 | the user's rows of the day: exactly the stored rows with that user and day |
| PointsRoute.ClicksToday | server/src/routes/points.ts:126-140 | the sum of the clicks stored on the user's rows of the day, never negative when those rows' counts are not |
| PointsRoute.PlaysOfGame | server/src/routes/points.ts:48-60 | exactly the rows of one game |
| PointsRoute.Earn | server/src/routes/points.ts:8-212 | 401 without wallet, 400 for a falsy gameId, 404 for an unknown wallet, then success exactly when the game is stored and 500 for an unknown game, each failure writing nothing; on success one row appended with a non-negative award, the balance raised by it, and the reply's total and row id those of the new state |
| PointsRoute.EarnAward | server/src/routes/points.ts:30-157 | the award is `Evaluate` of the loaded rules, today's stored same-game durations and today's stored click count |
| PointsRoute.EarnAdvancesSameGameSum | server/src/routes/points.ts:62-81 | after `/earn`, today's same-game recomputed sum grows by this session's tier, whatever it was paid |
| PointsRoute.SameGameAppend | server/src/routes/points.ts:62-81 | a new row adds the tier of its duration to the recomputed sum of its own user, game and day |
| PointsRoute.EarnAdvancesClicks | server/src/routes/points.ts:178-186 | after `/earn`, today's stored click count grows by the reported count, not the valid count |
| PointsRoute.EarnStep | server/src/routes/points.ts:62-122 | one `/earn` call seen by the daily cap of one user's game |
| PointsRoute.EarnDayTimeCap | server/src/routes/points.ts:101-122 | any sequence of `/earn` calls for one user and game in a day pays in total at most what was left of the 45 time points when it began (`CapLeft`) |
| PointsRoute.EarnStepCap | server/src/routes/points.ts:101-122 | one call's time points plus what is left afterwards never exceed what was left before, and the caller still exists |
| PointsRoute.EarnDay | server/src/routes/points.ts:177-193 | a run of `/earn` calls leaves the catalogue and the rules alone, keeps the stored rows as a prefix and adds at most one row per call |
| PointsRoute.PaidClicksPriced | server/src/routes/points.ts:138-146 | the ad points of a successful call are the clicks it is paid for times `points_per_ad_click` |
| PointsRoute.EarnStepClicks | server/src/routes/points.ts:138-146 | the clicks one call is paid for plus the clicks left afterwards never exceed the clicks left before, and the caller still exists |
| PointsRoute.EarnDayAdCap | server/src/routes/points.ts:138-146 | any sequence of `/earn` calls from one wallet with non-negative reports is paid in total for at most the clicks left of the 3 per day when it began |
| PointsRoute.EarnPreservesBalanced | server/src/routes/points.ts:177-193 | `/earn` keeps the ledger balanced |
| PointsRoute.ClickValue | server/src/routes/points.ts:236 | `parseInt(value \|\| '50')`: a missing or empty value is 50 and `String(n)` reads as `n`, 0 included |
| PointsRoute.Bump | server/src/routes/points.ts:239-245 | one row gets one more click and `pts` more points; all others unchanged |
| PointsRoute.AdClick | server/src/routes/points.ts:215-264 | 400 without wallet or row id, 404 for an unknown wallet, failures writing nothing; for a known wallet, success exactly for a stored row and a numeric click value (500 otherwise), and then that row is bumped and the caller credited by the same value, with no cap |
| PointsRoute.AdClickZeroValue | server/src/routes/points.ts:236 | a stored "0" pays 0 per click here, while `/earn` reads the same value as 50 |
| PointsRoute.AdClickOwnRowPreservesBalanced | server/src/routes/points.ts:239-253 | a click on one of the caller's own rows keeps the ledger balanced |
| PointsRoute.BumpOwnRowPreservesBalanced | server/src/routes/points.ts:239-253 | adding the same points to a row and to its owner's balance keeps every balance equal to its rows' sum |
| PointsRoute.AdClickForeignRowUnbalances | server/src/routes/points.ts:239-253 | a paid click on another user's row breaks the ledger: the row owner and the caller are different users |
| ClientStore.StartGameSession | services/store.ts:157-165 | a new session for the game at `now` with no row id and 0 clicks replaces any previous one; nothing else changes |
| ClientStore.ReportAdClick | services/store.ts:234-248 | with a session the click counter grows by exactly 1; without one nothing changes |
| ClientStore.ClicksCounted | services/store.ts:234-248 | `n` clicks after a start leave the counter at `n` |
| ClientStore.Seconds | services/store.ts:184 | `Math.floor(ms / 1000)` |
| ClientStore.PendingSubmission | services/store.ts:167-185 | a submission is made exactly when a session and a user exist and the session has no row id yet; it carries the whole seconds elapsed and the click count |
| ClientStore.EndGameSession | services/store.ts:167-232 | no submission clears the session and returns null; a failed one clears it and returns null; a successful one stamps the row id, takes the server's total as the user's points and returns the points earned |
| ClientStore.ClearSession | services/store.ts:213-215 | the delayed clear drops the session and nothing else |
| ClientStore.SubmitOnce | services/store.ts:176-181 | after a successful submission, ending again, before or after the delayed clear, submits nothing |
| ClientStore.RefreshUserProfile | services/store.ts:250-269 | a loaded profile replaces user and stats; a failure keeps both |
| ClientStore.Login | services/store.ts:67-101 | always returns true and records the wallet; a thrown request logs in offline as user 0 with 0 points; a refused one keeps the previous user |
| ClientStore.Logout | services/store.ts:103-112 | user, stats, wallet and session are cleared; the loaded catalogue stays |
| ClientStore.LoadGames | services/store.ts:114-134 | nothing is requested without reset once the last page was reached; otherwise page 1 on reset, else the current page; a loaded page replaces or extends the list and advances the page |
| ClientStore.LoadMoreAccumulates | services/store.ts:114-134 | successive successful loads append exactly their pages' games in order and advance one page each |
| ClientStore.LoadMoreStops | services/store.ts:114-134 | after the last page further loads change nothing |
| ClientStore.LoadMore | services/store.ts:114-134 | further loads only extend the loaded games and advance the page; every other field except the loading flag and `hasMoreGames` is unchanged |
| AdminRoutes.MatchingUsers | server/src/routes/admin.ts:27-32 | `walletAddr: { contains: search }`: exactly the users whose wallet contains the text |
| AdminRoutes.EmptySearchKeepsAll | server/src/routes/admin.ts:27-32 | an empty search keeps every user |
| AdminRoutes.SearchedUsers | server/src/routes/admin.ts:27-32 | the users listed are exactly the stored users whose wallet contains the search text; an absent or empty search keeps the whole table |
| AdminRoutes.ListUsers | server/src/routes/admin.ts:22-66 | exactly the page `PageOf` cuts from the matching users newest first (reverse insertion order), with default limit 20: 500 exactly for a negative skip, otherwise the window, the total of matching users, `totalPages` and `hasMore` |
| AdminRoutes.UpdateUser | server/src/routes/admin.ts:104-131 | an unknown or NaN id or a NaN balance gives 500 and no change; otherwise only that user changes, taking the parsed balance and the avatar when present |
| AdminRoutes.EmptyEditChangesNothing | server/src/routes/admin.ts:109-111 | a body with neither field leaves the table as it was |
| AdminRoutes.EditPointsRoundTrip | server/src/routes/admin.ts:110 | a balance sent as `String(n)` is stored as `n` |
| AdminRoutes.FlagOf | server/src/routes/admin.ts:421-423 | only the names isBanner, isHot and isActive name a flag, each its own |
| AdminRoutes.SetFlag | server/src/routes/admin.ts:436-437 | one flag set to the value, the other flags and every other column kept |
| AdminRoutes.Toggle | server/src/routes/admin.ts:416-449 | 400 for any other field name, 500 for a NaN id, 404 for an unknown game; a valid flag on a stored game always succeeds, and then only that game changes, with that flag negated and nothing else |
| AdminRoutes.ToggleTwiceRestores | server/src/routes/admin.ts:436-442 | toggling the same flag twice restores the table |
| AdminRoutes.OrNull | server/src/routes/admin.ts:313-318 | `x \|\| null`: present exactly when the text is non-empty, and then the text itself |
| AdminRoutes.MaxSortOrder | server/src/routes/admin.ts:283-287 | `_max.sortOrder`: absent for an empty table, otherwise an upper bound attained by some game |
| AdminRoutes.NextSortOrder | server/src/routes/admin.ts:280-289 | above every stored sort order; 0 in an empty table, else exactly one past the largest |
| AdminRoutes.CreateGame | server/src/routes/admin.ts:258-334 | 400 unless name, icon and url are non-empty; 400 for a source URL without a GameDistribution id; otherwise one game appended with the form's fields and the defaults (description and shortDesc `''`, bannerImage and empty ids `null`, active, not banner/hot, landscape, next sort order) and a page saved exactly when a source URL is given |
| AdminRoutes.CreatedGameFound | server/src/routes/admin.ts:303-321 | the created game is found under its new id and ids stay allocated |
| AdminRoutes.ApplyPatch | server/src/routes/admin.ts:394-397 | each of the fields name, url, icon, description, shortDesc, orientation, isBanner, isHot, isActive, isGameDistribution, bannerImage, gameDistributionId, sourceUrl and htmlFileName is overwritten when present in the body and kept when absent; the id is kept and `sortOrder` takes the already parsed value |
| AdminRoutes.UpdateGame | server/src/routes/admin.ts:337-349 | a NaN id fails with 500 and an unknown id with 404, both writing nothing and touching no file; a found game is updated as `UpdateFound` states |
| AdminRoutes.UpdateFound | server/src/routes/admin.ts:351-404 | regenerates exactly when the effective source URL is set and a page field in the body differs from the stored one, deleting the old page and saving one named from the URL with the body's name (else the stored one), the effective GameDistribution id and the effective URL; 400 then without a GameDistribution id; drops the page and the source URL when no source URL remains and a page exists; no file work otherwise; 500 for a NaN sort order, after the file work; on success only that row changes, keeping its id; every field the body carries (name, url, icon, description, shortDesc, orientation, isBanner, isHot, isActive, isGameDistribution, bannerImage, gameDistributionId, and sourceUrl and htmlFileName unless the page is rebuilt or dropped) is written and every other field kept |
| AdminRoutes.Regenerates | server/src/routes/admin.ts:356-365 | the file is rebuilt when the source URL the game will have is truthy and the body changes sourceUrl, url or gameDistributionId |
| AdminRoutes.Drops | server/src/routes/admin.ts:387-391 | the file is deleted when the source URL the game will have is falsy and a file name is stored |
| AdminRoutes.UntouchedSourceSavesNothing | server/src/routes/admin.ts:361-365 | a body without sourceUrl, url or gameDistributionId never writes a page |
| AdminRoutes.RepeatedUpdateSavesNothing | server/src/routes/admin.ts:361-365 | sending the same update again writes no second page |
| AdminRoutes.ClearedGdIdKeepsFlag | server/src/routes/admin.ts:394-397 | clearing the GameDistribution id leaves `isGameDistribution` as stored: the update does not recompute it |
| AdminRoutes.Bucket | server/src/routes/admin.ts:674-681 | the five bucket bounds 100, 500, 1000, 5000, each balance in exactly one bucket |
| AdminRoutes.DistributionCounts | server/src/routes/admin.ts:666-681 | each count is the number of users whose balance falls in that bucket |
| AdminRoutes.DistributionTotal | server/src/routes/admin.ts:666-681 | the five counts add up to the number of users |
| AdminRoutes.Distribution | server/src/routes/admin.ts:666-681 | five bucket counts, none above the number of users |
| AdminRoutes.EndOfLocalDay | server/src/routes/admin.ts:746-749 | `setHours(23, 59, 59, 999)`: the last millisecond of the same local day |
| AdminRoutes.ReadFilter | server/src/routes/admin.ts:735-751 | an invalid date fails the query; user and game filters are parsed ids; the start bound is the date itself, the end bound the end of its local day |
| AdminRoutes.Matches | server/src/routes/admin.ts:740-750 | a row passes when the user and game filters are 0 or equal its own, and its `createdAt` is within each bound that is given |
| AdminRoutes.EndDateCoversDay | server/src/routes/admin.ts:743-751 | a play on or before the end date's local day passes the end bound, one on a later day does not |
| AdminRoutes.ListGameplays | server/src/routes/admin.ts:730-792 | 500 exactly for an invalid date or a negative skip; otherwise exactly the page `PageOf` cuts from the matching plays newest first (reverse insertion order), with default limit 20, so the total counts the matching plays and every listed play is stored and matches |
| HtmlGenerator.TrailingSlashes | server/src/utils/html-generator.ts:13 | the number of '/' at the end of the text, and no more |
| HtmlGenerator.LastSegment | server/src/utils/html-generator.ts:13 | the suffix after the last '/', containing none |
| HtmlGenerator.Basename | server/src/utils/html-generator.ts:13 | `path.basename`: a '/'-free piece of the text ending where its trailing slashes begin, preceded by a '/' unless it is everything before them |
| HtmlGenerator.HtmlSuffixMatch | server/src/utils/html-generator.ts:17 | `/([^\/]+\.html)$/`: a match is a '/'-free suffix of the URL ending in ".html" with at least one character before it; no match means the last segment is not one |
| HtmlGenerator.ExtractFileName | server/src/utils/html-generator.ts:9-20 | a parsed pathname gives its basename, or "game.html" when empty; an unparsable URL gives its ".html" suffix or "game.html"; never empty and never containing '/' |
| HtmlGenerator.FallbackFindsFile | server/src/utils/html-generator.ts:15-18 | an unparsable URL ending in "/name.html" yields "name.html" |
| HtmlGenerator.ParsedPathFindsFile | server/src/utils/html-generator.ts:11-14 | a pathname ending in "/file" yields "file" |
| HtmlGenerator.BasenameIgnoresTrailingSlash | server/src/utils/html-generator.ts:13 | a trailing '/' does not change the basename |
| HtmlGenerator.IframeSrc | server/src/utils/html-generator.ts:61 | the player address starts with the GameDistribution prefix and ends with the game URL, unencoded |
| HtmlGenerator.UntilTag | server/src/utils/html-generator.ts:40 | the text before the first '<', as a reader of the page sees the title |
| HtmlGenerator.GenerateGameHtml | server/src/utils/html-generator.ts:29-40 | the page's title is the game name cut at its first '<': nothing is escaped |
| HtmlGenerator.TitleRoundTrip | server/src/utils/html-generator.ts:40 | a name without '<' is exactly the page's title |
| HtmlGenerator.SrcAfterTitle | server/src/utils/html-generator.ts:40-61 | the iframe address appears verbatim right after the fixed text that follows the title |
| Captcha.Generate | server/src/utils/captcha.ts:42-48 | the id maps to the code expiring 300000 ms after `now`; other entries are kept |
| Captcha.Verify | server/src/utils/captcha.ts:59-80 | unknown id: false; expired (`expiresAt < now`): false and removed; otherwise the case-insensitive trimmed match, consuming the entry only on success |
| Captcha.Sweep | server/src/utils/captcha.ts:15-22 | keeps exactly the entries with `now <= expiresAt`, unchanged |
| Captcha.GenerateThenVerify | server/src/utils/captcha.ts:44-72 | a fresh code typed back within 5 minutes, the last instant included, is accepted |
| Captcha.SingleUse | server/src/utils/captcha.ts:74-77 | after an accepted answer every later answer for that id fails |
| Captcha.SweepInvisible | server/src/utils/captcha.ts:15-22 | sweeping at `now` changes no verdict at `now` or later |
| Captcha.CaseIgnored | server/src/utils/captcha.ts:72 | upper-casing the answer does not change the verdict |
| Captcha.PaddingIgnored | server/src/utils/captcha.ts:72 | white space around the answer does not change the verdict |
| Seed.SeedConfigs | server/src/services/seed.ts:58-84 | creates, in order, only seed entries whose key is missing; existing rows are untouched; created + preserved is the number of entries; every seed key is stored afterwards |
| Seed.SeedConfigsNothingMissing | server/src/services/seed.ts:62-77 | when every key is stored, nothing is created and all are preserved |
| Seed.HasData | server/src/services/seed.ts:18 | some row exists in the users, plays, games or rules table |
| Seed.Clears | server/src/services/seed.ts:23-33 | the catalogue and the rules are emptied exactly when demo seeding is on and the database is empty or the run is forced |
| Seed.Numbered | server/src/services/seed.ts:328 | `createMany` assigns consecutive ids in order |
| Seed.SeedGames | server/src/services/seed.ts:314-332 | appends the seed games whose name and URL are both new, with consecutive ids |
| Seed.SeededGamesTaken | server/src/services/seed.ts:319-328 | afterwards every seed game's name or URL is taken |
| Seed.NoNewGames | server/src/services/seed.ts:323-325 | when every seed game's name or URL is taken, none is created |
| Seed.NewGames | server/src/services/seed.ts:316-325 | exactly the seed games whose name and URL both differ from every stored game |
| Seed.SeedAdmin | server/src/services/seed.ts:338-369 | the default administrator is created only in an existing, empty administrator table |
| Seed.SeedTables | server/src/services/seed.ts:6-335 | users and plays never change; nothing changes without demo seeding; without clearing the old rows stay as a prefix; every seed key and a game for every seed game's name or URL exist afterwards |
| Seed.SeedTablesIdempotent | server/src/services/seed.ts:18-37 | without a forced run, seeding the tables again changes nothing |
| Seed.SeedDatabase | server/src/services/seed.ts:6-372 | users and plays never change; without demo seeding no table changes; the administrator table exists afterwards exactly when it existed before, and then holds a row; a non-empty one is kept with its id counter; an empty one gets the `admin` row with the hashed default password |
| Seed.SeedIdempotent | server/src/services/seed.ts:6-372 | without a forced run, a second seeding changes nothing |
| Seed.ForcedRunRecreates | server/src/services/seed.ts:23-33 | a forced run rebuilds the catalogue and the rules from the seeds alone, with fresh game ids |
| AuthRoutes.AvatarNumber | server/src/routes/auth.ts:41 | `Math.floor(draw * 9) + 1` lies in 1..9 for a draw in [0, 1) |
| AuthRoutes.AvatarFile | server/src/routes/auth.ts:45 | "k.png" with a single digit 1-9 |
| AuthRoutes.FindOrCreate | server/src/routes/auth.ts:35-49 | an existing user is returned with nothing written; otherwise one user with that wallet, 0 points and a drawn avatar is appended under the next id |
| AuthRoutes.FindOrCreateUnique | server/src/routes/auth.ts:35-49 | afterwards exactly one user has the wallet, and wallets stay unique |
| AuthRoutes.FindOrCreateTwice | server/src/routes/auth.ts:35-49 | a second sign-in with the same wallet creates nothing and finds the same user |
| AuthRoutes.FindOrCreatePreservesBalanced | server/src/routes/auth.ts:42-47 | a new user has no rows and no points, so the ledger stays balanced |
| AuthRoutes.Login | server/src/routes/auth.ts:10-65 | 400 when a field is missing; 401 only when the signature checks false; otherwise find-or-create, so a throwing check lets the sign-in through |
| AuthRoutes.DevLogin | server/src/routes/auth.ts:68-106 | 400 without a wallet; otherwise find-or-create with no signature |
| AuthRoutes.ThrowingCheckActsAsDevLogin | server/src/routes/auth.ts:29-32 | with all fields present, a throwing check signs in exactly as the development route does |
| AdminGate.BearerToken | server/src/middleware/auth.ts:13-19 | a token exactly when the header starts with "Bearer ", and the header is that prefix followed by the token |
| AdminGate.BearerRoundTrip | server/src/middleware/auth.ts:19 | the token sent after "Bearer " is the token read back |
| AdminGate.RequireAdmin | server/src/middleware/auth.ts:12-28 | 401 "No token provided" without the scheme, 401 "Invalid token" for a rejected token; admitted exactly when the token verifies, with its payload |
| AdminGate.ValidTokenAdmitted | server/src/middleware/auth.ts:19-27 | a header holding a verifying token is admitted with that payload |
| AdminGate.SchemeIsCaseSensitive | server/src/middleware/auth.ts:15 | a lower-case "bearer " is refused whatever follows |
| AdminAuth.AdminByName | server/src/routes/admin-auth.ts:40-42 | `findUnique({ username })`: a found position has that name; `None` means no administrator does |
| AdminAuth.AdminById | server/src/routes/admin-auth.ts:140-142 | `findUnique({ id })` on administrators, with the same found/absent guarantee |
| AdminAuth.AdminByNameUnique | server/src/routes/admin-auth.ts:40-42 | a unique name is found at its own position |
| AdminAuth.Login | server/src/routes/admin-auth.ts:23-73 | in order: 400 without name or password, 400 without captcha, 400 for a failed captcha, 401 "Invalid credentials" for an unknown name or wrong password; success signs `{adminId, username, role}` and echoes them; the captcha store changes only through the captcha check |
| AdminAuth.CredentialFailuresAlike | server/src/routes/admin-auth.ts:44-52 | an unknown name and a wrong password get the same reply and leave the same captcha store |
| AdminAuth.CaptchaNotReusable | server/src/routes/admin-auth.ts:36-38 | a captcha that let one attempt through, whatever its outcome, refuses the next attempt that reuses it |
| AdminAuth.LoginSucceeds | server/src/routes/admin-auth.ts:23-68 | a fresh captcha typed back in time, a known name and a matching password sign in |
| AdminAuth.ConsoleCaller | server/src/routes/admin-auth.ts:78-90 | the token payload, with either gate failure answered by a bare 401 |
| AdminAuth.Me | server/src/routes/admin-auth.ts:76-111 | 401 "Unauthorized" without a verifying Bearer token, 404 for an unknown id, else that administrator's public fields |
| AdminAuth.ChangePassword | server/src/routes/admin-auth.ts:114-166 | 401 without a verifying token, 400 for a missing field or a new password under 6 characters, 404 for an unknown id, 401 for a wrong old password; otherwise only that administrator's hash changes, to the hash of the new password |
| AdminAuth.ChangeThenLogin | server/src/routes/admin-auth.ts:154-161 | after a change, with a hash the comparison accepts, the new password signs in with the administrator's unchanged id, name and role |
| UserRoutes.Caller | server/src/routes/user.ts:12-22 | 401 without the wallet header, 404 for an unknown wallet, else the position holding that wallet |
| UserRoutes.GetProfile | server/src/routes/user.ts:8-52 | the caller's row with the count of its rows and the sums of their durations and points, 0 for no rows; the caller's errors otherwise |
| UserRoutes.EarnedIsBalance | server/src/routes/user.ts:25-46 | on a balanced ledger the lifetime points earned equal the balance shown |
| UserRoutes.RecordShowsInProfile | server/src/routes/user.ts:25-46 | recording a session of the caller adds one game, its duration and its points to the totals |
| UserRoutes.HistoryRows | server/src/routes/user.ts:74-102 | the caller's rows in reverse insertion order, each shown as id, game, duration, points and `playedAt = createdAt` |
| UserRoutes.PlaysOfInOrder | server/src/routes/user.ts:76-77 | picking one user's rows keeps creation order |
| UserRoutes.NewestFirst | server/src/routes/user.ts:77 | with rows stored in creation order, the history is ordered newest first |
| UserRoutes.History | server/src/routes/user.ts:55-115 | the caller's errors; 500 exactly for a negative skip; otherwise the requested page of the caller's entries, newest first, with the total of the caller's rows |
| UserRoutes.OwnEntries | server/src/routes/user.ts:76 | every history entry shows one of the caller's own rows |
| UserRoutes.CallerAfterRecord | server/src/routes/user.ts:66-68 | recording a session moves nobody in the wallet lookup |
| UserRoutes.NewestRow | server/src/routes/user.ts:77 | a row just appended for a user heads that user's history |
| UserRoutes.LatestFirst | server/src/routes/user.ts:74-102 | the first entry of the first page is the session the caller recorded last |
| GamesRoutes.Selection | server/src/routes/games.ts:15-17 | the games passing the filter, sorted by `sortOrder`, exactly those games |
| GamesRoutes.ListGames | server/src/routes/games.ts:8-47 | exactly the page `PageOf` cuts from the active games in sort order, with default limit 10: 500 exactly for a negative skip, otherwise the window, the total of active games, `totalPages` and `hasMore`; the page is sorted for a positive limit |
| GamesRoutes.PageOfSorted | server/src/routes/games.ts:15-19 | a page of a sorted list holds rows of the list, sorted when the limit is positive |
| GamesRoutes.Banners | server/src/routes/games.ts:50-74 | exactly the active banner games, in ascending sort order |
| GamesRoutes.HotGames | server/src/routes/games.ts:77-102 | active hot games only, sorted, at most 8 without a limit parameter |
| GamesRoutes.HotGamesHead | server/src/routes/games.ts:79-86 | with a non-negative limit the hot list is the head of all active hot games in order |
| GamesRoutes.HotLimitPrefix | server/src/routes/games.ts:79-86 | a larger limit extends the list: the smaller answer is a prefix |
| GamesRoutes.Detail | server/src/routes/games.ts:105-132 | 500 for a NaN id, 404 "Game not found" for an unknown id, else the stored game with that id, active or not |
| GamesRoutes.DetailOfEveryGame | server/src/routes/games.ts:109-125 | every stored game, active or not, is served under its own id |
| GamesRoutes.ListedGamesOpen | server/src/routes/games.ts:15-125 | every game on a catalogue page, banner or hot list opens with the detail route |
| ConfigRoutes.Rules | server/src/routes/config.ts:8-24 | the keys of the map are exactly the stored keys, and the last row always shows under its own key |
| ConfigRoutes.RulesShowEveryRow | server/src/routes/config.ts:12-17 | with unique keys, every row is shown under its own key |
| ConfigRoutes.ValueHash | server/src/routes/config.ts:36 | at most 16 characters; `ShortValueRecoverable` and `SharedPrefixSameId` state what they hold |
| ConfigRoutes.AnnouncementId | server/src/routes/config.ts:37 | starts with the row id in decimal and '_', and ends with the value hash |
| ConfigRoutes.GetAnnouncement | server/src/routes/config.ts:27-52 | nothing shown for a missing or empty value; otherwise the id, the description or "公告" as title, and the raw value as content |
| ConfigRoutes.SharedPrefixSameId | server/src/routes/config.ts:36-37 | two texts whose UTF-8 bytes agree on the first 12 get the same id |
| ConfigRoutes.ShortValueRecoverable | server/src/routes/config.ts:36 | a text of at most 12 UTF-8 bytes is wholly in its hash: the hash decodes back to its bytes |
| ConfigRoutes.ShortValuesDistinct | server/src/routes/config.ts:36-37 | two short texts in the same row differ exactly when their ids do |
| ConfigRoutes.OrElse | server/src/routes/config.ts:76-78 | `x \|\| fallback` on an optional text: the field or the fallback, the field whenever it is truthy, and empty only when both are |
| ConfigRoutes.GetExchangeInfo | server/src/routes/config.ts:55-92 | the fixed default for a missing or empty value; for text that is not JSON the default title and icon with the raw value; for a JSON object each field or its default; 500 for JSON `null` |
| ConfigRoutes.ExchangeFieldsNeverEmpty | server/src/routes/config.ts:61-86 | whatever is stored, a notice that is shown has no empty field |
| Base64.Utf8 | server/src/routes/config.ts:36 | the UTF-8 bytes of a text: between one and four bytes per character |
| Base64.Utf8Append | server/src/routes/config.ts:36 | the bytes of a concatenation are the concatenated bytes |
| Base64.DecodeEncode | server/src/routes/config.ts:36 | decoding inverts Base64 encoding on every byte sequence |
| Base64.EncodeLength | server/src/routes/config.ts:36 | every group of three bytes becomes four characters |
| Base64.EncodePrefix | server/src/routes/config.ts:36 | the first `4n` characters of an encoding depend only on the first `3n` bytes |
| Base64.Encode | server/src/routes/config.ts:36 | `toString('base64')`: a length that is a multiple of 4, empty exactly for no bytes |
| Base64.Decode | server/src/routes/config.ts:36 | the decoder of section 4 of RFC 4648, which `DecodeEncode` pairs with the encoder: a text it accepts has a length that is a multiple of 4, at most 3 bytes per 4 characters, and no bytes only for empty text |
| I18n.LanguageName | services/i18n.ts:246-265 | the stored names "system", "en", "zh" |
| I18n.LanguageNameInjective | services/i18n.ts:249 | different choices are stored as different texts |
| I18n.CurrentLanguage | services/i18n.ts:246-256 | the stored choice when it is one of the three names, otherwise, or when the read fails, "system" |
| I18n.SetLanguage | services/i18n.ts:259-265 | a successful write stores the name; a failed one leaves the store unchanged |
| I18n.SetThenGet | services/i18n.ts:246-265 | a choice written successfully is read back |
| I18n.UnknownNameIsSystem | services/i18n.ts:249-255 | a stored text that is not one of the names reads as "system" |
| I18n.SystemLanguage | services/i18n.ts:197-243 | Chinese exactly when the first reported locale's code or tag starts with "zh" in any case; without a report, when `locale` or the first of `locales` does; otherwise English |
| I18n.ChineseVariants | services/i18n.ts:205-210 | any regional variant of Chinese as the first reported tag gives Chinese |
| I18n.SilentDeviceIsEnglish | services/i18n.ts:220-238 | a device that reports nothing at all is English |
| I18n.ActualLanguage | services/i18n.ts:268-273 | the device language for "system", the choice itself otherwise |
| I18n.ActualIdempotent | services/i18n.ts:268-273 | resolving a resolved language changes nothing |
| I18n.Translate | services/i18n.ts:276-279 | the resolved language's non-empty text, else the English text, else the key |
| I18n.MissingChineseFallsBack | services/i18n.ts:278 | a key the Chinese table lacks reads as in English |
| I18n.EnglishIgnoresChinese | services/i18n.ts:278 | English text never depends on the Chinese table |
| I18n.SystemFollowsDevice | services/i18n.ts:268-279 | "system" reads exactly as the device language chosen explicitly |
| Cors.AllowList | server/src/index.ts:43 | no entries exactly when `CORS_ORIGIN` is unset; otherwise its comma-split pieces |
| Cors.Allows | server/src/index.ts:36-57 | allowed in development, with an empty list, without an Origin header, or when the origin equals an entry; refused otherwise |
| Cors.ListedOriginsExactly | server/src/index.ts:43-52 | listing comma-free origins allows exactly those origins, compared verbatim |
| Cors.SpacesNotTrimmed | server/src/index.ts:43-52 | "a, b" does not allow "b": spaces after commas are kept |
| Cors.EmptySettingRefuses | server/src/index.ts:43-56 | a set but empty `CORS_ORIGIN` refuses every request that names an origin |

## Left out

- Prisma, SQLite and Express. Tables are sequences in insertion order and queries are filters, sums and counts. A handler's `try`/`catch` becomes an `Err(500, ...)` in the cases the model can name: a NaN id, a negative `skip`, an unknown foreign key.
- Column projections (`select`, `include`). Rows come back whole, with their related game rather than the picked fields.
- The database's own behaviour is assumed in three places:
  - Rows ordered by `createdAt` desc are the reverse of insertion order. `UserRoutes.NewestFirst` proves the history newest first when rows are stored in creation order.
  - Ties in `sortOrder` keep table order.
  - SQLite `contains` is taken as case-sensitive.
- The Prisma `take` with a negative value counts from the end. This is modelled as Prisma documents it; no database was consulted.
- Concurrency:
  - the two writes of `/earn` are not in a transaction and are modelled in sequence;
  - `Promise.all` fan-out is not modelled;
  - the `setInterval` captcha sweep is modelled by its body at one instant;
  - the `setTimeout` session clear is a separate transition (`ClientStore.ClearSession`).
- Clocks. Times are integer milliseconds and days are integer day indices. The local-time offset is a fixed parameter, so daylight-saving changes are not modelled.
- Random draws:
  - the avatar draw is a real number in [0, 1);
  - the captcha id and code are parameters.
- Libraries and their checks, each an input function or value:
  - bcrypt hashing and comparison;
  - JWT signing and verification;
  - tweetnacl/bs58 signature checking, as valid, invalid or throwing;
  - svg-captcha pictures;
  - WHATWG `URL` parsing (the pathname or a failure);
  - `JSON.parse`, as an outcome datatype;
  - expo-localization;
  - AsyncStorage;
  - `fetch` and the client API layer.
- JSON values that are not strings in the exchange notice's `title`, `icon` and `description`. Such a field is modelled as absent when falsy; a truthy non-string value is not modelled.
- Number widths. Integers are unbounded, so 32-bit storage limits and JavaScript float arithmetic are not modelled. `parseInt` is modelled on decimal and `0x` text; `parseInt` of a fractional or exponent number text is not modelled.
- Text length. Password length counts Unicode scalar values, not UTF-16 code units, so a password of astral characters differs from JavaScript's count. Letter case is ASCII only: `toLowerCase` of other scripts is not modelled.
- File I/O. `saveHTMLFile` and `deleteHTMLFile` become the file operations a route returns. The download route and static serving are not modelled.
- Routes outside the modelled core:
  - console user detail, user delete and a user's game plays;
  - the console game list, game detail, game delete and HTML download;
  - rule CRUD;
  - the dashboard statistics (`/stats`, `/stats/games`) and the user-registration series of `/stats/users`, whose points histogram is modelled;
  - game-play detail and delete;
  - the captcha picture route `GET /captcha`.
- Client-side parts outside the core: `getSystemLanguageTag`, the store's `loadBanners` and `loadHotGames`, and every screen and component.
- The seed rows themselves (rule entries, demo games, the default password's hash) are parameters, not their literal contents.
- Seed.SeedTables: the relation from game plays to games is not part of this model. The clearing `game.deleteMany()` is taken to succeed and leaves stored plays naming removed games. Under a restricting foreign key the seeder would throw instead; under a cascading one the plays would be deleted too.
- Seed.ForcedRunRecreates: rests on the same assumption. The rebuilt catalogue gets fresh ids, and stored plays keep naming the old ones.
- PointsRoute.Earn: `gameId` is an integer. A string `gameId` is not represented: the text "0" passes the `!gameId` check (server/src/routes/points.ts:17) and then fails through `parseInt` and the foreign key (lines 51 and 181), and non-numeric text gives NaN.
- PointsRoute.AdClick: `gamePlayId` is an integer. A string id sent in the body is not represented: the text "0" passes the `!gamePlayId` check (server/src/routes/points.ts:220) and then names no row in the `parseInt` update (line 240), and non-numeric text gives NaN there; both end in a 500. The client always sends a number.
- AdminAuth.Me: the reply carries the id, username and role; the `createdAt` the route also selects (server/src/routes/admin-auth.ts:98) is not part of the administrator row in this model.
- AdminRoutes.UpdateGame: the body has no `id`, `createdAt` or `updatedAt`. The console form sends all three back and `data: req.body` writes them (server/src/routes/admin.ts:340); that write is not modelled.

=== FILE: admin_auth.dfy ===
/**
 * The console's own account routes: sign-in behind a captcha, the "who am I"
 * lookup and the password change. Password hashing and comparison and token
 * signing are inputs.
 */
module AdminAuth {
  import opened Wrappers
  import opened JsText
  import opened Db
  import Captcha
  import opened AdminGate

  /** `findUnique({ where: { username } })` on the administrator table. */
  function AdminByName(admins: seq<Admin>, username: string): (r: Option<nat>)
    ensures r.Some? ==> r.value < |admins| && admins[r.value].username == username
    ensures r.None? ==> forall i :: 0 <= i < |admins| ==> admins[i].username != username
  {
    FindFirst(admins, (x: Admin) => x.username, username)
  }

  /** `findUnique({ where: { id } })` on the administrator table. */
  function AdminById(admins: seq<Admin>, id: int): (r: Option<nat>)
    ensures r.Some? ==> r.value < |admins| && admins[r.value].id == id
    ensures r.None? ==> forall i :: 0 <= i < |admins| ==> admins[i].id != id
  {
    FindFirst(admins, (x: Admin) => x.id, id)
  }

  /** Usernames are unique (the column is unique). */
  predicate UniqueNames(admins: seq<Admin>) {
    forall i, j :: 0 <= i < j < |admins| ==> admins[i].username != admins[j].username
  }

  /** A unique name is found at its own position. */
  lemma AdminByNameUnique(admins: seq<Admin>, i: nat)
    requires UniqueNames(admins) && i < |admins|
    ensures AdminByName(admins, admins[i].username) == Some(i)
  {
  }

  datatype LoginBody = LoginBody(username: Option<string>, password: Option<string>, captchaId: Option<string>, captcha: Option<string>)

  /** A successful sign-in: the signed token and the administrator's public fields. */
  datatype Session = Session(token: string, id: nat, username: string, role: string)

  const CaptchaMissing: string := "验证码不能为空"
  const CaptchaWrong: string := "验证码错误或已过期"
  const BadCredentials: string := "Invalid credentials"

  /**
   * `POST /login` at time `now`: the captcha store afterwards and the reply.
   * `matches(plain, hash)` is the password comparison and `sign` the token signer.
   */
  function Login(store: Captcha.Store, admins: seq<Admin>, body: LoginBody, now: int,
                 matches: (string, string) -> bool, sign: TokenPayload -> string): (r: (Captcha.Store, Reply<Session>))
    ensures !(Truthy(body.username) && Truthy(body.password)) ==>
      r == (store, Err(400, "Username and password are required"))
    ensures Truthy(body.username) && Truthy(body.password) && !(Truthy(body.captchaId) && Truthy(body.captcha)) ==>
      r == (store, Err(400, CaptchaMissing))
    ensures Truthy(body.username) && Truthy(body.password) && Truthy(body.captchaId) && Truthy(body.captcha) ==>
      var v := Captcha.Verify(store, body.captchaId.value, body.captcha.value, now);
      && r.0 == v.0
      && (!v.1 ==> r.1 == Err(400, CaptchaWrong))
      && (v.1 && AdminByName(admins, body.username.value).None? ==> r.1 == Err(401, BadCredentials))
      && (v.1 && AdminByName(admins, body.username.value).Some? ==>
            var a := admins[AdminByName(admins, body.username.value).value];
            if matches(body.password.value, a.password)
            then r.1 == Ok(Session(sign(TokenPayload(a.id, a.username, a.role)), a.id, a.username, a.role))
            else r.1 == Err(401, BadCredentials))
  {
    if !(Truthy(body.username) && Truthy(body.password)) then (store, Err(400, "Username and password are required"))
    else if !(Truthy(body.captchaId) && Truthy(body.captcha)) then (store, Err(400, CaptchaMissing))
    else
      var v := Captcha.Verify(store, body.captchaId.value, body.captcha.value, now);
      if !v.1 then (v.0, Err(400, CaptchaWrong))
      else match AdminByName(admins, body.username.value)
        case None => (v.0, Err(401, BadCredentials))
        case Some(i) =>
          var a := admins[i];
          if !matches(body.password.value, a.password) then (v.0, Err(401, BadCredentials))
          else (v.0, Ok(Session(sign(TokenPayload(a.id, a.username, a.role)), a.id, a.username, a.role)))
  }

  /** An unknown username and a wrong password get the same reply and leave the same store. */
  lemma CredentialFailuresAlike(store: Captcha.Store, unknownIn: seq<Admin>, wrongIn: seq<Admin>, body: LoginBody, now: int,
                                matches: (string, string) -> bool, sign: TokenPayload -> string)
    requires Truthy(body.username) && Truthy(body.password)
    requires AdminByName(unknownIn, body.username.value).None?
    requires AdminByName(wrongIn, body.username.value).Some?
    requires !matches(body.password.value, wrongIn[AdminByName(wrongIn, body.username.value).value].password)
    ensures Login(store, unknownIn, body, now, matches, sign) == Login(store, wrongIn, body, now, matches, sign)
  {
  }

  /** A captcha that let one attempt through, whatever its outcome, refuses the next attempt that reuses it. */
  lemma CaptchaNotReusable(store: Captcha.Store, admins: seq<Admin>, body: LoginBody, now: int,
                           admins2: seq<Admin>, body2: LoginBody, later: int,
                           matches: (string, string) -> bool, sign: TokenPayload -> string)
    requires var r := Login(store, admins, body, now, matches, sign);
      r.1.Ok? || r.1 == Err(401, BadCredentials)
    requires Truthy(body2.username) && Truthy(body2.password) && body2.captchaId == body.captchaId && Truthy(body2.captcha)
    ensures var r := Login(store, admins, body, now, matches, sign);
      Login(r.0, admins2, body2, later, matches, sign).1 == Err(400, CaptchaWrong)
  {
  }

  /**
   * The whole sign-in: a captcha generated at `now` and typed back within its
   * lifetime, a known username and the right password give a session for that
   * administrator.
   */
  lemma LoginSucceeds(store: Captcha.Store, admins: seq<Admin>, i: nat, plain: string, id: string, text: string,
                      now: int, later: int, matches: (string, string) -> bool, sign: TokenPayload -> string)
    requires UniqueNames(admins) && i < |admins|
    requires admins[i].username != "" && plain != "" && id != "" && text != ""
    requires forall k :: 0 <= k < |text| ==> text[k] in Captcha.Preset
    requires now <= later <= now + Captcha.Lifetime
    requires matches(plain, admins[i].password)
    ensures var a := admins[i];
      var body := LoginBody(Some(a.username), Some(plain), Some(id), Some(text));
      Login(Captcha.Generate(store, id, text, now), admins, body, later, matches, sign).1
        == Ok(Session(sign(TokenPayload(a.id, a.username, a.role)), a.id, a.username, a.role))
  {
    Captcha.GenerateThenVerify(store, id, text, now, later);
    AdminByNameUnique(admins, i);
  }

  /** The payload of a console request, with every rejection of the gate answered by a bare 401. */
  function ConsoleCaller(header: Option<string>, verify: string -> Option<TokenPayload>): (r: Option<TokenPayload>)
    ensures r.Some? <==> RequireAdmin(header, verify).Admitted?
    ensures r.Some? ==> r.value == verify(BearerToken(header).value).value
  {
    match RequireAdmin(header, verify)
    case Admitted(p) => Some(p)
    case Rejected(_, _) => None
  }

  /** The public fields of an administrator. */
  datatype Profile = Profile(id: nat, username: string, role: string)

  /** `GET /me`: the calling administrator, looked up by the id in the token. */
  function Me(admins: seq<Admin>, header: Option<string>, verify: string -> Option<TokenPayload>): (r: Reply<Profile>)
    ensures ConsoleCaller(header, verify).None? ==> r == Err(401, "Unauthorized")
    ensures r.Ok? <==> ConsoleCaller(header, verify).Some? && AdminById(admins, ConsoleCaller(header, verify).value.adminId).Some?
    ensures r.Err? && ConsoleCaller(header, verify).Some? ==> r == Err(404, "Admin not found")
    ensures r.Ok? ==> exists i :: (0 <= i < |admins| && admins[i].id == ConsoleCaller(header, verify).value.adminId
      && r.value == Profile(admins[i].id, admins[i].username, admins[i].role))
  {
    match ConsoleCaller(header, verify)
    case None => Err(401, "Unauthorized")
    case Some(p) =>
      match AdminById(admins, p.adminId)
      case None => Err(404, "Admin not found")
      case Some(i) => Ok(Profile(admins[i].id, admins[i].username, admins[i].role))
  }

  /** The shortest new password accepted. */
  const MinPasswordLength: nat := 6

  /**
   * `POST /change-password`: the administrator table afterwards and the reply.
   * `matches(plain, hash)` compares and `hash` hashes.
   */
  function ChangePassword(admins: seq<Admin>, header: Option<string>, verify: string -> Option<TokenPayload>,
                          oldPassword: Option<string>, newPassword: Option<string>,
                          matches: (string, string) -> bool, hash: string -> string): (r: (seq<Admin>, Reply<string>))
    ensures r.1.Err? ==> r.0 == admins
    ensures ConsoleCaller(header, verify).None? ==> r.1 == Err(401, "Unauthorized")
    ensures ConsoleCaller(header, verify).Some? && !(Truthy(oldPassword) && Truthy(newPassword)) ==>
      r.1 == Err(400, "Old password and new password are required")
    ensures ConsoleCaller(header, verify).Some? && Truthy(oldPassword) && Truthy(newPassword) && |newPassword.value| < MinPasswordLength ==>
      r.1 == Err(400, "New password must be at least 6 characters")
    ensures r.1.Ok? <==>
      && ConsoleCaller(header, verify).Some?
      && Truthy(oldPassword) && Truthy(newPassword) && |newPassword.value| >= MinPasswordLength
      && AdminById(admins, ConsoleCaller(header, verify).value.adminId).Some?
      && matches(oldPassword.value, admins[AdminById(admins, ConsoleCaller(header, verify).value.adminId).value].password)
    ensures r.1.Ok? ==>
      var i := AdminById(admins, ConsoleCaller(header, verify).value.adminId).value;
      && r.1.value == "Password changed successfully"
      && |r.0| == |admins|
      && r.0[i] == admins[i].(password := hash(newPassword.value))
      && forall j :: 0 <= j < |admins| && j != i ==> r.0[j] == admins[j]
  {
    match ConsoleCaller(header, verify)
    case None => (admins, Err(401, "Unauthorized"))
    case Some(p) =>
      if !(Truthy(oldPassword) && Truthy(newPassword)) then (admins, Err(400, "Old password and new password are required"))
      else if |newPassword.value| < MinPasswordLength then (admins, Err(400, "New password must be at least 6 characters"))
      else match AdminById(admins, p.adminId)
        case None => (admins, Err(404, "Admin not found"))
        case Some(i) =>
          if !matches(oldPassword.value, admins[i].password) then (admins, Err(401, "Invalid old password"))
          else (admins[i := admins[i].(password := hash(newPassword.value))], Ok("Password changed successfully"))
  }

  /**
   * After a password change, with a hash the comparison accepts for its own
   * input, the new password signs in and the username, id and role are unchanged.
   */
  lemma ChangeThenLogin(admins: seq<Admin>, header: Option<string>, verify: string -> Option<TokenPayload>,
                        oldPassword: Option<string>, newPassword: Option<string>,
                        matches: (string, string) -> bool, hash: string -> string,
                        store: Captcha.Store, captchaId: string, captcha: string, now: int, sign: TokenPayload -> string)
    requires UniqueNames(admins)
    requires forall s :: matches(s, hash(s))
    requires ChangePassword(admins, header, verify, oldPassword, newPassword, matches, hash).1.Ok?
    requires Captcha.Verify(store, captchaId, captcha, now).1 && captchaId != "" && captcha != ""
    ensures var i := AdminById(admins, ConsoleCaller(header, verify).value.adminId).value;
      var a := admins[i];
      var after := ChangePassword(admins, header, verify, oldPassword, newPassword, matches, hash).0;
      var body := LoginBody(Some(a.username), newPassword, Some(captchaId), Some(captcha));
      a.username != "" ==>
        Login(store, after, body, now, matches, sign).1
          == Ok(Session(sign(TokenPayload(a.id, a.username, a.role)), a.id, a.username, a.role))
  {
    var i := AdminById(admins, ConsoleCaller(header, verify).value.adminId).value;
    var after := ChangePassword(admins, header, verify, oldPassword, newPassword, matches, hash).0;
    assert UniqueNames(after) by {
      forall x, y | 0 <= x < y < |after| ensures after[x].username != after[y].username {
        assert after[x].username == admins[x].username && after[y].username == admins[y].username;
      }
    }
    AdminByNameUnique(after, i);
  }
}

=== FILE: admin_gate.dfy ===
/**
 * The console's bearer-token gate: the `Authorization` header must start with
 * "Bearer "; the rest is the token, and the token check (signature and expiry)
 * is an input that yields the signed payload or nothing.
 */
module AdminGate {
  import opened Wrappers
  import opened JsText

  /** What a console token carries. */
  datatype TokenPayload = TokenPayload(adminId: int, username: string, role: string)

  const Scheme: string := "Bearer "

  /** The token of an `Authorization` header: the text after "Bearer ", when the header starts so. */
  function BearerToken(header: Option<string>): (r: Option<string>)
    ensures r.Some? <==> header.Some? && StartsWith(header.value, Scheme)
    ensures r.Some? ==> header.value == Scheme + r.value
  {
    if header.Some? && StartsWith(header.value, Scheme) then
      assert header.value == header.value[..7] + header.value[7..];
      Some(header.value[7..])
    else None
  }

  /** The token sent is the token read back. */
  lemma BearerRoundTrip(token: string)
    ensures BearerToken(Some(Scheme + token)) == Some(token)
  {
    var h := Scheme + token;
    assert h[..7] == Scheme;
    assert h[7..] == token;
  }

  /** The outcome of the gate: the request goes on to its handler with the payload, or is answered 401. */
  datatype Gate = Admitted(payload: TokenPayload) | Rejected(status: nat, message: string)

  /** `requireAdmin`: `verify` is the token check. The handler runs exactly when the result is `Admitted`. */
  function RequireAdmin(header: Option<string>, verify: string -> Option<TokenPayload>): (r: Gate)
    ensures BearerToken(header).None? ==> r == Rejected(401, "Unauthorized: No token provided")
    ensures BearerToken(header).Some? && verify(BearerToken(header).value).None? ==> r == Rejected(401, "Unauthorized: Invalid token")
    ensures r.Admitted? <==> BearerToken(header).Some? && verify(BearerToken(header).value).Some?
    ensures r.Admitted? ==> r.payload == verify(BearerToken(header).value).value
  {
    match BearerToken(header)
    case None => Rejected(401, "Unauthorized: No token provided")
    case Some(token) =>
      match verify(token)
      case None => Rejected(401, "Unauthorized: Invalid token")
      case Some(p) => Admitted(p)
  }

  /** A header holding a token the check accepts is admitted with that token's payload. */
  lemma ValidTokenAdmitted(token: string, verify: string -> Option<TokenPayload>)
    requires verify(token).Some?
    ensures RequireAdmin(Some(Scheme + token), verify) == Admitted(verify(token).value)
  {
    BearerRoundTrip(token);
  }

  /** The scheme is matched exactly: a lower-case "bearer " is refused whatever follows. */
  lemma SchemeIsCaseSensitive(token: string, verify: string -> Option<TokenPayload>)
    ensures RequireAdmin(Some("bearer " + token), verify).Rejected?
  {
    var h := "bearer " + token;
    assert h[0] != Scheme[0];
  }
}

=== FILE: admin_routes.dfy ===
/**
 * The console's administration routes: the user list and user edit, the game
 * flag toggle, game creation and update with their HTML-file decisions, the
 * points histogram and the game-play filter. The HTML file writes and deletes
 * are reported as data; the file system itself is not modelled.
 */
module AdminRoutes {
  import opened Wrappers
  import opened JsText
  import opened Db
  import opened Paging
  import opened Sorting
  import HtmlGenerator

  const DefaultLimit: int := 20
  const ServerError: string := "Internal server error"

  // ---------------------------------------------------------------- users

  /** The users whose wallet contains `search`, in table order. */
  function MatchingUsers(users: seq<User>, search: string): (r: seq<User>)
    ensures forall i :: 0 <= i < |r| ==> r[i] in users && Contains(r[i].walletAddr, search)
    ensures forall u :: u in users && Contains(u.walletAddr, search) ==> u in r
  {
    var r := Filter(users, (u: User) => Contains(u.walletAddr, search));
    assert forall i :: 0 <= i < |r| ==> r[i] in multiset(users);
    assert forall u :: u in users && Contains(u.walletAddr, search) ==> u in r by {
      forall u | u in users && Contains(u.walletAddr, search) ensures u in r {
        FilterKeeps(users, (u: User) => Contains(u.walletAddr, search), u);
      }
    }
    r
  }

  /** An empty search keeps every user. */
  lemma EmptySearchKeepsAll(users: seq<User>)
    ensures MatchingUsers(users, "") == users
  {
    forall u: User ensures Contains(u.walletAddr, "") {
      ContainsTrivial(u.walletAddr);
    }
    FilterAll(users, (u: User) => Contains(u.walletAddr, ""));
  }

  /** The rows a `search` query parameter selects: every row when it is absent or empty. */
  function SearchedUsers(users: seq<User>, searchQ: Option<string>): (r: seq<User>)
    ensures forall u :: u in r <==> u in users && Contains(u.walletAddr, searchQ.GetOr(""))
    ensures searchQ.GetOr("") == "" ==> r == users
  {
    var search := searchQ.GetOr("");
    if search == "" then
      assert forall u: User :: Contains(u.walletAddr, "") by {
        forall u: User ensures Contains(u.walletAddr, "") {
          ContainsTrivial(u.walletAddr);
        }
      }
      users
    else
      var r := MatchingUsers(users, search);
      assert forall u :: u in r ==> u in users && Contains(u.walletAddr, search) by {
        forall u | u in r ensures u in users && Contains(u.walletAddr, search) {
          var i :| 0 <= i < |r| && r[i] == u;
        }
      }
      r
  }

  /**
   * `GET /users`: users whose wallet contains the search text, newest first,
   * paged with a default limit of 20.
   */
  function ListUsers(users: seq<User>, pageQ: Option<string>, limitQ: Option<string>, searchQ: Option<string>): (r: Reply<Page<User>>)
    ensures r.Err? <==> (QueryInt(pageQ, 1) - 1) * QueryInt(limitQ, DefaultLimit) < 0
    ensures r.Err? ==> r == Err(500, ServerError)
    ensures r.Ok? ==>
      && r.value.pagination.page == QueryInt(pageQ, 1)
      && r.value.pagination.limit == QueryInt(limitQ, DefaultLimit)
      && r.value.pagination.total == |SearchedUsers(users, searchQ)|
    ensures r.Ok? ==> forall i :: 0 <= i < |r.value.items| ==>
      r.value.items[i] in users && Contains(r.value.items[i].walletAddr, searchQ.GetOr(""))
    ensures r == PageOf(Reverse(SearchedUsers(users, searchQ)), QueryInt(pageQ, 1), QueryInt(limitQ, DefaultLimit))
  {
    var all := Reverse(SearchedUsers(users, searchQ));
    UsersPageMatches(users, searchQ, QueryInt(pageQ, 1), QueryInt(limitQ, DefaultLimit));
    Paginate(all, pageQ, limitQ, DefaultLimit)
  }

  lemma UsersPageMatches(users: seq<User>, searchQ: Option<string>, page: int, limit: int)
    requires limit != 0
    ensures var r := PageOf(Reverse(SearchedUsers(users, searchQ)), page, limit);
      r.Ok? ==> forall i :: 0 <= i < |r.value.items| ==>
        r.value.items[i] in users && Contains(r.value.items[i].walletAddr, searchQ.GetOr(""))
  {
    var rows := SearchedUsers(users, searchQ);
    EmptySearchKeepsAll(users);
    assert forall k :: 0 <= k < |rows| ==> rows[k] in users && Contains(rows[k].walletAddr, searchQ.GetOr(""));
    var all := Reverse(rows);
    assert forall u :: u in all ==> u in rows by {
      forall u | u in all ensures u in rows {
        assert u in multiset(all);
      }
    }
    PageItemsFrom(all, page, limit);
  }

  /** Body fields of a user edit; `None` is a field left out of the body, `Some(None)` a null. */
  datatype UserEdit = UserEdit(points: Option<string>, avatar: Option<Option<string>>)

  /**
   * `PUT /users/:id`: only the fields present in the body change, `points`
   * read with `parseInt`. A non-numeric id or points value, or an unknown id,
   * makes the write throw.
   */
  function UpdateUser(users: seq<User>, id: Option<int>, edit: UserEdit): (r: (seq<User>, Reply<User>))
    ensures r.1.Err? ==> r.0 == users && r.1 == Err(500, ServerError)
    ensures r.1.Ok? <==>
      && id.Some? && id.value >= 0 && UserById(users, id.value).Some?
      && (edit.points.Some? ==> ParseInt(edit.points.value).Some?)
    ensures r.1.Ok? ==>
      var i := UserById(users, id.value).value;
      var u := r.1.value;
      && r.0 == users[i := u]
      && u.id == users[i].id && u.walletAddr == users[i].walletAddr && u.createdAt == users[i].createdAt
      && u.points == (if edit.points.Some? then ParseInt(edit.points.value).value else users[i].points)
      && u.avatar == edit.avatar.GetOr(users[i].avatar)
  {
    if id.None? || id.value < 0 then (users, Err(500, ServerError))
    else match UserById(users, id.value)
      case None => (users, Err(500, ServerError))
      case Some(i) =>
        var pts := if edit.points.Some? then ParseInt(edit.points.value) else Some(users[i].points);
        if pts.None? then (users, Err(500, ServerError))
        else
          var u := users[i].(points := pts.value, avatar := edit.avatar.GetOr(users[i].avatar));
          (users[i := u], Ok(u))
  }

  /** An edit with neither field leaves the table as it was. */
  lemma EmptyEditChangesNothing(users: seq<User>, id: nat)
    requires UserById(users, id).Some?
    ensures UpdateUser(users, Some(id), UserEdit(None, None)) == (users, Ok(users[UserById(users, id).value]))
  {
    var i := UserById(users, id).value;
    assert users[i].(points := users[i].points, avatar := users[i].avatar) == users[i];
    assert users[i := users[i]] == users;
  }

  /** A balance written as a decimal number is stored as that number. */
  lemma EditPointsRoundTrip(users: seq<User>, id: nat, n: int)
    requires UserById(users, id).Some?
    ensures var r := UpdateUser(users, Some(id), UserEdit(Some(DecimalString(n)), None));
      r.1.Ok? && r.1.value.points == n
  {
    ParseIntDecimalString(n);
  }

  // ---------------------------------------------------------------- toggle

  /** The three flags the toggle route accepts. */
  datatype Flag = BannerFlag | HotFlag | ActiveFlag

  /** The flag a `field` body value names, if it names one. */
  function FlagOf(field: Option<string>): (r: Option<Flag>)
    ensures r.Some? <==> field == Some("isBanner") || field == Some("isHot") || field == Some("isActive")
    ensures r == Some(BannerFlag) <==> field == Some("isBanner")
    ensures r == Some(HotFlag) <==> field == Some("isHot")
  {
    match field
    case None => None
    case Some(f) =>
      if f == "isBanner" then Some(BannerFlag)
      else if f == "isHot" then Some(HotFlag)
      else if f == "isActive" then Some(ActiveFlag)
      else None
  }

  function FlagValue(g: Game, f: Flag): bool {
    match f
    case BannerFlag => g.isBanner
    case HotFlag => g.isHot
    case ActiveFlag => g.isActive
  }

  /** `g` with flag `f` set to `b`; every other column is kept. */
  function SetFlag(g: Game, f: Flag, b: bool): (r: Game)
    ensures FlagValue(r, f) == b
    ensures forall f' :: f' != f ==> FlagValue(r, f') == FlagValue(g, f')
    ensures r.(isBanner := g.isBanner, isHot := g.isHot, isActive := g.isActive) == g
  {
    match f
    case BannerFlag => g.(isBanner := b)
    case HotFlag => g.(isHot := b)
    case ActiveFlag => g.(isActive := b)
  }

  const InvalidField: string := "Invalid field. Must be isBanner, isHot, or isActive"

  /** `PATCH /games/:id/toggle`: negates one of the three flags of one game. */
  function Toggle(games: seq<Game>, id: Option<int>, field: Option<string>): (r: (seq<Game>, Reply<Game>))
    ensures FlagOf(field).None? ==> r == (games, Err(400, InvalidField))
    ensures FlagOf(field).Some? && id.None? ==> r == (games, Err(500, ServerError))
    ensures FlagOf(field).Some? && id.Some? && GameById(games, id.value).None? ==> r == (games, Err(404, "Game not found"))
    ensures FlagOf(field).Some? && id.Some? && GameById(games, id.value).Some? ==> r.1.Ok?
    ensures r.1.Ok? ==>
      && FlagOf(field).Some? && id.Some? && GameById(games, id.value).Some?
      && var i := GameById(games, id.value).value;
         var f := FlagOf(field).value;
         && r.0 == games[i := r.1.value]
         && FlagValue(r.1.value, f) == !FlagValue(games[i], f)
         && SetFlag(r.1.value, f, FlagValue(games[i], f)) == games[i]
  {
    match FlagOf(field)
    case None => (games, Err(400, InvalidField))
    case Some(f) =>
      if id.None? then (games, Err(500, ServerError))
      else match GameById(games, id.value)
        case None => (games, Err(404, "Game not found"))
        case Some(i) =>
          var g := SetFlag(games[i], f, !FlagValue(games[i], f));
          (games[i := g], Ok(g))
  }

  /** Toggling the same flag twice restores the table. */
  lemma ToggleTwiceRestores(games: seq<Game>, id: Option<int>, field: Option<string>)
    requires Toggle(games, id, field).1.Ok?
    ensures Toggle(Toggle(games, id, field).0, id, field).0 == games
  {
    var once := Toggle(games, id, field).0;
    var i := GameById(games, id.value).value;
    assert forall j :: 0 <= j < |games| ==> once[j].id == games[j].id;
    GameByIdSameIds(once, games, id.value);
    assert once[i := games[i]] == games;
  }

  // ---------------------------------------------------------------- create

  /** The body of `POST /games`; `None` is a field left out of the body. */
  datatype GameForm = GameForm(
    name: Option<string>, icon: Option<string>, url: Option<string>,
    description: Option<string>, shortDesc: Option<string>, orientation: Option<string>,
    isBanner: Option<bool>, isHot: Option<bool>, bannerImage: Option<string>,
    isActive: Option<bool>, sortOrder: Option<int>,
    sourceUrl: Option<string>, gameDistributionId: Option<string>)

  /**
   * A written HTML file: its name and the arguments `generateGameHTML` was
   * called with; `Content` is the text written.
   */
  datatype HtmlFile = HtmlFile(name: string, title: string, gdId: string, gameUrl: string)

  function Content(f: HtmlFile): string {
    HtmlGenerator.GenerateGameHtml(f.title, f.gdId, f.gameUrl)
  }

  /** The file-system effects of a game write: a file deleted and a file saved. */
  datatype FileOps = FileOps(deleted: Option<string>, saved: Option<HtmlFile>)

  const NoFileOps: FileOps := FileOps(None, None)

  /** The answer of a game write: the stored row and the name of its HTML file, if any. */
  datatype GameSaved = GameSaved(game: Game, htmlFile: Option<string>)

  /** `x || null` on an optional text field. */
  function OrNull(s: Option<string>): (r: Option<string>)
    ensures r.Some? <==> Truthy(s)
    ensures r.Some? ==> r == s
  {
    if Truthy(s) then s else None
  }

  /** The largest `sortOrder` in the table, `None` when it is empty. */
  function MaxSortOrder(games: seq<Game>): (r: Option<int>)
    ensures r.None? <==> |games| == 0
    ensures r.Some? ==> forall k :: 0 <= k < |games| ==> games[k].sortOrder <= r.value
    ensures r.Some? ==> exists k :: 0 <= k < |games| && games[k].sortOrder == r.value
  {
    if |games| == 0 then None
    else
      var last := games[|games| - 1].sortOrder;
      match MaxSortOrder(games[..|games| - 1])
      case None => Some(last)
      case Some(m) => Some(Max(m, last))
  }

  /** The sort order of a new game: one past the largest, or 0 in an empty table. */
  function NextSortOrder(games: seq<Game>): (r: int)
    ensures forall k :: 0 <= k < |games| ==> games[k].sortOrder < r
    ensures |games| == 0 ==> r == 0
    ensures |games| > 0 ==> exists k :: 0 <= k < |games| && games[k].sortOrder == r - 1
  {
    match MaxSortOrder(games)
    case None => 0
    case Some(m) => m + 1
  }

  const RequiredFields: string := "Name, icon, and url are required"
  const GdIdRequired: string := "gameDistributionId is required when generating HTML file"

  /**
   * `POST /games`. `urlPath` is the pathname parsed from `url`, `None` when
   * the URL does not parse. A `sourceUrl` asks for an HTML wrapper file.
   */
  function CreateGame(db: Db, form: GameForm, urlPath: Option<string>): (r: (Db, Reply<GameSaved>, FileOps))
    ensures r.1.Err? ==> r.0 == db && r.2 == NoFileOps
    ensures !(Truthy(form.name) && Truthy(form.icon) && Truthy(form.url)) ==> r.1 == Err(400, RequiredFields)
    ensures (Truthy(form.name) && Truthy(form.icon) && Truthy(form.url)
             && Truthy(form.sourceUrl) && !Truthy(form.gameDistributionId)) ==> r.1 == Err(400, GdIdRequired)
    ensures r.1.Ok? <==>
      Truthy(form.name) && Truthy(form.icon) && Truthy(form.url)
      && (Truthy(form.sourceUrl) ==> Truthy(form.gameDistributionId))
    ensures r.1.Ok? ==>
      var g := r.1.value.game;
      && r.0 == db.(games := db.games + [g], nextGameId := db.nextGameId + 1)
      && g.id == db.nextGameId
      && g.name == form.name.value && g.icon == form.icon.value && g.url == form.url.value
      && g.description == form.description.GetOr("") && g.shortDesc == form.shortDesc.GetOr("")
      && g.bannerImage == OrNull(form.bannerImage)
      && g.isGameDistribution == Truthy(form.gameDistributionId)
      && g.gameDistributionId == OrNull(form.gameDistributionId)
      && g.sourceUrl == OrNull(form.sourceUrl)
      && g.isActive == form.isActive.GetOr(true)
      && g.isBanner == form.isBanner.GetOr(false) && g.isHot == form.isHot.GetOr(false)
      && g.orientation == (if Truthy(form.orientation) then form.orientation.value else "landscape")
      && (form.sortOrder.Some? ==> g.sortOrder == form.sortOrder.value)
      && (form.sortOrder.None? ==> forall k :: 0 <= k < |db.games| ==> db.games[k].sortOrder < g.sortOrder)
      && (form.sortOrder.None? && |db.games| == 0 ==> g.sortOrder == 0)
      && r.1.value.htmlFile == g.htmlFileName
      && (g.htmlFileName.Some? <==> Truthy(form.sourceUrl))
      && r.2.deleted.None?
      && (r.2.saved.Some? <==> Truthy(form.sourceUrl))
      && (g.htmlFileName.Some? ==>
            && g.htmlFileName.value == HtmlGenerator.ExtractFileName(form.url.value, urlPath)
            && r.2.saved == Some(HtmlFile(g.htmlFileName.value, form.name.value, form.gameDistributionId.value, form.url.value)))
  {
    if !(Truthy(form.name) && Truthy(form.icon) && Truthy(form.url)) then (db, Err(400, RequiredFields), NoFileOps)
    else if Truthy(form.sourceUrl) && !Truthy(form.gameDistributionId) then (db, Err(400, GdIdRequired), NoFileOps)
    else
      var sortOrder := if form.sortOrder.Some? then form.sortOrder.value else NextSortOrder(db.games);
      var file :=
        if Truthy(form.sourceUrl) then
          var name := HtmlGenerator.ExtractFileName(form.url.value, urlPath);
          Some(HtmlFile(name, form.name.value, form.gameDistributionId.value, form.url.value))
        else None;
      var fileName := if file.Some? then Some(file.value.name) else None;
      var g := Game(
        db.nextGameId, form.name.value, form.icon.value, form.url.value,
        form.description.GetOr(""), form.shortDesc.GetOr(""),
        if Truthy(form.orientation) then form.orientation.value else "landscape",
        form.isBanner.GetOr(false), form.isHot.GetOr(false), OrNull(form.bannerImage),
        form.isActive.GetOr(true), sortOrder,
        Truthy(form.gameDistributionId), OrNull(form.gameDistributionId), OrNull(form.sourceUrl), fileName);
      (db.(games := db.games + [g], nextGameId := db.nextGameId + 1), Ok(GameSaved(g, fileName)), FileOps(None, file))
  }

  /** Every game id is below the game id counter. */
  predicate GamesAllocated(db: Db) {
    forall k :: 0 <= k < |db.games| ==> db.games[k].id < db.nextGameId
  }

  /** A created game keeps the ids allocated and is found under its new id. */
  lemma CreatedGameFound(db: Db, form: GameForm, urlPath: Option<string>)
    requires GamesAllocated(db)
    requires CreateGame(db, form, urlPath).1.Ok?
    ensures var r := CreateGame(db, form, urlPath);
      && GamesAllocated(r.0)
      && GameById(r.0.games, r.1.value.game.id) == Some(|db.games|)
  {
    var r := CreateGame(db, form, urlPath);
    var g := r.1.value.game;
    GameByIdAppendFresh(db.games, g);
  }

  lemma {:induction false} GameByIdAppendFresh(games: seq<Game>, g: Game)
    requires forall k :: 0 <= k < |games| ==> games[k].id != g.id
    ensures GameById(games + [g], g.id) == Some(|games|)
    decreases |games|
  {
    if |games| == 0 {
      assert (games + [g])[0] == g;
    } else {
      assert (games + [g])[1..] == games[1..] + [g];
      GameByIdAppendFresh(games[1..], g);
    }
  }

  // ---------------------------------------------------------------- update

  /**
   * The body of `PUT /games/:id`, written to the row as it stands. `None` is a
   * field left out of the body, `Some(None)` a null; `sortOrder` is the raw
   * value that goes through `parseInt`.
   */
  datatype GamePatch = GamePatch(
    name: Option<string>, icon: Option<string>, url: Option<string>,
    description: Option<string>, shortDesc: Option<string>, orientation: Option<string>,
    isBanner: Option<bool>, isHot: Option<bool>, isActive: Option<bool>,
    isGameDistribution: Option<bool>, bannerImage: Option<Option<string>>,
    gameDistributionId: Option<Option<string>>, sourceUrl: Option<Option<string>>,
    htmlFileName: Option<Option<string>>, sortOrder: Option<string>)

  /** `g` with every field present in `p` overwritten; `sortOrder` is already parsed. */
  function ApplyPatch(g: Game, p: GamePatch, sortOrder: int): (r: Game)
    ensures r.id == g.id && r.sortOrder == sortOrder
    ensures r.name == p.name.GetOr(g.name) && r.url == p.url.GetOr(g.url)
    ensures r.isGameDistribution == p.isGameDistribution.GetOr(g.isGameDistribution)
    ensures r.gameDistributionId == p.gameDistributionId.GetOr(g.gameDistributionId)
    ensures r.sourceUrl == p.sourceUrl.GetOr(g.sourceUrl)
    ensures r.htmlFileName == p.htmlFileName.GetOr(g.htmlFileName)
    ensures r.icon == p.icon.GetOr(g.icon) && r.description == p.description.GetOr(g.description)
    ensures r.shortDesc == p.shortDesc.GetOr(g.shortDesc) && r.orientation == p.orientation.GetOr(g.orientation)
    ensures r.isBanner == p.isBanner.GetOr(g.isBanner) && r.isHot == p.isHot.GetOr(g.isHot)
    ensures r.bannerImage == p.bannerImage.GetOr(g.bannerImage) && r.isActive == p.isActive.GetOr(g.isActive)
  {
    Game(g.id, p.name.GetOr(g.name), p.icon.GetOr(g.icon), p.url.GetOr(g.url),
      p.description.GetOr(g.description), p.shortDesc.GetOr(g.shortDesc),
      p.orientation.GetOr(g.orientation), p.isBanner.GetOr(g.isBanner), p.isHot.GetOr(g.isHot),
      p.bannerImage.GetOr(g.bannerImage), p.isActive.GetOr(g.isActive), sortOrder,
      p.isGameDistribution.GetOr(g.isGameDistribution), p.gameDistributionId.GetOr(g.gameDistributionId),
      p.sourceUrl.GetOr(g.sourceUrl), p.htmlFileName.GetOr(g.htmlFileName))
  }

  /** The `sourceUrl` the game will have: the body's when present, else the stored one. */
  function EffectiveSourceUrl(g: Game, p: GamePatch): Option<string> {
    p.sourceUrl.GetOr(g.sourceUrl)
  }

  /** The GameDistribution id the game will have. */
  function EffectiveGdId(g: Game, p: GamePatch): Option<string> {
    p.gameDistributionId.GetOr(g.gameDistributionId)
  }

  /** Some field the HTML file depends on is present in the body and differs from the stored value. */
  predicate Changed(g: Game, p: GamePatch) {
    || (p.sourceUrl.Some? && p.sourceUrl.value != g.sourceUrl)
    || (p.url.Some? && p.url.value != g.url)
    || (p.gameDistributionId.Some? && p.gameDistributionId.value != g.gameDistributionId)
  }

  /** The HTML file is (re)generated: a source URL will be set and a field it depends on changes. */
  predicate Regenerates(g: Game, p: GamePatch) {
    Truthy(EffectiveSourceUrl(g, p)) && Changed(g, p)
  }

  /** The HTML file is dropped: no source URL will be set but a file exists. */
  predicate Drops(g: Game, p: GamePatch) {
    !Truthy(EffectiveSourceUrl(g, p)) && Truthy(g.htmlFileName)
  }

  /**
   * `PUT /games/:id`. `urlPath` is the pathname parsed from the effective game
   * URL. The file work happens before the row is written, so a `sortOrder`
   * that is not a number fails the write after the file was saved.
   */
  function UpdateGame(db: Db, id: Option<int>, p: GamePatch, urlPath: Option<string>): (r: (Db, Reply<GameSaved>, FileOps))
    ensures r.1.Err? ==> r.0 == db
    ensures id.None? ==> r == (db, Err(500, ServerError), NoFileOps)
    ensures id.Some? && GameById(db.games, id.value).None? ==> r == (db, Err(404, "Game not found"), NoFileOps)
    ensures id.Some? && GameById(db.games, id.value).Some? ==> r == UpdateFound(db, GameById(db.games, id.value).value, p, urlPath)
  {
    if id.None? then (db, Err(500, ServerError), NoFileOps)
    else match GameById(db.games, id.value)
      case None => (db, Err(404, "Game not found"), NoFileOps)
      case Some(i) => UpdateFound(db, i, p, urlPath)
  }

  /** `PUT /games/:id` once the game is found at position `i`. */
  function UpdateFound(db: Db, i: nat, p: GamePatch, urlPath: Option<string>): (r: (Db, Reply<GameSaved>, FileOps))
    requires i < |db.games|
    ensures r.1.Err? ==> r.0 == db
    ensures var g0 := db.games[i];
      && (r.1 == Err(400, GdIdRequired) <==> Regenerates(g0, p) && !Truthy(EffectiveGdId(g0, p)))
      && (r.2.saved.Some? <==> Regenerates(g0, p) && Truthy(EffectiveGdId(g0, p)))
      && (r.2.saved.Some? ==>
            var fileName := HtmlGenerator.ExtractFileName(p.url.GetOr(g0.url), urlPath);
            && r.2.saved.value.name == fileName
            && r.2.saved.value.title == (if Truthy(p.name) then p.name.value else g0.name)
            && r.2.saved.value.gdId == EffectiveGdId(g0, p).value
            && r.2.saved.value.gameUrl == p.url.GetOr(g0.url)
            && r.2.deleted == OrNull(g0.htmlFileName)
            && (r.1.Ok? ==> r.1.value.game.htmlFileName == Some(fileName) && r.1.value.htmlFile == Some(fileName)))
      && (Drops(g0, p) ==>
            && r.2 == FileOps(g0.htmlFileName, None)
            && (r.1.Ok? ==> r.1.value.game.htmlFileName.None? && r.1.value.game.sourceUrl.None?))
      && (!Regenerates(g0, p) && !Drops(g0, p) ==> r.2 == NoFileOps)
      && (r.1.Ok? <==>
            && !(Regenerates(g0, p) && !Truthy(EffectiveGdId(g0, p)))
            && (p.sortOrder.Some? ==> ParseInt(p.sortOrder.value).Some?))
      && (r.1.Err? && r.1 != Err(400, GdIdRequired) ==> r.1 == Err(500, ServerError))
      && (r.1.Ok? ==>
            && r.0 == db.(games := db.games[i := r.1.value.game])
            && r.1.value.game.id == g0.id
            && r.1.value.game.sortOrder == (if p.sortOrder.Some? then ParseInt(p.sortOrder.value).value else g0.sortOrder))
    ensures r.1.Ok? ==>
      var g0 := db.games[i];
      var g := r.1.value.game;
      && g.name == p.name.GetOr(g0.name) && g.url == p.url.GetOr(g0.url) && g.icon == p.icon.GetOr(g0.icon)
      && g.description == p.description.GetOr(g0.description) && g.shortDesc == p.shortDesc.GetOr(g0.shortDesc)
      && g.orientation == p.orientation.GetOr(g0.orientation)
      && g.isBanner == p.isBanner.GetOr(g0.isBanner) && g.isHot == p.isHot.GetOr(g0.isHot)
      && g.isActive == p.isActive.GetOr(g0.isActive)
      && g.isGameDistribution == p.isGameDistribution.GetOr(g0.isGameDistribution)
      && g.bannerImage == p.bannerImage.GetOr(g0.bannerImage)
      && g.gameDistributionId == p.gameDistributionId.GetOr(g0.gameDistributionId)
      && (!Drops(g0, p) ==> g.sourceUrl == p.sourceUrl.GetOr(g0.sourceUrl))
      && (!Regenerates(g0, p) && !Drops(g0, p) ==> g.htmlFileName == p.htmlFileName.GetOr(g0.htmlFileName))
  {
    var g0 := db.games[i];
    var gdId := EffectiveGdId(g0, p);
    var gameUrl := p.url.GetOr(g0.url);
    if Regenerates(g0, p) && !Truthy(gdId) then (db, Err(400, GdIdRequired), NoFileOps)
    else
      var fileName := HtmlGenerator.ExtractFileName(gameUrl, urlPath);
      var title := if Truthy(p.name) then p.name.value else g0.name;
      var ops :=
        if Regenerates(g0, p) then
          FileOps(OrNull(g0.htmlFileName), Some(HtmlFile(fileName, title, gdId.value, gameUrl)))
        else if Drops(g0, p) then FileOps(g0.htmlFileName, None)
        else NoFileOps;
      var p' :=
        if Regenerates(g0, p) then p.(htmlFileName := Some(Some(fileName)))
        else if Drops(g0, p) then p.(htmlFileName := Some(None), sourceUrl := Some(None))
        else p;
      var sortOrder := if p.sortOrder.Some? then ParseInt(p.sortOrder.value) else Some(g0.sortOrder);
      if sortOrder.None? then (db, Err(500, ServerError), ops)
      else
        var g := ApplyPatch(g0, p', sortOrder.value);
        var shown := if Regenerates(g0, p) then Some(fileName) else OrNull(g.htmlFileName);
        (db.(games := db.games[i := g]), Ok(GameSaved(g, shown)), ops)
  }

  /** A body without `sourceUrl`, `url` or `gameDistributionId` never writes a file. */
  lemma UntouchedSourceSavesNothing(db: Db, id: Option<int>, p: GamePatch, urlPath: Option<string>)
    requires p.sourceUrl.None? && p.url.None? && p.gameDistributionId.None?
    ensures UpdateGame(db, id, p, urlPath).2.saved.None?
  {
  }

  /** Sending the same update again writes no second file. */
  lemma RepeatedUpdateSavesNothing(db: Db, id: Option<int>, p: GamePatch, urlPath: Option<string>)
    requires UpdateGame(db, id, p, urlPath).1.Ok?
    ensures UpdateGame(UpdateGame(db, id, p, urlPath).0, id, p, urlPath).2.saved.None?
  {
    var r := UpdateGame(db, id, p, urlPath);
    var i := GameById(db.games, id.value).value;
    var g0 := db.games[i];
    var g := r.1.value.game;
    assert r.0.games == db.games[i := g];
    assert forall j :: 0 <= j < |db.games| ==> r.0.games[j].id == db.games[j].id;
    GameByIdSameIds(r.0.games, db.games, id.value);
    if Drops(g0, p) {
      assert !Truthy(EffectiveSourceUrl(g, p));
    } else {
      assert !Changed(g, p);
    }
  }

  /** Clearing the GameDistribution id leaves `isGameDistribution` as it was: the flag is not recomputed. */
  lemma ClearedGdIdKeepsFlag(db: Db, id: int, urlPath: Option<string>)
    requires GameById(db.games, id).Some?
    requires !Truthy(db.games[GameById(db.games, id).value].sourceUrl)
    ensures var p := GamePatch(None, None, None, None, None, None, None, None, None, None, None, Some(None), None, None, None);
      var r := UpdateGame(db, Some(id), p, urlPath);
      && r.1.Ok?
      && r.1.value.game.gameDistributionId.None?
      && r.1.value.game.isGameDistribution == db.games[GameById(db.games, id).value].isGameDistribution
  {
  }

  // ---------------------------------------------------------------- histogram

  /** The histogram bucket of a balance: below 100, 500, 1000, 5000, or above. */
  function Bucket(points: int): (b: nat)
    ensures b < 5
    ensures b == 0 <==> points < 100
    ensures b == 1 <==> 100 <= points < 500
    ensures b == 2 <==> 500 <= points < 1000
    ensures b == 3 <==> 1000 <= points < 5000
    ensures b == 4 <==> 5000 <= points
  {
    if points < 100 then 0
    else if points < 500 then 1
    else if points < 1000 then 2
    else if points < 5000 then 3
    else 4
  }

  /** The five bucket counts of the points distribution. */
  function Distribution(users: seq<User>): (c: seq<nat>)
    ensures |c| == 5
    ensures forall b :: 0 <= b < 5 ==> c[b] <= |users|
  {
    if |users| == 0 then [0, 0, 0, 0, 0]
    else
      var c := Distribution(users[..|users| - 1]);
      var b := Bucket(users[|users| - 1].points);
      c[b := c[b] + 1]
  }

  /** Users whose balance falls in bucket `b`. */
  function InBucket(users: seq<User>, b: nat): nat {
    if |users| == 0 then 0
    else InBucket(users[..|users| - 1], b) + (if Bucket(users[|users| - 1].points) == b then 1 else 0)
  }

  /** Each count is the number of users in that bucket. */
  lemma {:induction false} DistributionCounts(users: seq<User>, b: nat)
    requires b < 5
    ensures Distribution(users)[b] == InBucket(users, b)
  {
    if |users| > 0 {
      DistributionCounts(users[..|users| - 1], b);
    }
  }

  /** The buckets partition the users: the counts add up to the number of users. */
  lemma {:induction false} DistributionTotal(users: seq<User>)
    ensures var c := Distribution(users); c[0] + c[1] + c[2] + c[3] + c[4] == |users|
  {
    if |users| > 0 {
      DistributionTotal(users[..|users| - 1]);
    }
  }

  // ---------------------------------------------------------------- game plays

  /** A `startDate`/`endDate` query value: a parsed date, or one `new Date` cannot read. */
  datatype DateArg = ValidDate(ms: int) | InvalidDate

  const DayMs: int := 86400000

  /** The local calendar day of instant `t`, with the server's offset from UTC in ms. */
  function LocalDay(t: int, offset: int): int {
    (t + offset) / DayMs
  }

  /** `setHours(23, 59, 59, 999)` in local time: the last millisecond of the local day of `t`. */
  function EndOfLocalDay(t: int, offset: int): (e: int)
    ensures t <= e < t + DayMs
    ensures LocalDay(e, offset) == LocalDay(t, offset)
    ensures LocalDay(e + 1, offset) == LocalDay(t, offset) + 1
  {
    (LocalDay(t, offset) + 1) * DayMs - 1 - offset
  }

  /** The filter built from the query: 0 for an id filter that is off. */
  datatype PlayFilter = PlayFilter(userId: int, gameId: int, from: Option<int>, to: Option<int>)

  /** The filter for the raw query values, or `None` when a date is unreadable and the query throws. */
  function ReadFilter(userIdQ: Option<string>, gameIdQ: Option<string>, startQ: Option<DateArg>, endQ: Option<DateArg>, offset: int): (r: Option<PlayFilter>)
    ensures r.None? <==> startQ == Some(InvalidDate) || endQ == Some(InvalidDate)
    ensures r.Some? ==>
      && r.value.userId == QueryInt(userIdQ, 0) && r.value.gameId == QueryInt(gameIdQ, 0)
      && (startQ.None? ==> r.value.from.None?)
      && (startQ.Some? ==> r.value.from == Some(startQ.value.ms))
      && (endQ.None? ==> r.value.to.None?)
      && (endQ.Some? ==> r.value.to == Some(EndOfLocalDay(endQ.value.ms, offset)))
  {
    if startQ == Some(InvalidDate) || endQ == Some(InvalidDate) then None
    else
      Some(PlayFilter(QueryInt(userIdQ, 0), QueryInt(gameIdQ, 0),
        if startQ.Some? then Some(startQ.value.ms) else None,
        if endQ.Some? then Some(EndOfLocalDay(endQ.value.ms, offset)) else None))
  }

  /** The `where` clause of the game-play list: a filter of 0 or an absent bound imposes nothing. */
  predicate Matches(p: GamePlay, f: PlayFilter) {
    && (f.userId == 0 || p.userId == f.userId)
    && (f.gameId == 0 || p.gameId == f.gameId)
    && (f.from.Some? ==> f.from.value <= p.createdAt)
    && (f.to.Some? ==> p.createdAt <= f.to.value)
  }

  /** A play made any time on the local day of `endDate` passes the end bound; one on the next day does not. */
  lemma EndDateCoversDay(p: GamePlay, endMs: int, offset: int)
    ensures var f := PlayFilter(0, 0, None, Some(EndOfLocalDay(endMs, offset)));
      && (LocalDay(p.createdAt, offset) <= LocalDay(endMs, offset) ==> Matches(p, f))
      && (LocalDay(p.createdAt, offset) > LocalDay(endMs, offset) ==> !Matches(p, f))
  {
    var e := EndOfLocalDay(endMs, offset);
    if LocalDay(p.createdAt, offset) <= LocalDay(endMs, offset) {
      assert p.createdAt + offset < (LocalDay(endMs, offset) + 1) * DayMs;
    } else {
      assert p.createdAt + offset >= (LocalDay(endMs, offset) + 1) * DayMs;
    }
  }

  /** `GET /gameplays`: the matching plays, newest first, paged with a default limit of 20. */
  function ListGameplays(
    plays: seq<GamePlay>, pageQ: Option<string>, limitQ: Option<string>,
    userIdQ: Option<string>, gameIdQ: Option<string>, startQ: Option<DateArg>, endQ: Option<DateArg>,
    offset: int): (r: Reply<Page<GamePlay>>)
    ensures startQ == Some(InvalidDate) || endQ == Some(InvalidDate) ==> r == Err(500, ServerError)
    ensures r.Ok? ==>
      && ReadFilter(userIdQ, gameIdQ, startQ, endQ, offset).Some?
      && var f := ReadFilter(userIdQ, gameIdQ, startQ, endQ, offset).value;
         && r.value.pagination.total == |Filter(plays, (p: GamePlay) => Matches(p, f))|
         && forall i :: 0 <= i < |r.value.items| ==> r.value.items[i] in plays && Matches(r.value.items[i], f)
    ensures r.Err? <==>
      ReadFilter(userIdQ, gameIdQ, startQ, endQ, offset).None? || (QueryInt(pageQ, 1) - 1) * QueryInt(limitQ, DefaultLimit) < 0
    ensures ReadFilter(userIdQ, gameIdQ, startQ, endQ, offset).Some? ==>
      var f := ReadFilter(userIdQ, gameIdQ, startQ, endQ, offset).value;
      r == PageOf(Reverse(Filter(plays, (p: GamePlay) => Matches(p, f))), QueryInt(pageQ, 1), QueryInt(limitQ, DefaultLimit))
  {
    match ReadFilter(userIdQ, gameIdQ, startQ, endQ, offset)
    case None => Err(500, ServerError)
    case Some(f) =>
      var all := Reverse(Filter(plays, (p: GamePlay) => Matches(p, f)));
      PlaysPageMatches(plays, f, QueryInt(pageQ, 1), QueryInt(limitQ, DefaultLimit));
      Paginate(all, pageQ, limitQ, DefaultLimit)
  }

  lemma PlaysPageMatches(plays: seq<GamePlay>, f: PlayFilter, page: int, limit: int)
    requires limit != 0
    ensures var r := PageOf(Reverse(Filter(plays, (p: GamePlay) => Matches(p, f))), page, limit);
      r.Ok? ==> forall i :: 0 <= i < |r.value.items| ==> r.value.items[i] in plays && Matches(r.value.items[i], f)
  {
    var rows := Filter(plays, (p: GamePlay) => Matches(p, f));
    var all := Reverse(rows);
    assert forall u :: u in all ==> u in plays && Matches(u, f) by {
      forall u | u in all ensures u in plays && Matches(u, f) {
        assert u in multiset(all);
        var k :| 0 <= k < |rows| && rows[k] == u;
        assert rows[k] in multiset(plays);
      }
    }
    PageItemsFrom(all, page, limit);
  }
}

=== FILE: auth_routes.dfy ===
/**
 * Wallet sign-in: `/login` checks a wallet signature, `/dev-login` does not;
 * both return the user with that wallet, creating it with a random avatar
 * when it is new. The signature check and `Math.random()` are inputs.
 */
module AuthRoutes {
  import opened Wrappers
  import opened JsText
  import opened Db

  /** The signature check: valid, invalid, or throwing while decoding the key or signature. */
  datatype SigCheck = SigValid | SigInvalid | SigThrows

  datatype LoginBody = LoginBody(walletAddr: Option<string>, signature: Option<string>, message: Option<string>)

  /** `Math.floor(draw * 9) + 1` for a draw in [0, 1). */
  function AvatarNumber(draw: real): (k: int)
    requires 0.0 <= draw < 1.0
    ensures 1 <= k <= 9
  {
    (draw * 9.0).Floor + 1
  }

  /** The avatar file of a new user: `${k}.png`. */
  function AvatarFile(draw: real): (r: string)
    requires 0.0 <= draw < 1.0
    ensures EndsWith(r, ".png")
    ensures |r| == 5 && '1' <= r[0] <= '9'
  {
    DecimalString(AvatarNumber(draw)) + ".png"
  }

  /** No two users share a wallet (the column is unique). */
  predicate UniqueWallets(users: seq<User>) {
    forall i, j :: 0 <= i < j < |users| ==> users[i].walletAddr != users[j].walletAddr
  }

  /**
   * The user with `wallet`, created at time `now` with 0 points and a random
   * avatar when none exists: the table afterwards and the user's position.
   */
  function FindOrCreate(db: Db, wallet: string, draw: real, now: int): (r: (Db, nat))
    requires 0.0 <= draw < 1.0
    ensures r.1 < |r.0.users| && r.0.users[r.1].walletAddr == wallet
    ensures UserByWallet(db.users, wallet).Some? ==> r == (db, UserByWallet(db.users, wallet).value)
    ensures UserByWallet(db.users, wallet).None? ==>
      && r.0 == db.(users := db.users + [User(db.nextUserId, wallet, 0, Some(AvatarFile(draw)), now)],
                    nextUserId := db.nextUserId + 1)
      && r.1 == |db.users|
  {
    match UserByWallet(db.users, wallet)
    case Some(i) => (db, i)
    case None =>
      var u := User(db.nextUserId, wallet, 0, Some(AvatarFile(draw)), now);
      (db.(users := db.users + [u], nextUserId := db.nextUserId + 1), |db.users|)
  }

  /** After find-or-create, exactly one user has the wallet, and wallets stay unique. */
  lemma FindOrCreateUnique(db: Db, wallet: string, draw: real, now: int)
    requires 0.0 <= draw < 1.0
    requires UniqueWallets(db.users)
    ensures var r := FindOrCreate(db, wallet, draw, now);
      && UniqueWallets(r.0.users)
      && forall j :: 0 <= j < |r.0.users| && r.0.users[j].walletAddr == wallet ==> j == r.1
  {
  }

  /** A second sign-in with the same wallet creates nothing and finds the same user. */
  lemma FindOrCreateTwice(db: Db, wallet: string, draw: real, draw2: real, now: int, later: int)
    requires 0.0 <= draw < 1.0 && 0.0 <= draw2 < 1.0
    requires UniqueWallets(db.users)
    ensures var r := FindOrCreate(db, wallet, draw, now);
      FindOrCreate(r.0, wallet, draw2, later) == r
  {
    var r := FindOrCreate(db, wallet, draw, now);
    FindOrCreateUnique(db, wallet, draw, now);
    var k := UserByWallet(r.0.users, wallet).value;
  }

  /** A new user has no rows and no points, so the ledger stays balanced. */
  lemma FindOrCreatePreservesBalanced(db: Db, wallet: string, draw: real, now: int)
    requires 0.0 <= draw < 1.0
    requires Balanced(db)
    ensures Balanced(FindOrCreate(db, wallet, draw, now).0)
  {
    if UserByWallet(db.users, wallet).None? {
      var u := User(db.nextUserId, wallet, 0, Some(AvatarFile(draw)), now);
      NewUserKeepsIds(db.users, u, db.nextUserId);
      NoPlaysOfUnallocated(db.plays, db.nextUserId, db.nextPlayId);
      NewUserKeepsMatch(db.users, db.plays, u);
    }
  }

  /** A user appended under the next id keeps ids unique and allocated. */
  lemma NewUserKeepsIds(users: seq<User>, u: User, nextUserId: nat)
    requires UniqueUserIds(users) && UsersAllocated(users, nextUserId)
    requires u.id == nextUserId
    ensures UniqueUserIds(users + [u]) && UsersAllocated(users + [u], nextUserId + 1)
  {
    var r := users + [u];
    forall a, b | 0 <= a < b < |r| ensures r[a].id != r[b].id {
      assert r[a] == users[a];
    }
  }

  /** A user with no points and no rows keeps every balance matching. */
  lemma NewUserKeepsMatch(users: seq<User>, plays: seq<GamePlay>, u: User)
    requires BalancesMatch(users, plays)
    requires u.points == 0 && PlaysOf(plays, u.id) == []
    ensures BalancesMatch(users + [u], plays)
  {
    var r := users + [u];
    forall j | 0 <= j < |r| ensures r[j].points == EarnedSum(PlaysOf(plays, r[j].id)) {
      if j < |users| { assert r[j] == users[j]; }
    }
  }

  /** An id not allocated yet has no rows. */
  lemma {:induction false} NoPlaysOfUnallocated(plays: seq<GamePlay>, nextUserId: nat, nextPlayId: nat)
    requires PlaysAllocated(plays, nextUserId, nextPlayId)
    ensures PlaysOf(plays, nextUserId) == []
    decreases |plays|
  {
    if |plays| > 0 {
      NoPlaysOfUnallocated(plays[..|plays| - 1], nextUserId, nextPlayId);
    }
  }

  /** `POST /login`: a signature that checks false is refused; one whose check throws is let through. */
  function Login(db: Db, body: LoginBody, sig: SigCheck, draw: real, now: int): (r: (Db, Reply<User>))
    requires 0.0 <= draw < 1.0
    ensures !(Truthy(body.walletAddr) && Truthy(body.signature) && Truthy(body.message)) ==>
      r == (db, Err(400, "Missing required fields"))
    ensures Truthy(body.walletAddr) && Truthy(body.signature) && Truthy(body.message) && sig == SigInvalid ==>
      r == (db, Err(401, "Invalid signature"))
    ensures r.1.Ok? <==> Truthy(body.walletAddr) && Truthy(body.signature) && Truthy(body.message) && sig != SigInvalid
    ensures r.1.Ok? ==>
      var f := FindOrCreate(db, body.walletAddr.value, draw, now);
      r.0 == f.0 && r.1.value == f.0.users[f.1]
  {
    if !(Truthy(body.walletAddr) && Truthy(body.signature) && Truthy(body.message)) then (db, Err(400, "Missing required fields"))
    else if sig == SigInvalid then (db, Err(401, "Invalid signature"))
    else
      var f := FindOrCreate(db, body.walletAddr.value, draw, now);
      (f.0, Ok(f.0.users[f.1]))
  }

  /** `POST /dev-login`: find-or-create with no signature at all. */
  function DevLogin(db: Db, walletAddr: Option<string>, draw: real, now: int): (r: (Db, Reply<User>))
    requires 0.0 <= draw < 1.0
    ensures !Truthy(walletAddr) ==> r == (db, Err(400, "Missing walletAddr"))
    ensures Truthy(walletAddr) ==>
      var f := FindOrCreate(db, walletAddr.value, draw, now);
      r == (f.0, Ok(f.0.users[f.1]))
  {
    if !Truthy(walletAddr) then (db, Err(400, "Missing walletAddr"))
    else
      var f := FindOrCreate(db, walletAddr.value, draw, now);
      (f.0, Ok(f.0.users[f.1]))
  }

  /** With all fields present, a throwing check signs in exactly as the unchecked development route does. */
  lemma ThrowingCheckActsAsDevLogin(db: Db, body: LoginBody, draw: real, now: int)
    requires 0.0 <= draw < 1.0
    requires Truthy(body.walletAddr) && Truthy(body.signature) && Truthy(body.message)
    ensures Login(db, body, SigThrows, draw, now) == DevLogin(db, body.walletAddr, draw, now)
  {
  }
}

=== FILE: base64.dfy ===
/**
 * UTF-8 encoding of strings (RFC 3629) and the Base64 alphabet encoding of
 * section 4 of RFC 4648, with padding: what `Buffer.from(s).toString('base64')`
 * produces on the server.
 */
module Base64 {
  import opened Wrappers

  /** An octet. */
  type byte = b: int | 0 <= b < 256

  /** UTF-8 bytes of one Unicode scalar value. */
  function Utf8Char(c: char): (bs: seq<byte>)
    ensures 1 <= |bs| <= 4
    ensures |bs| == 1 <==> c as int < 0x80
  {
    var n := c as int;
    if n < 0x80 then [n]
    else if n < 0x800 then [0xC0 + n / 0x40, 0x80 + n % 0x40]
    else if n < 0x1_0000 then [0xE0 + n / 0x1000, 0x80 + (n / 0x40) % 0x40, 0x80 + n % 0x40]
    else [0xF0 + n / 0x4_0000, 0x80 + (n / 0x1000) % 0x40, 0x80 + (n / 0x40) % 0x40, 0x80 + n % 0x40]
  }

  /** UTF-8 bytes of a string. */
  function Utf8(s: string): (bs: seq<byte>)
    ensures |s| <= |bs| <= 4 * |s|
    decreases |s|
  {
    if |s| == 0 then [] else Utf8(s[..|s| - 1]) + Utf8Char(s[|s| - 1])
  }

  /** Encoding is a homomorphism: the bytes of a concatenation are the concatenated bytes. */
  lemma {:induction false} Utf8Append(s: string, t: string)
    ensures Utf8(s + t) == Utf8(s) + Utf8(t)
    decreases |t|
  {
    if |t| == 0 {
      assert s + t == s;
    } else {
      var t' := t[..|t| - 1];
      var last := Utf8Char(t[|t| - 1]);
      assert (s + t)[..|s + t| - 1] == s + t';
      assert (s + t)[|s + t| - 1] == t[|t| - 1];
      assert Utf8(s + t) == Utf8(s + t') + last;
      assert Utf8(t) == Utf8(t') + last;
      Utf8Append(s, t');
      assert Utf8(s) + Utf8(t') + last == Utf8(s) + (Utf8(t') + last);
    }
  }

  /** The Base64 digit for a six-bit value. */
  function Sextet(i: nat): (c: char)
    requires i < 64
    ensures c != '='
  {
    if i < 26 then ('A' as int + i) as char
    else if i < 52 then ('a' as int + i - 26) as char
    else if i < 62 then ('0' as int + i - 52) as char
    else if i == 62 then '+'
    else '/'
  }

  /** The six-bit value of a Base64 digit; 64 for any other character. */
  function SextetValue(c: char): (v: nat)
    ensures v <= 64
  {
    if 'A' <= c <= 'Z' then c as int - 'A' as int
    else if 'a' <= c <= 'z' then c as int - 'a' as int + 26
    else if '0' <= c <= '9' then c as int - '0' as int + 52
    else if c == '+' then 62
    else if c == '/' then 63
    else 64
  }

  lemma SextetInverse(i: nat)
    requires i < 64
    ensures SextetValue(Sextet(i)) == i
  {
  }

  /** Base64 with `=` padding: every 3 bytes become 4 characters. */
  function Encode(bs: seq<byte>): (r: string)
    ensures |r| % 4 == 0
    ensures |r| == 0 <==> |bs| == 0
    decreases |bs|
  {
    if |bs| == 0 then ""
    else if |bs| == 1 then
      [Sextet(bs[0] / 4), Sextet(bs[0] % 4 * 16), '=', '=']
    else if |bs| == 2 then
      [Sextet(bs[0] / 4), Sextet(bs[0] % 4 * 16 + bs[1] / 16), Sextet(bs[1] % 16 * 4), '=']
    else Group(bs[0], bs[1], bs[2]) + Encode(bs[3..])
  }

  /** The four digits of one whole 3-byte group. */
  function Group(x: byte, y: byte, z: byte): (r: string)
    ensures |r| == 4 && '=' !in r
  {
    [Sextet(x / 4), Sextet(x % 4 * 16 + y / 16), Sextet(y % 16 * 4 + z / 64), Sextet(z % 64)]
  }

  /** The three bytes of four six-bit values. */
  function Ungroup(v0: nat, v1: nat, v2: nat, v3: nat): seq<byte>
    requires v0 < 64 && v1 < 64 && v2 < 64 && v3 < 64
  {
    [v0 * 4 + v1 / 16, v1 % 16 * 16 + v2 / 4, v2 % 4 * 64 + v3]
  }

  lemma UngroupGroup(x: byte, y: byte, z: byte)
    ensures var g := Group(x, y, z);
      SextetValue(g[0]) < 64 && SextetValue(g[1]) < 64 && SextetValue(g[2]) < 64 && SextetValue(g[3]) < 64 &&
      Ungroup(SextetValue(g[0]), SextetValue(g[1]), SextetValue(g[2]), SextetValue(g[3])) == [x, y, z]
  {
    SextetInverse(x / 4);
    SextetInverse(x % 4 * 16 + y / 16);
    SextetInverse(y % 16 * 4 + z / 64);
    SextetInverse(z % 64);
    assert (x % 4 * 16 + y / 16) / 16 == x % 4;
    assert (x % 4 * 16 + y / 16) % 16 == y / 16;
    assert (y % 16 * 4 + z / 64) / 4 == y % 16;
    assert (y % 16 * 4 + z / 64) % 4 == z / 64;
  }

  /** Decodes one group of four digits without padding. */
  function DecodeQuad(q: string): (r: Option<seq<byte>>)
    requires |q| == 4
    ensures r.Some? ==> |r.value| == 3
  {
    var v0, v1, v2, v3 := SextetValue(q[0]), SextetValue(q[1]), SextetValue(q[2]), SextetValue(q[3]);
    if v0 < 64 && v1 < 64 && v2 < 64 && v3 < 64 then Some(Ungroup(v0, v1, v2, v3)) else None
  }

  /** Decodes a final group that ends in padding. */
  function DecodePadded(q: string): (r: Option<seq<byte>>)
    requires |q| == 4
    ensures r.Some? ==> 1 <= |r.value| <= 2
  {
    var v0, v1, v2 := SextetValue(q[0]), SextetValue(q[1]), SextetValue(q[2]);
    if v0 == 64 || v1 == 64 || q[3] != '=' then None
    else if q[2] == '=' then Some([v0 * 4 + v1 / 16])
    else if v2 < 64 then Some([v0 * 4 + v1 / 16, v1 % 16 * 16 + v2 / 4])
    else None
  }

  /** Decodes a padded Base64 text; `None` when it is not one. */
  function Decode(s: string): (r: Option<seq<byte>>)
    ensures r.Some? ==> |s| % 4 == 0 && 4 * |r.value| <= 3 * |s|
    ensures r.Some? ==> (|r.value| == 0 <==> |s| == 0)
    decreases |s|
  {
    if |s| == 0 then Some([])
    else if |s| < 4 then None
    else if |s| == 4 && s[3] == '=' then DecodePadded(s)
    else
      match DecodeQuad(s[..4])
      case None => None
      case Some(g) =>
        match Decode(s[4..])
        case None => None
        case Some(rest) => Some(g + rest)
  }

  lemma DecodeOne(x: byte)
    ensures Decode(Encode([x])) == Some([x])
  {
    SextetInverse(x / 4);
    SextetInverse(x % 4 * 16);
  }

  lemma DecodeTwo(x: byte, y: byte)
    ensures Decode(Encode([x, y])) == Some([x, y])
  {
    SextetInverse(x / 4);
    SextetInverse(x % 4 * 16 + y / 16);
    SextetInverse(y % 16 * 4);
    assert (x % 4 * 16 + y / 16) / 16 == x % 4;
    assert (x % 4 * 16 + y / 16) % 16 == y / 16;
    assert (y % 16 * 4) / 4 == y % 16;
  }

  /** A whole group decodes to its three bytes, followed by the decoding of what comes after it. */
  lemma DecodeGroupThen(x: byte, y: byte, z: byte, t: string)
    ensures Decode(Group(x, y, z) + t) == match Decode(t)
      case None => None
      case Some(rest) => Some([x, y, z] + rest)
  {
    var g := Group(x, y, z);
    UngroupGroup(x, y, z);
    assert DecodeQuad(g) == Some([x, y, z]);
    var s := g + t;
    assert s[..4] == g;
    assert s[3] == g[3];
    assert s[4..] == t;
  }

  /** Decoding inverts encoding on every byte sequence. */
  lemma {:induction false} DecodeEncode(bs: seq<byte>)
    ensures Decode(Encode(bs)) == Some(bs)
    decreases |bs|
  {
    if |bs| == 1 {
      assert bs == [bs[0]];
      DecodeOne(bs[0]);
    } else if |bs| == 2 {
      assert bs == [bs[0], bs[1]];
      DecodeTwo(bs[0], bs[1]);
    } else if |bs| >= 3 {
      var t := Encode(bs[3..]);
      assert Encode(bs) == Group(bs[0], bs[1], bs[2]) + t;
      DecodeGroupThen(bs[0], bs[1], bs[2], t);
      DecodeEncode(bs[3..]);
      HeadGroup(bs);
    }
  }

  lemma HeadGroup(bs: seq<byte>)
    requires |bs| >= 3
    ensures [bs[0], bs[1], bs[2]] + bs[3..] == bs
  {
  }

  /** Whole 3-byte groups encode independently of what follows them. */
  lemma {:induction false} EncodeAppend(a: seq<byte>, b: seq<byte>)
    requires |a| % 3 == 0
    ensures Encode(a + b) == Encode(a) + Encode(b)
    decreases |a|
  {
    if |a| > 0 {
      assert (a + b)[0] == a[0] && (a + b)[1] == a[1] && (a + b)[2] == a[2];
      assert (a + b)[3..] == a[3..] + b;
      EncodeAppend(a[3..], b);
      var g := Group(a[0], a[1], a[2]);
      assert Encode(a + b) == g + Encode(a[3..] + b);
      assert Encode(a) == g + Encode(a[3..]);
      if |b| == 0 {
        assert a + b == a;
      }
    } else {
      assert a + b == b;
    }
  }

  /** Every group of three bytes becomes four characters. */
  lemma {:induction false} EncodeLength(bs: seq<byte>, n: nat)
    requires |bs| == 3 * n
    ensures |Encode(bs)| == 4 * n
  {
    if n > 0 {
      EncodeLength(bs[3..], n - 1);
    }
  }

  /** The first `4n` characters of an encoding depend only on the first `3n` bytes. */
  lemma EncodePrefix(bs: seq<byte>, n: nat)
    requires 3 * n <= |bs|
    ensures 4 * n <= |Encode(bs)|
    ensures Encode(bs)[..4 * n] == Encode(bs[..3 * n])
  {
    var k := 3 * n;
    assert bs == bs[..k] + bs[k..];
    EncodeAppend(bs[..k], bs[k..]);
    EncodeLength(bs[..k], n);
  }
}

=== FILE: captcha.dfy ===
/**
 * The in-memory captcha store of the admin login: codes keyed by id with an
 * expiry instant, checked once, ignoring case and the padding of the answer.
 * The picture, the random id and the random text are inputs; the periodic
 * sweep is its body run at one instant.
 */
module Captcha {
  import opened JsText

  /** How long a code stays valid, in milliseconds. */
  const Lifetime: int := 5 * 60 * 1000

  datatype Entry = Entry(code: string, expiresAt: int)

  type Store = map<string, Entry>

  /** `generateCaptcha` at time `now`, for the random `id` and `text` it drew. */
  function Generate(store: Store, id: string, text: string, now: int): (r: Store)
    ensures id in r && r[id] == Entry(text, now + Lifetime)
    ensures forall k :: k in store && k != id ==> k in r && r[k] == store[k]
    ensures r.Keys == store.Keys + {id}
  {
    store[id := Entry(text, now + Lifetime)]
  }

  /** The answer accepted for a stored code: same text up to case, surrounding white space ignored. */
  predicate Accepts(code: string, answer: string) {
    ToLower(code) == Trim(ToLower(answer))
  }

  /**
   * `verifyCaptcha(id, answer)` at time `now`: the new store and the verdict.
   * An expired entry is removed; a matching answer consumes the entry; a wrong
   * answer before expiry leaves it for a retry.
   */
  function Verify(store: Store, id: string, answer: string, now: int): (r: (Store, bool))
    ensures id !in store ==> r == (store, false)
    ensures id in store && store[id].expiresAt < now ==> r == (store - {id}, false)
    ensures id in store && now <= store[id].expiresAt ==>
      r.1 == Accepts(store[id].code, answer) && r.0 == (if r.1 then store - {id} else store)
    ensures r.1 ==> id in store && now <= store[id].expiresAt && id !in r.0
  {
    if id !in store then (store, false)
    else if store[id].expiresAt < now then (store - {id}, false)
    else if Accepts(store[id].code, answer) then (store - {id}, true)
    else (store, false)
  }

  /** The sweep body at time `now`: drops exactly the entries already expired. */
  function Sweep(store: Store, now: int): (r: Store)
    ensures forall k :: k in r <==> k in store && now <= store[k].expiresAt
    ensures forall k :: k in r ==> r[k] == store[k]
  {
    map k | k in store && now <= store[k].expiresAt :: store[k]
  }

  /** The characters a code is drawn from: digits 1-9 and the capitals without I and O. */
  const Preset: string := "123456789ABCDEFGHJKLMNPQRSTUVWXYZ"

  /** A fresh code typed back within its lifetime, inclusive of the last instant, is accepted. */
  lemma GenerateThenVerify(store: Store, id: string, text: string, now: int, later: int)
    requires forall i :: 0 <= i < |text| ==> text[i] in Preset
    requires now <= later <= now + Lifetime
    ensures Verify(Generate(store, id, text, now), id, text, later).1
  {
    if |text| > 0 {
      PresetNotSpace(text[0]);
      PresetNotSpace(text[|text| - 1]);
    }
    TrimLowerPlain(text);
  }

  /** A code is used once: after an accepted answer, any further answer for that id fails. */
  lemma SingleUse(store: Store, id: string, answer: string, now: int, answer2: string, later: int)
    requires Verify(store, id, answer, now).1
    ensures Verify(Verify(store, id, answer, now).0, id, answer2, later) == (Verify(store, id, answer, now).0, false)
  {
  }

  /** Sweeping at `now` changes no verdict given at `now` or later. */
  lemma SweepInvisible(store: Store, now: int, id: string, answer: string, later: int)
    requires now <= later
    ensures Verify(Sweep(store, now), id, answer, later).1 == Verify(store, id, answer, later).1
  {
  }

  /** Upper-casing the answer does not change the verdict. */
  lemma CaseIgnored(store: Store, id: string, answer: string, now: int)
    ensures Verify(store, id, ToUpper(answer), now).1 == Verify(store, id, answer, now).1
  {
    LowerOfUpper(answer);
  }

  /** White space around the answer does not change the verdict. */
  lemma PaddingIgnored(store: Store, id: string, pre: string, answer: string, post: string, now: int)
    requires AllSpace(pre) && AllSpace(post)
    requires |answer| > 0 ==> !IsSpace(answer[0]) && !IsSpace(answer[|answer| - 1])
    ensures Verify(store, id, pre + answer + post, now).1 == Verify(store, id, answer, now).1
  {
    if id in store {
      AcceptsPadded(store[id].code, pre, answer, post);
    }
  }

  lemma AcceptsPadded(code: string, pre: string, answer: string, post: string)
    requires AllSpace(pre) && AllSpace(post)
    requires |answer| > 0 ==> !IsSpace(answer[0]) && !IsSpace(answer[|answer| - 1])
    ensures Accepts(code, pre + answer + post) == Accepts(code, answer)
  {
    TrimLowerPadded(pre, answer, post);
    TrimLowerPlain(answer);
  }

  lemma PresetNotSpace(c: char)
    requires c in Preset
    ensures !IsSpace(c)
  {
    assert '1' <= c <= 'Z';
  }

  /** Text with no white space at its ends is its own trimmed lower-case form. */
  lemma TrimLowerPlain(text: string)
    requires |text| > 0 ==> !IsSpace(text[0]) && !IsSpace(text[|text| - 1])
    ensures Trim(ToLower(text)) == ToLower(text)
  {
    var lt := ToLower(text);
    assert "" + lt + "" == lt;
    assert AllSpace("");
    TrimPadded("", lt, "");
  }

  /** Lower-casing keeps white space where it is, so trimming after it strips the same padding. */
  lemma TrimLowerPadded(pre: string, text: string, post: string)
    requires AllSpace(pre) && AllSpace(post)
    requires |text| > 0 ==> !IsSpace(text[0]) && !IsSpace(text[|text| - 1])
    ensures Trim(ToLower(pre + text + post)) == ToLower(text)
  {
    var lt := ToLower(text);
    assert ToLower(pre + text + post) == pre + lt + post by {
      var s := pre + text + post;
      forall i | 0 <= i < |s| ensures ToLower(s)[i] == (pre + lt + post)[i] {
        if i < |pre| {
          assert s[i] == pre[i] && IsSpace(pre[i]);
        } else if i >= |pre| + |text| {
          assert s[i] == post[i - |pre| - |text|] && IsSpace(post[i - |pre| - |text|]);
        }
      }
    }
    TrimPadded(pre, lt, post);
  }
}

=== FILE: client_store.dfy ===
/**
 * The app's client-side store: login and logout, paged game loading, and the
 * game-session life cycle (start, count ad clicks, submit once on exit). Every
 * backend answer and every clock reading is an input of the transition.
 */
module ClientStore {
  import opened Wrappers
  import opened Db

  /** The game being played. `gamePlayId` is set once the session was submitted. */
  datatype Session = Session(gameId: int, startTime: int, gamePlayId: Option<int>, adClickCount: int)

  datatype Stats = Stats(totalGamesPlayed: int, totalPlayTime: int, totalPointsEarned: int)

  /**
   * The store. `apiWallet` is the address the API layer sends in its wallet
   * header; `isLoading` is observed only after a transition has finished.
   */
  datatype State = State(
    user: Option<User>, stats: Option<Stats>, isLoggedIn: bool, isLoading: bool,
    walletAddr: Option<string>, apiWallet: Option<string>,
    games: seq<Game>, currentPage: int, hasMoreGames: bool,
    session: Option<Session>)

  const Initial: State := State(None, None, false, false, None, None, [], 1, true, None)

  /** A session id counts only when it is truthy (present and not 0). */
  predicate Submitted(s: Session) {
    s.gamePlayId.Some? && s.gamePlayId.value != 0
  }

  /** Opens a session at time `now`, replacing any session in progress. */
  function StartGameSession(st: State, gameId: int, now: int): (r: State)
    ensures r.session == Some(Session(gameId, now, None, 0))
    ensures r.(session := st.session) == st
  {
    st.(session := Some(Session(gameId, now, None, 0)))
  }

  /** Counts one ad click of the session in progress; without a session nothing changes. */
  function ReportAdClick(st: State): (r: State)
    ensures st.session.None? ==> r == st
    ensures st.session.Some? ==>
      && r.session.Some?
      && r.session.value.adClickCount == st.session.value.adClickCount + 1
      && r.session.value.(adClickCount := st.session.value.adClickCount) == st.session.value
    ensures r.(session := st.session) == st
  {
    match st.session
    case None => st
    case Some(s) => st.(session := Some(s.(adClickCount := s.adClickCount + 1)))
  }

  /** `n` reported clicks after a start leave the counter at exactly `n`. */
  lemma {:induction false} ClicksCounted(st: State, gameId: int, now: int, n: nat)
    ensures ReportClicks(StartGameSession(st, gameId, now), n).session
      == Some(Session(gameId, now, None, n))
  {
    if n > 0 {
      ClicksCounted(st, gameId, now, n - 1);
    }
  }

  function ReportClicks(st: State, n: nat): State {
    if n == 0 then st else ReportAdClick(ReportClicks(st, n - 1))
  }

  /** What the client sends to `/earn`. */
  datatype Submission = Submission(gameId: int, duration: int, adClicks: int)

  /** The backend's answer to the submission: its body, or a thrown error. */
  datatype EarnAnswer = EarnAccepted(earnedPoints: int, totalPoints: int, gamePlayId: int) | EarnFailed

  /** Whole seconds between two millisecond readings (`Math.floor(ms / 1000)`). */
  function Seconds(ms: int): (s: int)
    ensures 1000 * s <= ms < 1000 * s + 1000
  {
    ms / 1000
  }

  /**
   * The submission `endGameSession` would make at time `now`, or `None` when it
   * returns early: no session, no user, or a session already submitted.
   */
  function PendingSubmission(st: State, now: int): (r: Option<Submission>)
    ensures r.Some? <==> st.session.Some? && st.user.Some? && !Submitted(st.session.value)
    ensures r.Some? ==>
      && r.value.gameId == st.session.value.gameId
      && r.value.adClicks == st.session.value.adClickCount
      && 1000 * r.value.duration <= now - st.session.value.startTime < 1000 * r.value.duration + 1000
  {
    if st.session.None? || st.user.None? || Submitted(st.session.value) then None
    else
      var s := st.session.value;
      Some(Submission(s.gameId, Seconds(now - s.startTime), s.adClickCount))
  }

  /**
   * Ends the session at time `now`. `answer` is the backend's reply when a
   * submission is made and is ignored otherwise. Yields the new state, the
   * submission made (if any) and the points earned returned to the caller.
   */
  function EndGameSession(st: State, now: int, answer: EarnAnswer): (r: (State, Option<Submission>, Option<int>))
    ensures r.1 == PendingSubmission(st, now)
    ensures r.1.None? ==> r.0 == st.(session := None) && r.2.None?
    ensures r.1.Some? && answer.EarnFailed? ==> r.0 == st.(session := None) && r.2.None?
    ensures r.1.Some? && answer.EarnAccepted? ==>
      && r.2 == Some(answer.earnedPoints)
      && r.0.user == Some(st.user.value.(points := answer.totalPoints))
      && r.0.session == Some(st.session.value.(gamePlayId := Some(answer.gamePlayId)))
      && r.0.(user := st.user, session := st.session) == st
  {
    match PendingSubmission(st, now)
    case None => (st.(session := None), None, None)
    case Some(sub) =>
      match answer
      case EarnFailed => (st.(session := None), Some(sub), None)
      case EarnAccepted(earned, total, id) =>
        (st.(user := Some(st.user.value.(points := total)),
             session := Some(st.session.value.(gamePlayId := Some(id)))),
         Some(sub), Some(earned))
  }

  /** The delayed clear scheduled after a successful submission. */
  function ClearSession(st: State): (r: State)
    ensures r.session.None? && r.(session := st.session) == st
  {
    st.(session := None)
  }

  /**
   * A session is submitted at most once: ending it again, before or after the
   * delayed clear, submits nothing, whatever the backend would answer.
   */
  lemma SubmitOnce(st: State, now: int, answer: EarnAnswer, later: int, answer2: EarnAnswer)
    requires answer.EarnAccepted? && answer.gamePlayId != 0
    ensures var st1 := EndGameSession(st, now, answer).0;
      EndGameSession(st1, later, answer2).1.None? && EndGameSession(ClearSession(st1), later, answer2).1.None?
  {
  }

  /** The profile answer: the refreshed user and stats, or a thrown error. */
  datatype ProfileAnswer = ProfileLoaded(user: User, stats: Stats) | ProfileFailed

  /** Replaces user and stats; a failed refresh keeps both. */
  function RefreshUserProfile(st: State, answer: ProfileAnswer): (r: State)
    ensures answer.ProfileFailed? ==> r == st
    ensures answer.ProfileLoaded? ==> r == st.(user := Some(answer.user), stats := Some(answer.stats))
  {
    match answer
    case ProfileFailed => st
    case ProfileLoaded(u, s) => st.(user := Some(u), stats := Some(s))
  }

  /** The development-login answer: its `success` flag and user, or a thrown error. */
  datatype LoginAnswer = LoginReplied(success: bool, user: User) | LoginFailed

  /**
   * `login(wallet)` at time `now`. A thrown backend error leaves the user logged
   * in offline as user 0 with 0 points; the result is `true` either way.
   */
  function Login(st: State, wallet: string, now: int, answer: LoginAnswer, profile: ProfileAnswer): (r: (State, bool))
    ensures r.1
    ensures r.0.walletAddr == Some(wallet) && r.0.apiWallet == Some(wallet) && !r.0.isLoading
    ensures answer.LoginFailed? ==> r.0.user == Some(User(0, wallet, 0, None, now)) && r.0.isLoggedIn
    ensures answer.LoginReplied? && answer.success ==>
      && r.0.isLoggedIn
      && r.0.user == Some(if profile.ProfileLoaded? then profile.user else answer.user)
    ensures answer.LoginReplied? && !answer.success ==> r.0.user == st.user && r.0.isLoggedIn == st.isLoggedIn
    ensures r.0.games == st.games && r.0.session == st.session
  {
    var st1 := st.(isLoading := true, walletAddr := Some(wallet), apiWallet := Some(wallet));
    var st2 :=
      match answer
      case LoginFailed => st1.(user := Some(User(0, wallet, 0, None, now)), isLoggedIn := true)
      case LoginReplied(success, u) =>
        if success then RefreshUserProfile(st1.(user := Some(u), isLoggedIn := true), profile) else st1;
    (st2.(isLoading := false), true)
  }

  /** `logout`: forgets user, stats, wallet and session; the catalogue stays. */
  function Logout(st: State): (r: State)
    ensures r.user.None? && r.stats.None? && !r.isLoggedIn && r.walletAddr.None? && r.apiWallet.None? && r.session.None?
    ensures r.games == st.games && r.currentPage == st.currentPage && r.hasMoreGames == st.hasMoreGames
  {
    st.(user := None, stats := None, isLoggedIn := false, walletAddr := None, apiWallet := None, session := None)
  }

  /** One page of the catalogue list, or a thrown error. */
  datatype PageAnswer = PageLoaded(games: seq<Game>, hasMore: bool) | PageFailed

  /**
   * `loadGames(reset)`: the page requested (if any) and the new state. Without
   * `reset`, nothing is requested once the last page was reached.
   */
  function LoadGames(st: State, reset: bool, answer: PageAnswer): (r: (State, Option<int>))
    ensures !reset && !st.hasMoreGames ==> r == (st, None)
    ensures reset || st.hasMoreGames ==> r.1 == Some(if reset then 1 else st.currentPage)
    ensures (reset || st.hasMoreGames) && answer.PageFailed? ==> r.0 == st.(isLoading := false)
    ensures (reset || st.hasMoreGames) && answer.PageLoaded? ==>
      && r.0.games == (if reset then [] else st.games) + answer.games
      && r.0.currentPage == r.1.value + 1
      && r.0.hasMoreGames == answer.hasMore
      && r.0.(games := st.games, currentPage := st.currentPage, hasMoreGames := st.hasMoreGames) == st.(isLoading := false)
  {
    if !reset && !st.hasMoreGames then (st, None)
    else
      var page := if reset then 1 else st.currentPage;
      match answer
      case PageFailed => (st.(isLoading := false), Some(page))
      case PageLoaded(gs, more) =>
        (st.(isLoading := false, games := (if reset then [] else st.games) + gs,
             currentPage := page + 1, hasMoreGames := more), Some(page))
  }

  /** Further `loadGames()` calls after the answers `answers`, in order. */
  function LoadMore(st: State, answers: seq<PageAnswer>): (r: State)
    ensures st.games <= r.games
    ensures st.currentPage <= r.currentPage
    ensures r.(games := st.games, currentPage := st.currentPage, hasMoreGames := st.hasMoreGames,
               isLoading := st.isLoading) == st
    decreases |answers|
  {
    if |answers| == 0 then st else LoadMore(LoadGames(st, false, answers[0]).0, answers[1..])
  }

  /** Concatenation of the games of some pages. */
  function AllGames(pages: seq<PageAnswer>): seq<Game>
    requires forall i :: 0 <= i < |pages| ==> pages[i].PageLoaded?
  {
    if |pages| == 0 then [] else pages[0].games + AllGames(pages[1..])
  }

  /**
   * Successive successful loads while more pages exist request pages
   * 2, 3, ... in turn and accumulate exactly their games, in order.
   */
  lemma {:induction false} LoadMoreAccumulates(st: State, pages: seq<PageAnswer>)
    requires forall i :: 0 <= i < |pages| ==> pages[i].PageLoaded?
    requires forall i :: 0 <= i < |pages| - 1 ==> pages[i].hasMore
    requires |pages| > 0 ==> st.hasMoreGames
    ensures LoadMore(st, pages).games == st.games + AllGames(pages)
    ensures LoadMore(st, pages).currentPage == st.currentPage + |pages|
    decreases |pages|
  {
    if |pages| > 0 {
      var st1 := LoadGames(st, false, pages[0]).0;
      LoadMoreAccumulates(st1, pages[1..]);
      assert st.games + (pages[0].games + AllGames(pages[1..])) == st.games + pages[0].games + AllGames(pages[1..]);
    }
  }

  /** After the last page, further loads without reset change nothing. */
  lemma {:induction false} LoadMoreStops(st: State, answers: seq<PageAnswer>)
    requires !st.hasMoreGames
    ensures LoadMore(st, answers) == st
    decreases |answers|
  {
    if |answers| > 0 {
      LoadMoreStops(st, answers[1..]);
    }
  }
}

=== FILE: config_routes.dfy ===
/**
 * The public configuration routes: the points rules as a key-indexed map, the
 * announcement with an id that changes with its text, and the exchange notice
 * with its fallbacks. `JSON.parse` is an input.
 */
module ConfigRoutes {
  import opened Wrappers
  import opened JsText
  import opened Db
  import Base64

  /** What `/rules` shows for one key. */
  datatype RuleView = RuleView(value: string, description: Option<string>)

  function ViewOf(c: ConfigRow): RuleView {
    RuleView(c.value, c.description)
  }

  /** `Object.fromEntries` over the rows: a later row with the same key overwrites an earlier one. */
  function Rules(configs: seq<ConfigRow>): (r: map<string, RuleView>)
    ensures r.Keys == set i | 0 <= i < |configs| :: configs[i].key
    ensures |configs| > 0 ==> r[configs[|configs| - 1].key] == ViewOf(configs[|configs| - 1])
    decreases |configs|
  {
    if |configs| == 0 then map[]
    else
      var init := configs[..|configs| - 1];
      var last := configs[|configs| - 1];
      var r := Rules(init)[last.key := ViewOf(last)];
      assert r.Keys == set i | 0 <= i < |configs| :: configs[i].key by {
        forall k | k in r.Keys ensures k in set i | 0 <= i < |configs| :: configs[i].key {
          if k != last.key {
            var i :| 0 <= i < |init| && init[i].key == k;
            assert configs[i].key == k;
          }
        }
        forall i | 0 <= i < |configs| ensures configs[i].key in r.Keys {
          if i < |init| { assert configs[i] == init[i]; }
        }
      }
      r
  }

  predicate UniqueKeys(configs: seq<ConfigRow>) {
    forall i, j :: 0 <= i < j < |configs| ==> configs[i].key != configs[j].key
  }

  /** With unique keys, every row is shown under its own key. */
  lemma {:induction false} RulesShowEveryRow(configs: seq<ConfigRow>, i: nat)
    requires UniqueKeys(configs) && i < |configs|
    ensures configs[i].key in Rules(configs) && Rules(configs)[configs[i].key] == ViewOf(configs[i])
    decreases |configs|
  {
    if i < |configs| - 1 {
      var init := configs[..|configs| - 1];
      assert UniqueKeys(init) by {
        forall a, b | 0 <= a < b < |init| ensures init[a].key != init[b].key {
          assert init[a] == configs[a] && init[b] == configs[b];
        }
      }
      RulesShowEveryRow(init, i);
      assert init[i] == configs[i];
      assert configs[|configs| - 1].key != configs[i].key;
    }
  }

  /** The stored row of the announcement. */
  const AnnouncementKey: string := "announcement"

  const DefaultTitle: string := "公告"

  datatype Announcement = NoAnnouncement | Announcement(id: string, title: string, content: string)

  /** The first `n` characters of `s`, or all of it when shorter (`substring(0, n)`). */
  function Prefix(s: string, n: nat): (r: string)
    ensures |r| == Min(n, |s|) && r == s[..|r|]
  {
    if |s| <= n then s else s[..n]
  }

  /** The first 16 Base64 characters of the UTF-8 bytes of the text. */
  function ValueHash(value: string): (r: string)
    ensures |r| <= 16
  {
    Prefix(Base64.Encode(Base64.Utf8(value)), 16)
  }

  /** The announcement id: the row id, '_', and the value hash. */
  function AnnouncementId(row: ConfigRow): (r: string)
    ensures StartsWith(r, DecimalString(row.id) + "_")
    ensures EndsWith(r, ValueHash(row.value))
  {
    DecimalString(row.id) + "_" + ValueHash(row.value)
  }

  /** `GET /config/announcement`: shown only when the row exists and its text is not empty. */
  function GetAnnouncement(configs: seq<ConfigRow>): (r: Announcement)
    ensures r.NoAnnouncement? <==> ConfigByKey(configs, AnnouncementKey).None? || configs[ConfigByKey(configs, AnnouncementKey).value].value == ""
    ensures r.Announcement? ==>
      var row := configs[ConfigByKey(configs, AnnouncementKey).value];
      && r.id == AnnouncementId(row)
      && r.content == row.value
      && r.title == (if Truthy(row.description) then row.description.value else DefaultTitle)
      && r.title != ""
  {
    match ConfigByKey(configs, AnnouncementKey)
    case None => NoAnnouncement
    case Some(i) =>
      var row := configs[i];
      if row.value == "" then NoAnnouncement
      else Announcement(AnnouncementId(row), if Truthy(row.description) then row.description.value else DefaultTitle, row.value)
  }

  /** Texts whose UTF-8 bytes agree on the first 12 get the same id: the hash sees no further. */
  lemma SharedPrefixSameId(row: ConfigRow, other: string)
    requires 12 <= |Base64.Utf8(row.value)| && 12 <= |Base64.Utf8(other)|
    requires Base64.Utf8(row.value)[..12] == Base64.Utf8(other)[..12]
    ensures AnnouncementId(row) == AnnouncementId(row.(value := other))
  {
    Base64.EncodePrefix(Base64.Utf8(row.value), 4);
    Base64.EncodePrefix(Base64.Utf8(other), 4);
  }

  /** Every Base64 encoding has four characters per started group of three bytes. */
  lemma {:induction false} EncodeSize(bs: seq<Base64.byte>)
    ensures |Base64.Encode(bs)| == 4 * ((|bs| + 2) / 3)
    decreases |bs|
  {
    if |bs| > 2 {
      var rest := bs[3..];
      EncodeSize(rest);
      assert |Base64.Encode(bs)| == 4 + |Base64.Encode(rest)|;
      assert (|bs| + 2) / 3 == (|rest| + 2) / 3 + 1;
    }
  }

  /** A text of at most 12 UTF-8 bytes is wholly in its hash: its hash decodes back to it. */
  lemma ShortValueRecoverable(value: string)
    requires |Base64.Utf8(value)| <= 12
    ensures Base64.Decode(ValueHash(value)) == Some(Base64.Utf8(value))
  {
    var bs := Base64.Utf8(value);
    var e := Base64.Encode(bs);
    EncodeSize(bs);
    assert (|bs| + 2) / 3 <= 4;
    assert |e| <= 16;
    assert ValueHash(value) == e;
    Base64.DecodeEncode(bs);
  }

  /** Two short texts differ exactly when their ids do. */
  lemma ShortValuesDistinct(row: ConfigRow, other: string)
    requires |Base64.Utf8(row.value)| <= 12 && |Base64.Utf8(other)| <= 12
    requires Base64.Utf8(row.value) != Base64.Utf8(other)
    ensures AnnouncementId(row) != AnnouncementId(row.(value := other))
  {
    ShortValueRecoverable(row.value);
    ShortValueRecoverable(other);
    var a := AnnouncementId(row);
    var b := AnnouncementId(row.(value := other));
    var p := DecimalString(row.id) + "_";
    if a == b {
      assert a[|p|..] == ValueHash(row.value);
      assert b[|p|..] == ValueHash(other);
    }
  }

  const ExchangeKey: string := "exchange_info"
  const DefaultExchangeTitle: string := "积分兑换 SKR"
  const DefaultExchangeIcon: string := "💰"
  const DefaultExchangeDescription: string := "好" + "消息！您的游戏积分即将可以兑换 SKR 代币了！\n\n通过玩游戏获得的积分，未来将可以按照一定比例兑换成 SKR 代币，让您的游戏时间更有价值。\n\n具体兑换规则、兑换比例和开放时间将在后续版本中推出，敬请期待！\n\n继续玩游戏，积累更多积分，为兑换做好准备吧！🎮"

  /**
   * What `JSON.parse` makes of the stored text: not JSON (it throws), `null`,
   * an object with its three string fields (`None` where absent or empty), or
   * any other value, whose fields all read as undefined.
   */
  datatype Parsed = NotJson | JsonNull | JsonObject(title: Option<string>, icon: Option<string>, description: Option<string>) | JsonOther

  datatype ExchangeInfo = ExchangeInfo(title: string, icon: string, description: string)

  /** `field || fallback` for an optional text field of the stored notice. */
  function OrElse(field: Option<string>, fallback: string): (r: string)
    ensures Some(r) == field || r == fallback
    ensures Truthy(field) ==> r == field.value
    ensures r == "" <==> !Truthy(field) && fallback == ""
  {
    if Truthy(field) then field.value else fallback
  }

  /** `GET /config/exchange-info`; `parse` is `JSON.parse`. */
  function GetExchangeInfo(configs: seq<ConfigRow>, parse: string -> Parsed): (r: Reply<ExchangeInfo>)
    ensures ConfigValue(configs, ExchangeKey).None? || ConfigValue(configs, ExchangeKey) == Some("") ==>
      r == Ok(ExchangeInfo(DefaultExchangeTitle, DefaultExchangeIcon, DefaultExchangeDescription))
    ensures Truthy(ConfigValue(configs, ExchangeKey)) ==>
      var raw := ConfigValue(configs, ExchangeKey).value;
      match parse(raw)
      case NotJson => r == Ok(ExchangeInfo(DefaultExchangeTitle, DefaultExchangeIcon, raw))
      case JsonOther => r == Ok(ExchangeInfo(DefaultExchangeTitle, DefaultExchangeIcon, raw))
      case JsonNull => r == Err(500, "Internal server error")
      case JsonObject(t, i, d) =>
        r == Ok(ExchangeInfo(OrElse(t, DefaultExchangeTitle), OrElse(i, DefaultExchangeIcon), OrElse(d, raw)))
  {
    match ConfigValue(configs, ExchangeKey)
    case None => Ok(ExchangeInfo(DefaultExchangeTitle, DefaultExchangeIcon, DefaultExchangeDescription))
    case Some(raw) =>
      if raw == "" then Ok(ExchangeInfo(DefaultExchangeTitle, DefaultExchangeIcon, DefaultExchangeDescription))
      else match parse(raw)
        case NotJson => Ok(ExchangeInfo(DefaultExchangeTitle, DefaultExchangeIcon, raw))
        case JsonOther => Ok(ExchangeInfo(DefaultExchangeTitle, DefaultExchangeIcon, raw))
        case JsonNull => Err(500, "Internal server error")
        case JsonObject(t, i, d) => Ok(ExchangeInfo(OrElse(t, DefaultExchangeTitle), OrElse(i, DefaultExchangeIcon), OrElse(d, raw)))
  }

  /** Whatever is stored, a notice that is shown has no empty field. */
  lemma ExchangeFieldsNeverEmpty(configs: seq<ConfigRow>, parse: string -> Parsed)
    ensures var r := GetExchangeInfo(configs, parse);
      r.Ok? ==> r.value.title != "" && r.value.icon != "" && r.value.description != ""
  {
    assert DefaultExchangeTitle[0] == '积';
    assert DefaultExchangeIcon[0] == '💰';
    assert DefaultExchangeDescription[0] == '好';
  }
}

=== FILE: cors.dfy ===
/**
 * The server's cross-origin decision: everything in development, everything
 * when no allow-list is configured, and otherwise requests without an origin
 * or with an origin that is exactly one entry of the comma-separated list.
 */
module Cors {
  import opened Wrappers
  import opened JsText

  /** `NODE_ENV` and `CORS_ORIGIN`, `None` when unset. */
  datatype Env = Env(nodeEnv: Option<string>, corsOrigin: Option<string>)

  /** `CORS_ORIGIN?.split(',') || []`: no entries only when unset; a set but empty value is one empty entry. */
  function AllowList(env: Env): (r: seq<string>)
    ensures env.corsOrigin.None? <==> |r| == 0
    ensures env.corsOrigin.Some? ==> Join(r, ',') == env.corsOrigin.value
    ensures forall i :: 0 <= i < |r| ==> ',' !in r[i]
  {
    match env.corsOrigin
    case None => []
    case Some(s) => Split(s, ',')
  }

  /** The decision for one request's `Origin` header (`None` when absent). */
  function Allows(env: Env, origin: Option<string>): (r: bool)
    ensures env.nodeEnv == Some("development") ==> r
    ensures env.nodeEnv != Some("development") && env.corsOrigin.None? ==> r
    ensures !Truthy(origin) ==> r
    ensures env.nodeEnv != Some("development") && env.corsOrigin.Some? && Truthy(origin) ==>
      (r <==> origin.value in AllowList(env))
  {
    if env.nodeEnv == Some("development") then true
    else
      var allowed := AllowList(env);
      if |allowed| == 0 then true
      else !Truthy(origin) || origin.value in allowed
  }

  /** Listing origins joined by commas allows exactly those origins, compared verbatim. */
  lemma ListedOriginsExactly(nodeEnv: Option<string>, origins: seq<string>, origin: string)
    requires nodeEnv != Some("development")
    requires |origins| >= 1 && forall i :: 0 <= i < |origins| ==> ',' !in origins[i]
    requires origin != ""
    ensures Allows(Env(nodeEnv, Some(Join(origins, ','))), Some(origin)) <==> origin in origins
  {
    SplitJoin(origins, ',');
  }

  /** Spaces after the commas are kept: "a, b" does not allow "b". */
  lemma SpacesNotTrimmed(nodeEnv: Option<string>, a: string, b: string)
    requires nodeEnv != Some("development")
    requires ',' !in a && ',' !in b && b != "" && a != b
    ensures !Allows(Env(nodeEnv, Some(a + ", " + b)), Some(b))
  {
    var s := a + ", " + b;
    assert s == Join([a, " " + b], ',');
    SplitJoin([a, " " + b], ',');
    assert |" " + b| != |b|;
  }

  /** A set but empty allow-list refuses every request that names an origin. */
  lemma EmptySettingRefuses(nodeEnv: Option<string>, origin: string)
    requires nodeEnv != Some("development") && origin != ""
    ensures !Allows(Env(nodeEnv, Some("")), Some(origin))
  {
    assert Split("", ',') == [""];
  }
}

=== FILE: db.dfy ===
/**
 * The server's tables as in-memory sequences, and the handful of queries the
 * routes run against them (find by a unique column, filter, sum, count).
 * Row ids are handed out from per-table counters, as an autoincrement column does.
 */
module Db {
  import opened Wrappers

  /** A player, identified by a unique wallet address. */
  datatype User = User(id: nat, walletAddr: string, points: int, avatar: Option<string>, createdAt: int)

  /**
   * One reported game session. `day` is the local calendar day of `createdAt`:
   * the "today" window of the earn route is a day index in this model.
   */
  datatype GamePlay = GamePlay(
    id: nat, userId: nat, gameId: int, duration: int, adClicks: int,
    earnedPoints: int, day: int, createdAt: int)

  /** A catalogue entry. Optional columns are `None` where the database stores null. */
  datatype Game = Game(
    id: nat, name: string, icon: string, url: string, description: string, shortDesc: string,
    orientation: string, isBanner: bool, isHot: bool, bannerImage: Option<string>,
    isActive: bool, sortOrder: int, isGameDistribution: bool,
    gameDistributionId: Option<string>, sourceUrl: Option<string>, htmlFileName: Option<string>)

  /** A row of the points-rule table; `key` is unique. */
  datatype ConfigRow = ConfigRow(id: nat, key: string, value: string, description: Option<string>)

  /** A console administrator; `password` holds the stored hash. */
  datatype Admin = Admin(id: nat, username: string, password: string, role: string)

  datatype Db = Db(
    users: seq<User>, plays: seq<GamePlay>, games: seq<Game>, configs: seq<ConfigRow>,
    nextUserId: nat, nextPlayId: nat, nextGameId: nat)

  /**
   * `findUnique` on one column: the position of the first row whose `column`
   * holds `k`, or `None` when no row does.
   */
  function FindFirst<T, K(==)>(rows: seq<T>, column: T -> K, k: K): (r: Option<nat>)
    ensures r.Some? ==> r.value < |rows| && column(rows[r.value]) == k
    ensures r.Some? ==> forall j :: 0 <= j < r.value ==> column(rows[j]) != k
    ensures r.None? ==> forall j :: 0 <= j < |rows| ==> column(rows[j]) != k
    decreases |rows|
  {
    if |rows| == 0 then None
    else if column(rows[0]) == k then Some(0)
    else match FindFirst(rows[1..], column, k)
      case None => None
      case Some(i) => Some(i + 1)
  }

  /** The search sees only the searched column: tables that agree on it give the same answer. */
  lemma FindFirstSameColumn<T, K>(rows1: seq<T>, rows2: seq<T>, column: T -> K, k: K)
    requires |rows1| == |rows2|
    requires forall j :: 0 <= j < |rows1| ==> column(rows1[j]) == column(rows2[j])
    ensures FindFirst(rows1, column, k) == FindFirst(rows2, column, k)
  {
  }

  /** `findUnique({ where: { walletAddr } })`. */
  function UserByWallet(users: seq<User>, wallet: string): (r: Option<nat>)
    ensures r.Some? ==> r.value < |users| && users[r.value].walletAddr == wallet
    ensures r.None? ==> forall i :: 0 <= i < |users| ==> users[i].walletAddr != wallet
  {
    FindFirst(users, (x: User) => x.walletAddr, wallet)
  }

  /** `findUnique({ where: { id } })` on the users table. */
  function UserById(users: seq<User>, id: nat): (r: Option<nat>)
    ensures r.Some? ==> r.value < |users| && users[r.value].id == id
    ensures r.None? ==> forall i :: 0 <= i < |users| ==> users[i].id != id
  {
    FindFirst(users, (x: User) => x.id, id)
  }

  /** `findUnique({ where: { id } })` on the game-play table. */
  function PlayById(plays: seq<GamePlay>, id: int): (r: Option<nat>)
    ensures r.Some? ==> r.value < |plays| && plays[r.value].id == id
    ensures r.None? ==> forall i :: 0 <= i < |plays| ==> plays[i].id != id
  {
    FindFirst(plays, (x: GamePlay) => x.id, id)
  }

  /** `findUnique({ where: { id } })` on the games table. */
  function GameById(games: seq<Game>, id: int): (r: Option<nat>)
    ensures r.Some? ==> r.value < |games| && games[r.value].id == id
    ensures r.None? ==> forall i :: 0 <= i < |games| ==> games[i].id != id
  {
    FindFirst(games, (x: Game) => x.id, id)
  }

  /** `findUnique({ where: { key } })` on the rule table. */
  function ConfigByKey(configs: seq<ConfigRow>, key: string): (r: Option<nat>)
    ensures r.Some? ==> r.value < |configs| && configs[r.value].key == key
    ensures r.None? ==> forall i :: 0 <= i < |configs| ==> configs[i].key != key
  {
    FindFirst(configs, (x: ConfigRow) => x.key, key)
  }

  /** The value stored under `key`, if any. */
  function ConfigValue(configs: seq<ConfigRow>, key: string): (r: Option<string>)
    ensures r.Some? <==> exists i :: 0 <= i < |configs| && configs[i].key == key
    ensures r.Some? ==> exists i :: 0 <= i < |configs| && configs[i].key == key && configs[i].value == r.value
  {
    match ConfigByKey(configs, key)
    case None => None
    case Some(i) => Some(configs[i].value)
  }

  /** The rows of one user. */
  function PlaysOf(plays: seq<GamePlay>, userId: nat): (r: seq<GamePlay>)
    ensures |r| <= |plays|
    ensures forall p :: p in r <==> p in plays && p.userId == userId
  {
    if |plays| == 0 then []
    else
      var last := plays[|plays| - 1];
      PlaysOf(plays[..|plays| - 1], userId) + (if last.userId == userId then [last] else [])
  }

  /** Sum of `earnedPoints` over some rows. */
  function EarnedSum(plays: seq<GamePlay>): int {
    if |plays| == 0 then 0 else EarnedSum(plays[..|plays| - 1]) + plays[|plays| - 1].earnedPoints
  }

  /** Sum of `duration` over some rows. */
  function DurationSum(plays: seq<GamePlay>): int {
    if |plays| == 0 then 0 else DurationSum(plays[..|plays| - 1]) + plays[|plays| - 1].duration
  }

  /** Sum of `adClicks` over some rows. */
  function AdClickSum(plays: seq<GamePlay>): int {
    if |plays| == 0 then 0 else AdClickSum(plays[..|plays| - 1]) + plays[|plays| - 1].adClicks
  }

  /** Rows with no negative click count sum to no negative count. */
  lemma {:induction false} AdClickSumNonNegative(plays: seq<GamePlay>)
    ensures (forall p :: p in plays ==> p.adClicks >= 0) ==> AdClickSum(plays) >= 0
    decreases |plays|
  {
    if |plays| > 0 {
      var init := plays[..|plays| - 1];
      assert forall p :: p in init ==> p in plays;
      AdClickSumNonNegative(init);
    }
  }

  /** A user row at position `i` replaced by `u`. */
  function SetUser(users: seq<User>, i: nat, u: User): (r: seq<User>)
    requires i < |users|
    ensures |r| == |users| && r[i] == u
    ensures forall j :: 0 <= j < |users| && j != i ==> r[j] == users[j]
  {
    users[i := u]
  }

  /** Adds `pts` to the balance of the user at position `i`. */
  function Credit(users: seq<User>, i: nat, pts: int): (r: seq<User>)
    requires i < |users|
    ensures |r| == |users|
    ensures r[i] == users[i].(points := users[i].points + pts)
    ensures forall j :: 0 <= j < |users| && j != i ==> r[j] == users[j]
  {
    SetUser(users, i, users[i].(points := users[i].points + pts))
  }

  predicate UniqueUserIds(users: seq<User>) {
    forall i, j :: 0 <= i < j < |users| ==> users[i].id != users[j].id
  }

  predicate UsersAllocated(users: seq<User>, nextUserId: nat) {
    forall i :: 0 <= i < |users| ==> users[i].id < nextUserId
  }

  predicate PlaysAllocated(plays: seq<GamePlay>, nextUserId: nat, nextPlayId: nat) {
    forall k :: 0 <= k < |plays| ==> plays[k].userId < nextUserId && plays[k].id < nextPlayId
  }

  /** Each balance is the sum of `earnedPoints` over the user's rows. */
  predicate BalancesMatch(users: seq<User>, plays: seq<GamePlay>) {
    forall i :: 0 <= i < |users| ==> users[i].points == EarnedSum(PlaysOf(plays, users[i].id))
  }

  /**
   * The ledger invariant: user ids are unique and below the id counter, every
   * row belongs to an allocated id, and each balance is the sum of the user's rows.
   */
  predicate Balanced(db: Db) {
    && UniqueUserIds(db.users)
    && UsersAllocated(db.users, db.nextUserId)
    && PlaysAllocated(db.plays, db.nextUserId, db.nextPlayId)
    && BalancesMatch(db.users, db.plays)
  }

  /**
   * Crediting `delta` to one user keeps balances matching rows whose sums moved
   * by exactly that much for that user and not at all for the others.
   */
  lemma CreditKeepsMatch(users: seq<User>, plays: seq<GamePlay>, plays': seq<GamePlay>, i: nat, delta: int)
    requires UniqueUserIds(users) && BalancesMatch(users, plays) && i < |users|
    requires forall j :: 0 <= j < |users| ==>
      EarnedSum(PlaysOf(plays', users[j].id)) == EarnedSum(PlaysOf(plays, users[j].id)) + (if j == i then delta else 0)
    ensures UniqueUserIds(Credit(users, i, delta))
    ensures BalancesMatch(Credit(users, i, delta), plays')
  {
    var r := Credit(users, i, delta);
    forall j | 0 <= j < |r|
      ensures r[j].points == EarnedSum(PlaysOf(plays', r[j].id))
    {
      assert r[j].id == users[j].id;
    }
    forall a, b | 0 <= a < b < |r|
      ensures r[a].id != r[b].id
    {
      assert r[a].id == users[a].id && r[b].id == users[b].id;
    }
  }

  /** Rows of other users do not count towards a user's sum. */
  lemma {:induction false} PlaysOfAppend(plays: seq<GamePlay>, p: GamePlay, userId: nat)
    ensures PlaysOf(plays + [p], userId) == PlaysOf(plays, userId) + (if p.userId == userId then [p] else [])
  {
    assert (plays + [p])[..|plays + [p]| - 1] == plays;
  }

  /** Appending a row adds its points to its owner's sum and leaves every other sum alone. */
  lemma EarnedSumAppend(plays: seq<GamePlay>, p: GamePlay, userId: nat)
    ensures EarnedSum(PlaysOf(plays + [p], userId))
      == EarnedSum(PlaysOf(plays, userId)) + (if p.userId == userId then p.earnedPoints else 0)
  {
    PlaysOfAppend(plays, p, userId);
    var xs := PlaysOf(plays, userId);
    if p.userId == userId {
      assert (xs + [p])[..|xs + [p]| - 1] == xs;
    } else {
      assert xs + [] == xs;
    }
  }

  /** Appending a row of the user at `i` moves that user's sum by its points and no other sum. */
  lemma AppendSums(users: seq<User>, plays: seq<GamePlay>, p: GamePlay, i: nat)
    requires UniqueUserIds(users) && i < |users| && p.userId == users[i].id
    ensures forall j :: 0 <= j < |users| ==>
      EarnedSum(PlaysOf(plays + [p], users[j].id))
        == EarnedSum(PlaysOf(plays, users[j].id)) + (if j == i then p.earnedPoints else 0)
  {
    forall j | 0 <= j < |users|
      ensures EarnedSum(PlaysOf(plays + [p], users[j].id))
        == EarnedSum(PlaysOf(plays, users[j].id)) + (if j == i then p.earnedPoints else 0)
    {
      EarnedSumAppend(plays, p, users[j].id);
    }
  }
  /** The two writes that store a session: append the row, then credit its owner. */
  function Record(db: Db, i: nat, play: GamePlay): (r: Db)
    requires i < |db.users|
    ensures r.plays == db.plays + [play]
    ensures r.users == Credit(db.users, i, play.earnedPoints)
    ensures r.nextPlayId == db.nextPlayId + 1
    ensures r.games == db.games && r.configs == db.configs && r.nextUserId == db.nextUserId && r.nextGameId == db.nextGameId
  {
    db.(plays := db.plays + [play], nextPlayId := db.nextPlayId + 1,
      users := Credit(db.users, i, play.earnedPoints))
  }

  lemma AppendAllocated(plays: seq<GamePlay>, p: GamePlay, nextUserId: nat, nextPlayId: nat)
    requires PlaysAllocated(plays, nextUserId, nextPlayId)
    requires p.userId < nextUserId && p.id == nextPlayId
    ensures PlaysAllocated(plays + [p], nextUserId, nextPlayId + 1)
  {
  }

  lemma CreditAllocated(users: seq<User>, i: nat, pts: int, nextUserId: nat)
    requires UsersAllocated(users, nextUserId) && i < |users|
    ensures UsersAllocated(Credit(users, i, pts), nextUserId)
  {
    var r := Credit(users, i, pts);
    forall j | 0 <= j < |r| ensures r[j].id < nextUserId {
      assert r[j].id == users[j].id;
    }
  }

  /** Appending a row of the user at `i` and crediting its points keeps the ledger balanced. */
  lemma RecordPreservesBalanced(db: Db, i: nat, p: GamePlay)
    requires Balanced(db) && i < |db.users|
    requires p.userId == db.users[i].id && p.id == db.nextPlayId
    ensures Balanced(Record(db, i, p))
  {
    var r := Record(db, i, p);
    assert r.plays == db.plays + [p];
    assert r.users == Credit(db.users, i, p.earnedPoints);
    AppendSums(db.users, db.plays, p, i);
    CreditKeepsMatch(db.users, db.plays, r.plays, i, p.earnedPoints);
    AppendAllocated(db.plays, p, db.nextUserId, db.nextPlayId);
    CreditAllocated(db.users, i, p.earnedPoints, db.nextUserId);
  }


  /** The wallet lookup sees only the wallet column. */
  lemma UserByWalletSameWallets(u1: seq<User>, u2: seq<User>, wallet: string)
    requires |u1| == |u2|
    requires forall j :: 0 <= j < |u1| ==> u1[j].walletAddr == u2[j].walletAddr
    ensures UserByWallet(u1, wallet) == UserByWallet(u2, wallet)
  {
    FindFirstSameColumn(u1, u2, (x: User) => x.walletAddr, wallet);
  }

  /** Crediting a balance does not move any user in a wallet lookup. */
  lemma CreditKeepsWallets(users: seq<User>, i: nat, pts: int, wallet: string)
    requires i < |users|
    ensures UserByWallet(Credit(users, i, pts), wallet) == UserByWallet(users, wallet)
  {
    var r := Credit(users, i, pts);
    assert forall j :: 0 <= j < |users| ==> r[j].walletAddr == users[j].walletAddr;
    UserByWalletSameWallets(r, users, wallet);
  }

  /** The game lookup sees only the id column. */
  lemma GameByIdSameIds(g1: seq<Game>, g2: seq<Game>, id: int)
    requires |g1| == |g2|
    requires forall j :: 0 <= j < |g1| ==> g1[j].id == g2[j].id
    ensures GameById(g1, id) == GameById(g2, id)
  {
    FindFirstSameColumn(g1, g2, (x: Game) => x.id, id);
  }

  /** The user lookup sees only the id column. */
  lemma UserByIdSameIds(u1: seq<User>, u2: seq<User>, id: nat)
    requires |u1| == |u2|
    requires forall j :: 0 <= j < |u1| ==> u1[j].id == u2[j].id
    ensures UserById(u1, id) == UserById(u2, id)
  {
    FindFirstSameColumn(u1, u2, (x: User) => x.id, id);
  }
}

=== FILE: games_routes.dfy ===
/**
 * The public catalogue routes: the paged list of active games, the banner and
 * hot selections, and one game by id. Lists are in ascending `sortOrder`.
 */
module GamesRoutes {
  import opened Wrappers
  import opened JsText
  import opened Db
  import opened Sorting
  import opened Paging

  const ListLimit: int := 10
  const HotLimit: int := 8

  function SortKey(g: Game): int { g.sortOrder }

  predicate Listed(g: Game) { g.isActive }

  predicate Banner(g: Game) { g.isActive && g.isBanner }

  predicate Hot(g: Game) { g.isActive && g.isHot }

  /** The games passing `keep`, in ascending `sortOrder`. */
  function Selection(games: seq<Game>, keep: Game -> bool): (r: seq<Game>)
    ensures SortedBy(r, SortKey)
    ensures forall g :: g in r <==> g in games && keep(g)
    ensures |r| == |Filter(games, keep)|
  {
    FilterMembers(games, keep);
    var r := SortBy(Filter(games, keep), SortKey);
    assert forall g :: g in r <==> g in multiset(r);
    r
  }

  /** A slice of a sorted list is sorted. */
  lemma SortedSlice(xs: seq<Game>, lo: int, hi: int)
    requires SortedBy(xs, SortKey) && 0 <= lo <= hi <= |xs|
    ensures SortedBy(xs[lo..hi], SortKey)
  {
    var s := xs[lo..hi];
    forall i, j | 0 <= i < j < |s| ensures SortKey(s[i]) <= SortKey(s[j]) {
      assert s[i] == xs[lo + i] && s[j] == xs[lo + j];
    }
  }

  /** `GET /games`: one page of the active games, 10 per page by default. */
  function ListGames(games: seq<Game>, pageQ: Option<string>, limitQ: Option<string>): (r: Reply<Page<Game>>)
    ensures var page := QueryInt(pageQ, 1);
      var limit := QueryInt(limitQ, ListLimit);
      r.Err? <==> (page - 1) * limit < 0
    ensures r.Ok? ==> r.value.pagination.total == |Filter(games, Listed)|
    ensures r.Ok? ==> forall i :: 0 <= i < |r.value.items| ==> r.value.items[i] in games && r.value.items[i].isActive
    ensures r.Ok? && r.value.pagination.limit > 0 ==> SortedBy(r.value.items, SortKey)
    ensures r == PageOf(Selection(games, Listed), QueryInt(pageQ, 1), QueryInt(limitQ, ListLimit))
  {
    var all := Selection(games, Listed);
    PageOfSorted(all, QueryInt(pageQ, 1), QueryInt(limitQ, ListLimit));
    Paginate(all, pageQ, limitQ, ListLimit)
  }

  /** A page of a sorted list holds rows of the list, and is sorted when the limit is positive. */
  lemma PageOfSorted(all: seq<Game>, page: int, limit: int)
    requires SortedBy(all, SortKey) && limit != 0
    ensures var r := PageOf(all, page, limit);
      r.Ok? ==>
        && (forall i :: 0 <= i < |r.value.items| ==> r.value.items[i] in all)
        && (limit > 0 ==> SortedBy(r.value.items, SortKey))
  {
    var r := PageOf(all, page, limit);
    if r.Ok? {
      var skip := (page - 1) * limit;
      if limit > 0 {
        assert r.value.items == all[Min(skip, |all|)..Min(skip + limit, |all|)];
        SortedSlice(all, Min(skip, |all|), Min(skip + limit, |all|));
      }
    }
  }

  /** `GET /games/banners`: every active banner game, none other, in order. */
  function Banners(games: seq<Game>): (r: seq<Game>)
    ensures SortedBy(r, SortKey)
    ensures forall g :: g in r <==> g in games && g.isActive && g.isBanner
  {
    Selection(games, Banner)
  }

  /** `GET /games/hot`: the first `limit` active hot games, 8 by default. */
  function HotGames(games: seq<Game>, limitQ: Option<string>): (r: seq<Game>)
    ensures forall i :: 0 <= i < |r| ==> r[i] in games && r[i].isActive && r[i].isHot
    ensures SortedBy(r, SortKey)
    ensures limitQ.None? ==> |r| == Min(HotLimit, |Filter(games, Hot)|)
  {
    HotTaken(games, QueryInt(limitQ, HotLimit));
    Take(Selection(games, Hot), QueryInt(limitQ, HotLimit))
  }

  /** Taken from the hot selection, the rows are sorted active hot games. */
  lemma HotTaken(games: seq<Game>, limit: int)
    ensures var r := Take(Selection(games, Hot), limit);
      && SortedBy(r, SortKey)
      && forall i :: 0 <= i < |r| ==> r[i] in games && r[i].isActive && r[i].isHot
  {
    var all := Selection(games, Hot);
    var r := Take(all, limit);
    TakeSorted(all, limit);
    forall i | 0 <= i < |r| ensures r[i] in games && r[i].isActive && r[i].isHot {
      assert r[i] in all;
    }
  }

  /** The first or last rows of a sorted list are sorted rows of the list. */
  lemma TakeSorted(all: seq<Game>, take: int)
    requires SortedBy(all, SortKey)
    ensures var r := Take(all, take);
      SortedBy(r, SortKey) && forall i :: 0 <= i < |r| ==> r[i] in all
  {
    var r := Take(all, take);
    if take >= 0 {
      SortedSlice(all, 0, |r|);
    } else {
      SortedSlice(all, |all| - |r|, |all|);
    }
  }

  /** With a non-negative limit the hot list is the head of all active hot games in order. */
  lemma HotGamesHead(games: seq<Game>, limitQ: Option<string>)
    requires QueryInt(limitQ, HotLimit) >= 0
    ensures var r := HotGames(games, limitQ);
      r == Selection(games, Hot)[..|r|]
  {
  }

  /** A larger hot limit extends the list: the smaller answer is a prefix of the larger. */
  lemma HotLimitPrefix(games: seq<Game>, small: Option<string>, large: Option<string>)
    requires 0 <= QueryInt(small, HotLimit) <= QueryInt(large, HotLimit)
    ensures var a := HotGames(games, small);
      var b := HotGames(games, large);
      |a| <= |b| && a == b[..|a|]
  {
  }

  /** `GET /games/:id`: any game by id, listed or not. */
  function Detail(games: seq<Game>, idText: string): (r: Reply<Game>)
    ensures ParseInt(idText).None? ==> r == Err(500, "Internal server error")
    ensures ParseInt(idText).Some? && GameById(games, ParseInt(idText).value).None? ==> r == Err(404, "Game not found")
    ensures r.Ok? ==> r.value in games && ParseInt(idText).Some? && r.value.id == ParseInt(idText).value
  {
    match ParseInt(idText)
    case None => Err(500, "Internal server error")
    case Some(id) =>
      match GameById(games, id)
      case None => Err(404, "Game not found")
      case Some(i) => Ok(games[i])
  }

  predicate UniqueGameIds(games: seq<Game>) {
    forall i, j :: 0 <= i < j < |games| ==> games[i].id != games[j].id
  }

  /** Every stored game, active or not, is served at the path of its own id. */
  lemma DetailOfEveryGame(games: seq<Game>, k: nat)
    requires UniqueGameIds(games) && k < |games|
    ensures Detail(games, DecimalString(games[k].id)) == Ok(games[k])
  {
    ParseIntDecimalString(games[k].id);
    var j := GameById(games, games[k].id);
    assert j.Some?;
  }

  /** Every game on a catalogue page, banner or hot list opens with the detail route. */
  lemma ListedGamesOpen(games: seq<Game>, g: Game)
    requires UniqueGameIds(games) && g in games
    ensures Detail(games, DecimalString(g.id)) == Ok(g)
  {
    var k :| 0 <= k < |games| && games[k] == g;
    DetailOfEveryGame(games, k);
  }
}

=== FILE: html_generator.dfy ===
/**
 * The HTML wrapper pages generated for GameDistribution games: the file name
 * taken from the game's URL, and the page text with the game inserted verbatim.
 * URL parsing is an input: the parsed pathname, or `None` when parsing throws.
 */
module HtmlGenerator {
  import opened Wrappers
  import opened JsText

  const DefaultFileName: string := "game.html"

  /** The fallback name is a '/'-free ".html" file name. */
  lemma DefaultFileNameShape()
    ensures '/' !in DefaultFileName && EndsWith(DefaultFileName, ".html")
  {
    assert DefaultFileName == ['g', 'a', 'm', 'e'] + ".html";
  }

  /** Count of '/' characters at the end of `s`. */
  function TrailingSlashes(s: string): (k: nat)
    ensures k <= |s|
    ensures forall i :: |s| - k <= i < |s| ==> s[i] == '/'
    ensures k < |s| ==> s[|s| - k - 1] != '/'
  {
    if |s| > 0 && s[|s| - 1] == '/' then 1 + TrailingSlashes(s[..|s| - 1]) else 0
  }

  /** The text after the last '/' of `s` (all of `s` when it has none). */
  function LastSegment(s: string): (r: string)
    ensures '/' !in r
    ensures |r| <= |s| && r == s[|s| - |r|..]
    ensures |r| < |s| ==> s[|s| - |r| - 1] == '/'
  {
    if |s| == 0 || s[|s| - 1] == '/' then []
    else LastSegment(s[..|s| - 1]) + [s[|s| - 1]]
  }

  /** POSIX `path.basename`: the last segment once trailing slashes are dropped. */
  function Basename(p: string): (r: string)
    ensures '/' !in r
    ensures var end := |p| - TrailingSlashes(p);
      && |r| <= end && r == p[end - |r|..end]
      && (|r| < end ==> p[end - |r| - 1] == '/')
  {
    LastSegment(p[..|p| - TrailingSlashes(p)])
  }

  /**
   * `url.match(/([^\/]+\.html)$/)`: the segment after the last '/' when it is
   * some characters followed by ".html".
   */
  function HtmlSuffixMatch(url: string): (r: Option<string>)
    ensures r.Some? ==> '/' !in r.value && |r.value| > 5 && EndsWith(r.value, ".html") && EndsWith(url, r.value)
    ensures r.None? ==> !(|LastSegment(url)| > 5 && EndsWith(LastSegment(url), ".html"))
  {
    var seg := LastSegment(url);
    if |seg| > 5 && EndsWith(seg, ".html") then Some(seg) else None
  }

  /** `extractFileNameFromUrl(url)`, given the pathname parsed from `url` or `None`. */
  function ExtractFileName(url: string, pathname: Option<string>): (r: string)
    ensures r != []
    ensures '/' !in r
    ensures pathname.Some? && Basename(pathname.value) != [] ==> r == Basename(pathname.value)
    ensures pathname.Some? && Basename(pathname.value) == [] ==> r == DefaultFileName
    ensures pathname.None? ==> EndsWith(r, ".html")
    ensures pathname.None? && r != DefaultFileName ==> EndsWith(url, r)
  {
    DefaultFileNameShape();
    match pathname
    case Some(p) =>
      var name := Basename(p);
      if name != [] then name else DefaultFileName
    case None =>
      match HtmlSuffixMatch(url)
      case Some(m) => m
      case None => DefaultFileName
  }

  /** An unparsable URL ending in a file name ending in ".html" yields that file name. */
  lemma FallbackFindsFile(dir: string, file: string)
    requires '/' !in file && |file| > 5 && EndsWith(file, ".html")
    ensures ExtractFileName(dir + "/" + file, None) == file
  {
    var url := dir + "/" + file;
    LastSegmentAfterSlash(dir, file);
  }

  lemma {:induction false} LastSegmentAfterSlash(dir: string, file: string)
    requires '/' !in file
    ensures LastSegment(dir + "/" + file) == file
    decreases |file|
  {
    var url := dir + "/" + file;
    if |file| == 0 {
      assert url[|url| - 1] == '/';
    } else {
      var init := file[..|file| - 1];
      assert url[..|url| - 1] == dir + "/" + init;
      assert '/' !in init by {
        assert forall i :: 0 <= i < |init| ==> init[i] == file[i];
      }
      LastSegmentAfterSlash(dir, init);
      assert file == init + [file[|file| - 1]];
    }
  }

  /** A parsed pathname ending in a file name yields that file name. */
  lemma ParsedPathFindsFile(url: string, dir: string, file: string)
    requires '/' !in file && file != []
    ensures ExtractFileName(url, Some(dir + "/" + file)) == file
  {
    BasenameOfFile(dir, file);
  }

  lemma BasenameOfFile(dir: string, file: string)
    requires '/' !in file && file != []
    ensures Basename(dir + "/" + file) == file
  {
    var p := dir + "/" + file;
    assert p[|p| - 1] == file[|file| - 1];
    assert file[|file| - 1] in file;
    assert TrailingSlashes(p) == 0;
    NoTrailingSlash(p);
    LastSegmentAfterSlash(dir, file);
  }

  /** Without trailing slashes the base name is the last segment. */
  lemma NoTrailingSlash(p: string)
    requires TrailingSlashes(p) == 0
    ensures Basename(p) == LastSegment(p)
  {
    assert p[..|p|] == p;
  }

  /** Trailing slashes do not change the base name. */
  lemma BasenameIgnoresTrailingSlash(p: string)
    ensures Basename(p + "/") == Basename(p)
  {
    SlashDropped(p);
    SameStemSameBasename(p + "/", p);
  }

  /** Texts that agree once their trailing slashes are dropped have the same base name. */
  lemma SameStemSameBasename(a: string, b: string)
    requires a[..|a| - TrailingSlashes(a)] == b[..|b| - TrailingSlashes(b)]
    ensures Basename(a) == Basename(b)
  {
  }

  /** One more trailing slash is one more to drop, leaving the same text. */
  lemma SlashDropped(p: string)
    ensures var q := p + "/";
      q[..|q| - TrailingSlashes(q)] == p[..|p| - TrailingSlashes(p)]
  {
    var q := p + "/";
    assert q[..|q| - 1] == p;
    assert TrailingSlashes(q) == 1 + TrailingSlashes(p);
  }

  /** Page text before the title. */
  const Head: string := "<!DOCTYPE html>\n<html lang=\"en\">\n<head>\n    <meta charset=\"UTF-8\">\n    <meta name=\"viewport\" content=\"width=device-width, initial-scale=1.0, maximum-scale=1.0, user-scalable=no\">\n    <title>"

  /** Page text between the title and the iframe address. */
  const Middle: string := "<" + "/title>\n    <style>\n        html, body {\n            margin: 0;\n            padding: 0;\n            height: 100%;\n            width: 100%;\n            overflow: hidden;\n            background: #000;\n        }\n        \n        iframe {\n            width: 100%;\n            height: 100%;\n            border: none;\n            display: block;\n        }\n    </style>\n</head>\n<body>\n    <iframe \n        src=\""

  /** Page text after the iframe address. */
  const Tail: string := "\" \n        frameborder=\"0\" \n        scrolling=\"no\"\n        allowfullscreen>\n    </iframe>\n</body>\n</html>"

  /** The iframe address: the GameDistribution player for `gdId`, told the game's own URL unencoded. */
  function IframeSrc(gdId: string, gameUrl: string): (r: string)
    ensures StartsWith(r, "https://html5.gamedistribution.com/")
    ensures EndsWith(r, gameUrl)
  {
    "https://html5.gamedistribution.com/" + gdId + "/?gd_sdk_referrer_url=" + gameUrl
  }

  /**
   * `generateGameHTML(name, gdId, url)`: every argument goes in unescaped, so
   * the page's title is the game name cut at its first '<'.
   */
  function GenerateGameHtml(gameName: string, gdId: string, gameUrl: string): (html: string)
    ensures TitleOf(html) == UntilTag(gameName)
  {
    var rest := Middle + (IframeSrc(gdId, gameUrl) + Tail);
    assert rest[0] == '<' by { assert Middle[0] == '<'; }
    UntilTagBeforeTag(gameName, rest);
    TitleOfAfterHead(gameName + rest);
    Head + (gameName + rest)
  }

  /** Text before the first '<'. */
  function UntilTag(s: string): (r: string)
    ensures '<' !in r && |r| <= |s| && r == s[..|r|]
    ensures |r| < |s| ==> s[|r|] == '<'
  {
    if |s| == 0 || s[0] == '<' then [] else [s[0]] + UntilTag(s[1..])
  }

  /** The title a reader of the page sees: the text after `<title>` up to the next tag. */
  function TitleOf(html: string): string {
    if StartsWith(html, Head) then UntilTag(html[|Head|..]) else []
  }

  /** Cutting at the first tag does not look past a tag that follows the text. */
  lemma {:induction false} UntilTagBeforeTag(name: string, rest: string)
    requires |rest| > 0 && rest[0] == '<'
    ensures UntilTag(name + rest) == UntilTag(name)
    decreases |name|
  {
    if |name| > 0 {
      assert (name + rest)[1..] == name[1..] + rest;
      UntilTagBeforeTag(name[1..], rest);
    } else {
      assert name + rest == rest;
    }
  }

  lemma TitleOfAfterHead(body: string)
    ensures TitleOf(Head + body) == UntilTag(body)
  {
    assert (Head + body)[..|Head|] == Head;
    assert (Head + body)[|Head|..] == body;
  }

  /** A name without '<' is exactly the page's title. */
  lemma TitleRoundTrip(gameName: string, gdId: string, gameUrl: string)
    requires '<' !in gameName
    ensures TitleOf(GenerateGameHtml(gameName, gdId, gameUrl)) == gameName
  {
    UntilTagWhole(gameName);
  }

  lemma {:induction false} UntilTagWhole(s: string)
    requires '<' !in s
    ensures UntilTag(s) == s
    decreases |s|
  {
    if |s| > 0 {
      assert s[0] in s;
      assert '<' !in s[1..] by {
        assert forall i :: 0 <= i < |s[1..]| ==> s[1..][i] == s[i + 1];
      }
      UntilTagWhole(s[1..]);
      assert s == [s[0]] + s[1..];
    }
  }

  /** The slice of `a + (b + (c + (d + e)))` where `d` sits. */
  lemma FourthPart(a: string, b: string, c: string, d: string, e: string)
    ensures var s := a + (b + (c + (d + e)));
      s[|a| + |b| + |c|..|a| + |b| + |c| + |d|] == d
  {
    var s := a + (b + (c + (d + e)));
    assert s == (a + b + c) + (d + e);
  }

  /** The iframe loads the GameDistribution address, placed right after the title. */
  lemma SrcAfterTitle(gameName: string, gdId: string, gameUrl: string)
    ensures var html := GenerateGameHtml(gameName, gdId, gameUrl);
      var at := |Head| + |gameName| + |Middle|;
      html[at..at + |IframeSrc(gdId, gameUrl)|] == IframeSrc(gdId, gameUrl)
  {
    FourthPart(Head, gameName, Middle, IframeSrc(gdId, gameUrl), Tail);
  }
}

=== FILE: i18n.dfy ===
/**
 * The app's language handling: the stored choice ("system", "en" or "zh"),
 * the device language behind "system", and the translation lookup with its
 * fallbacks. The device locale APIs and the key-value store are inputs.
 */
module I18n {
  import opened Wrappers
  import opened JsText

  /** The user's choice; `System` follows the device. */
  datatype Language = System | En | Zh

  /** The text stored for a choice. */
  function LanguageName(l: Language): (r: string)
    ensures |r| >= 2
  {
    match l
    case System => "system"
    case En => "en"
    case Zh => "zh"
  }

  /** Different choices are stored as different texts. */
  lemma LanguageNameInjective(a: Language, b: Language)
    requires LanguageName(a) == LanguageName(b)
    ensures a == b
  {
  }

  /** The result of reading the stored choice: the read fails, or yields the stored text if any. */
  datatype StoreRead = ReadFailed | Read(saved: Option<string>)

  /** `getCurrentLanguage`: the stored choice when it is one of the three, otherwise "system". */
  function CurrentLanguage(read: StoreRead): (r: Language)
    ensures r != System ==> read == Read(Some(LanguageName(r)))
    ensures read.Read? && read.saved.Some? && read.saved.value == "system" ==> r == System
    ensures read.ReadFailed? || read.saved.None? ==> r == System
  {
    match read
    case Read(Some(s)) =>
      if s == "en" then En else if s == "zh" then Zh else System
    case _ => System
  }

  /** `setLanguage`: the store afterwards; a failed write leaves it as it was. */
  function SetLanguage(stored: Option<string>, l: Language, writeOk: bool): (r: Option<string>)
    ensures writeOk ==> r == Some(LanguageName(l))
    ensures !writeOk ==> r == stored
  {
    if writeOk then Some(LanguageName(l)) else stored
  }

  /** A choice written successfully is the choice read back. */
  lemma SetThenGet(stored: Option<string>, l: Language)
    ensures CurrentLanguage(Read(SetLanguage(stored, l, true))) == l
  {
  }

  /** A stored text that is not one of the three names reads as "system". */
  lemma UnknownNameIsSystem(s: string)
    requires forall l: Language :: LanguageName(l) != s
    ensures CurrentLanguage(Read(Some(s))) == System
  {
    assert LanguageName(En) != s && LanguageName(Zh) != s;
  }

  /** One device locale entry: its language code and full tag, either possibly missing. */
  datatype Locale = Locale(languageCode: Option<string>, languageTag: Option<string>)

  /**
   * What the device reports: `getLocales()` (`None` when it throws; an empty
   * list also stands for `null`), the single `locale` setting, and the
   * `locales` array (`None` when it is not an array).
   */
  datatype Device = Device(getLocales: Option<seq<Locale>>, locale: Option<string>, locales: Option<seq<Locale>>)

  /** A truthy text, or `fallback`. */
  function OrElse(s: Option<string>, fallback: string): (r: string)
    ensures Truthy(s) ==> r == s.value
    ensures !Truthy(s) ==> r == fallback
  {
    if Truthy(s) then s.value else fallback
  }

  /** A language text names Chinese: it starts with "zh" in any case. */
  predicate IsZh(s: string) {
    StartsWith(ToLower(s), "zh")
  }

  /**
   * `getSystemLanguage`: the first entry of `getLocales()` decides when there
   * is one; otherwise the `locale` setting, then the first entry of `locales`.
   */
  function SystemLanguage(d: Device): (r: Language)
    ensures r != System
    ensures d.getLocales.Some? && |d.getLocales.value| > 0 ==>
      var first := d.getLocales.value[0];
      (r == Zh <==> IsZh(OrElse(first.languageCode, "")) || IsZh(OrElse(first.languageTag, "")))
    ensures !(d.getLocales.Some? && |d.getLocales.value| > 0) ==>
      (r == Zh <==>
        || IsZh(OrElse(d.locale, "en"))
        || (d.locales.Some? && |d.locales.value| > 0
            && IsZh(OrElse(d.locales.value[0].languageCode, OrElse(d.locales.value[0].languageTag, "")))))
  {
    if d.getLocales.Some? && |d.getLocales.value| > 0 then
      var first := d.getLocales.value[0];
      if IsZh(OrElse(first.languageCode, "")) || IsZh(OrElse(first.languageTag, "")) then Zh else En
    else if IsZh(OrElse(d.locale, "en")) then Zh
    else if d.locales.Some? && |d.locales.value| > 0
         && IsZh(OrElse(d.locales.value[0].languageCode, OrElse(d.locales.value[0].languageTag, ""))) then Zh
    else En
  }

  /** Any regional variant of Chinese as the first reported tag gives Chinese, whatever the case. */
  lemma ChineseVariants(region: string, rest: seq<Locale>, code: Option<string>, locale: Option<string>, locales: Option<seq<Locale>>)
    ensures SystemLanguage(Device(Some([Locale(code, Some("ZH" + region))] + rest), locale, locales)) == Zh
    ensures SystemLanguage(Device(Some([Locale(code, Some("zh" + region))] + rest), locale, locales)) == Zh
  {
    assert ToLower("ZH" + region)[..2] == "zh";
    assert ToLower("zh" + region)[..2] == "zh";
  }

  /** A device that reports nothing at all is taken to be English. */
  lemma SilentDeviceIsEnglish()
    ensures SystemLanguage(Device(None, None, None)) == En
  {
    assert ToLower("en")[0] == 'e';
  }

  /** `getActualLanguage`: the device language for "system", the choice itself otherwise. */
  function ActualLanguage(l: Language, d: Device): (r: Language)
    ensures r != System
    ensures l != System ==> r == l
    ensures l == System ==> r == SystemLanguage(d)
  {
    if l == System then SystemLanguage(d) else l
  }

  /** Resolving a resolved language changes nothing. */
  lemma ActualIdempotent(l: Language, d: Device)
    ensures ActualLanguage(ActualLanguage(l, d), d) == ActualLanguage(l, d)
  {
  }

  /** The two string tables. */
  datatype Tables = Tables(en: map<string, string>, zh: map<string, string>)

  /** A table entry, empty when missing (both read as falsy). */
  function Entry(m: map<string, string>, key: string): string {
    if key in m then m[key] else ""
  }

  function TableOf(t: Tables, l: Language): map<string, string>
    requires l != System
  {
    if l == Zh then t.zh else t.en
  }

  /** `t(key, language)`: the resolved language's text, else the English text, else the key. */
  function Translate(t: Tables, key: string, l: Language, d: Device): (r: string)
    ensures var own := Entry(TableOf(t, ActualLanguage(l, d)), key);
      && (own != "" ==> r == own)
      && (own == "" && Entry(t.en, key) != "" ==> r == Entry(t.en, key))
      && (own == "" && Entry(t.en, key) == "" ==> r == key)
    ensures key != "" ==> r != ""
  {
    var own := Entry(TableOf(t, ActualLanguage(l, d)), key);
    if own != "" then own else if Entry(t.en, key) != "" then Entry(t.en, key) else key
  }

  /** A key the Chinese table lacks reads as in English. */
  lemma MissingChineseFallsBack(t: Tables, key: string, d: Device)
    requires Entry(t.zh, key) == ""
    ensures Translate(t, key, Zh, d) == Translate(t, key, En, d)
  {
  }

  /** English text never depends on the Chinese table. */
  lemma EnglishIgnoresChinese(t: Tables, zh: map<string, string>, key: string, d: Device)
    ensures Translate(t, key, En, d) == Translate(t.(zh := zh), key, En, d)
  {
  }

  /** "system" reads exactly as the device language chosen explicitly. */
  lemma SystemFollowsDevice(t: Tables, key: string, d: Device)
    ensures Translate(t, key, System, d) == Translate(t, key, SystemLanguage(d), d)
  {
  }
}

=== FILE: jstext.dfy ===
/**
 * The JavaScript string and number conversions the server and the client lean on:
 * white space and `trim`, ASCII case mapping, `startsWith`, `split`/`join` on one
 * separator character, `parseInt` without a radix, and `String(n)` for integers.
 */
module JsText {
  import opened Wrappers

  /** ECMAScript WhiteSpace and LineTerminator code points: what `trim` removes and `parseInt` skips. */
  predicate IsSpace(c: char) {
    || c == '\t' || c == '\n' || c == '\U{B}' || c == '\U{C}' || c == '\r' || c == ' '
    || c == '\U{A0}' || c == '\U{1680}' || ('\U{2000}' <= c <= '\U{200A}')
    || c == '\U{2028}' || c == '\U{2029}' || c == '\U{202F}' || c == '\U{205F}'
    || c == '\U{3000}' || c == '\U{FEFF}'
  }

  predicate AllSpace(s: string) {
    forall i :: 0 <= i < |s| ==> IsSpace(s[i])
  }

  /** Length of the longest all-white-space prefix. */
  function LeadingSpaces(s: string): (k: nat)
    ensures k <= |s|
    ensures AllSpace(s[..k])
    ensures k < |s| ==> !IsSpace(s[k])
    decreases |s|
  {
    if |s| > 0 && IsSpace(s[0]) then
      var k' := LeadingSpaces(s[1..]);
      assert forall i :: 1 <= i < 1 + k' ==> s[i] == s[1..][i - 1];
      1 + k'
    else 0
  }

  /** Length of the longest all-white-space suffix. */
  function TrailingSpaces(s: string): (k: nat)
    ensures k <= |s|
    ensures AllSpace(s[|s| - k..])
    ensures k < |s| ==> !IsSpace(s[|s| - k - 1])
    decreases |s|
  {
    if |s| > 0 && IsSpace(s[|s| - 1]) then
      var k' := TrailingSpaces(s[..|s| - 1]);
      assert forall i :: |s| - 1 - k' <= i < |s| - 1 ==> s[i] == s[..|s| - 1][i];
      1 + k'
    else 0
  }

  /** The leading-space count is the only cut with white space before it and none at it. */
  lemma LeadingSpacesUnique(s: string, k: nat)
    requires k <= |s| && AllSpace(s[..k]) && (k < |s| ==> !IsSpace(s[k]))
    ensures LeadingSpaces(s) == k
  {
    var j := LeadingSpaces(s);
    assert forall i :: 0 <= i < k ==> IsSpace(s[i]) by {
      forall i | 0 <= i < k ensures IsSpace(s[i]) { assert s[..k][i] == s[i]; }
    }
    assert forall i :: 0 <= i < j ==> IsSpace(s[i]) by {
      forall i | 0 <= i < j ensures IsSpace(s[i]) { assert s[..j][i] == s[i]; }
    }
  }

  /** The trailing-space count is the only cut with white space after it and none just before it. */
  lemma TrailingSpacesUnique(s: string, k: nat)
    requires k <= |s| && AllSpace(s[|s| - k..]) && (k < |s| ==> !IsSpace(s[|s| - k - 1]))
    ensures TrailingSpaces(s) == k
  {
    var j := TrailingSpaces(s);
  }

  /** `String.prototype.trim`: drops white space at both ends and nothing else. */
  function Trim(s: string): (r: string)
    ensures LeadingSpaces(s) + |r| <= |s|
    ensures r == s[LeadingSpaces(s)..LeadingSpaces(s) + |r|]
    ensures AllSpace(s[LeadingSpaces(s) + |r|..])
    ensures |r| > 0 ==> !IsSpace(r[0]) && !IsSpace(r[|r| - 1])
  {
    var k := LeadingSpaces(s);
    var t := s[k..];
    var r := t[..|t| - TrailingSpaces(t)];
    assert s[k + |r|..] == t[|t| - TrailingSpaces(t)..];
    r
  }

  /** Trimming text padded with white space on both sides gives the text back. */
  lemma {:induction false} TrimPadded(pre: string, text: string, post: string)
    requires AllSpace(pre) && AllSpace(post)
    requires |text| > 0 ==> !IsSpace(text[0]) && !IsSpace(text[|text| - 1])
    ensures Trim(pre + text + post) == text
  {
    var s := pre + text + post;
    if |text| == 0 {
      assert AllSpace(s[..|s|]) by {
        forall i | 0 <= i < |s| ensures IsSpace(s[i]) {
          if i < |pre| { assert s[i] == pre[i]; } else { assert s[i] == post[i - |pre|]; }
        }
      }
      LeadingSpacesUnique(s, |s|);
    } else {
      assert s[..|pre|] == pre;
      assert s[|pre|] == text[0];
      LeadingSpacesUnique(s, |pre|);
      var t := s[|pre|..];
      assert t == text + post;
      assert t[|t| - |post|..] == post;
      assert t[|t| - |post| - 1] == text[|text| - 1];
      TrailingSpacesUnique(t, |post|);
      assert t[..|text|] == text;
    }
  }

  /** ASCII lower-casing of one character. */
  function LowerChar(c: char): char {
    if 'A' <= c <= 'Z' then (c as int + 32) as char else c
  }

  /** ASCII upper-casing of one character. */
  function UpperChar(c: char): char {
    if 'a' <= c <= 'z' then (c as int - 32) as char else c
  }

  /** `toLowerCase`, restricted to the ASCII letters. */
  function ToLower(s: string): (r: string)
    ensures |r| == |s|
    ensures forall i :: 0 <= i < |s| ==> r[i] == LowerChar(s[i])
  {
    seq(|s|, i requires 0 <= i < |s| => LowerChar(s[i]))
  }

  /** `toUpperCase`, restricted to the ASCII letters. */
  function ToUpper(s: string): (r: string)
    ensures |r| == |s|
    ensures forall i :: 0 <= i < |s| ==> r[i] == UpperChar(s[i])
  {
    seq(|s|, i requires 0 <= i < |s| => UpperChar(s[i]))
  }

  /** Lower-casing forgets the case a text was written in. */
  lemma LowerOfUpper(s: string)
    ensures ToLower(ToUpper(s)) == ToLower(s)
  {
  }

  predicate StartsWith(s: string, prefix: string) {
    |prefix| <= |s| && s[..|prefix|] == prefix
  }

  predicate EndsWith(s: string, suffix: string) {
    |suffix| <= |s| && s[|s| - |suffix|..] == suffix
  }

  /** `s.includes(sub)`: `sub` occurs in `s` as a contiguous piece. */
  predicate Contains(s: string, sub: string)
    decreases |s|
  {
    StartsWith(s, sub) || (|s| > 0 && Contains(s[1..], sub))
  }

  /** Every string contains the empty string and itself. */
  lemma ContainsTrivial(s: string)
    ensures Contains(s, "") && Contains(s, s)
  {
    assert s[..0] == "";
    assert s[..|s|] == s;
  }

  /** `Array.prototype.join` with a one-character separator. */
  function Join(parts: seq<string>, sep: char): string
    decreases |parts|
  {
    if |parts| == 0 then ""
    else if |parts| == 1 then parts[0]
    else parts[0] + [sep] + Join(parts[1..], sep)
  }

  /** Index of the first occurrence of `c`. */
  function IndexOf(s: string, c: char): (i: nat)
    requires c in s
    ensures i < |s| && s[i] == c && c !in s[..i]
  {
    if s[0] == c then 0
    else
      var j := IndexOf(s[1..], c);
      assert s[..j + 1] == [s[0]] + s[1..][..j];
      1 + j
  }

  /** `String.prototype.split` on a one-character separator. */
  function Split(s: string, sep: char): (parts: seq<string>)
    ensures |parts| >= 1
    ensures forall i :: 0 <= i < |parts| ==> sep !in parts[i]
    ensures Join(parts, sep) == s
    decreases |s|
  {
    if sep !in s then [s]
    else
      var i := IndexOf(s, sep);
      var rest := Split(s[i + 1..], sep);
      assert ([s[..i]] + rest)[1..] == rest;
      assert s == s[..i] + [sep] + s[i + 1..];
      [s[..i]] + rest
  }

  /** Splitting a join of separator-free parts gives the parts back. */
  lemma {:induction false} SplitJoin(parts: seq<string>, sep: char)
    requires |parts| >= 1
    requires forall i :: 0 <= i < |parts| ==> sep !in parts[i]
    ensures Split(Join(parts, sep), sep) == parts
    decreases |parts|
  {
    if |parts| > 1 {
      assert Join(parts, sep) == parts[0] + [sep] + Join(parts[1..], sep);
      SplitFirst(parts[0], sep, Join(parts[1..], sep));
      SplitJoin(parts[1..], sep);
      assert parts == [parts[0]] + parts[1..];
    }
  }

  /** A separator-free head before the first separator becomes the first part. */
  lemma SplitFirst(p: string, sep: char, t: string)
    requires sep !in p
    ensures Split(p + [sep] + t, sep) == [p] + Split(t, sep)
  {
    var s := p + [sep] + t;
    assert s[|p|] == sep;
    var i := IndexOf(s, sep);
    assert s[..i] == p;
    assert s[i + 1..] == t;
  }

  /** Value of a character as a digit in bases up to 36; 36 when it is no digit. */
  function DigitValue(c: char): nat {
    if '0' <= c <= '9' then c as int - '0' as int
    else if 'a' <= c <= 'z' then c as int - 'a' as int + 10
    else if 'A' <= c <= 'Z' then c as int - 'A' as int + 10
    else 36
  }

  /** Length of the longest prefix made of digits of the given radix. */
  function DigitRun(s: string, radix: nat): (n: nat)
    ensures n <= |s|
    ensures forall i :: 0 <= i < n ==> DigitValue(s[i]) < radix
    ensures n < |s| ==> DigitValue(s[n]) >= radix
    decreases |s|
  {
    if |s| > 0 && DigitValue(s[0]) < radix then
      var n' := DigitRun(s[1..], radix);
      assert forall i :: 1 <= i < 1 + n' ==> s[i] == s[1..][i - 1];
      1 + n'
    else 0
  }

  /** Positional value of a digit string. */
  function DigitsValue(s: string, radix: nat): int
    decreases |s|
  {
    if |s| == 0 then 0 else DigitsValue(s[..|s| - 1], radix) * radix + DigitValue(s[|s| - 1])
  }

  /**
   * Global `parseInt(s)` with no radix: skip leading white space, read an optional
   * sign, switch to base 16 on a `0x`/`0X` prefix, then read the longest digit run.
   * `None` stands for NaN (no digit at all).
   */
  function ParseInt(s: string): (r: Option<int>)
    ensures AllSpace(s) ==> r.None?
    ensures r.Some? ==> var k := LeadingSpaces(s); k < |s| && (s[k] == '-' || s[k] == '+' || '0' <= s[k] <= '9')
    ensures var k := LeadingSpaces(s); k < |s| && '1' <= s[k] <= '9' ==> r.Some?
  {
    var k := LeadingSpaces(s);
    assert AllSpace(s) ==> k == |s|;
    ParseSigned(s[k..])
  }

  /** The text after the leading white space: an optional sign, then the number. */
  function ParseSigned(t: string): (r: Option<int>)
    ensures r.Some? ==> |t| > 0 && (t[0] == '-' || t[0] == '+' || '0' <= t[0] <= '9')
    ensures |t| > 0 && '1' <= t[0] <= '9' ==> r.Some?
  {
    if |t| > 0 && t[0] == '-' then
      match ParseUnsigned(t[1..])
      case None => None
      case Some(v) => Some(-v)
    else if |t| > 0 && t[0] == '+' then ParseUnsigned(t[1..])
    else ParseUnsigned(t)
  }

  /** The text after the sign: base 16 after `0x` or `0X`, base 10 otherwise. */
  function ParseUnsigned(u: string): (r: Option<int>)
    ensures r.Some? ==> |u| > 0 && '0' <= u[0] <= '9'
    ensures |u| > 0 && '1' <= u[0] <= '9' ==> r.Some?
  {
    if |u| >= 2 && u[0] == '0' && (u[1] == 'x' || u[1] == 'X') then ParseDigits(u[2..], 16)
    else ParseDigits(u, 10)
  }

  /** The value of the longest digit run, `None` when there is no digit. */
  function ParseDigits(v: string, radix: nat): Option<int> {
    var n := DigitRun(v, radix);
    if n == 0 then None else Some(DigitsValue(v[..n], radix))
  }

  /** `parseInt(...) || fallback`: NaN and zero are both falsy and give the fallback. */
  function IntOr(p: Option<int>, fallback: int): (r: int)
    ensures r == fallback || (p.Some? && r == p.value && r != 0)
    ensures p.Some? && p.value != 0 ==> r == p.value
  {
    if p.Some? && p.value != 0 then p.value else fallback
  }

  function DigitChar(d: nat): char
    requires d < 10
  {
    ('0' as int + d) as char
  }

  /** Decimal digits of a natural number, without leading zeros. */
  function NatDigits(n: nat): (s: string)
    ensures |s| >= 1
    ensures forall i :: 0 <= i < |s| ==> '0' <= s[i] <= '9'
    ensures s[0] == '0' ==> n == 0
  {
    if n < 10 then [DigitChar(n)] else NatDigits(n / 10) + [DigitChar(n % 10)]
  }

  /** `String(n)` for an integer `n`. */
  function DecimalString(n: int): (s: string)
    ensures |s| >= 1
    ensures n < 0 <==> s[0] == '-'
  {
    if n < 0 then "-" + NatDigits(-n) else NatDigits(n)
  }

  lemma {:induction false} NatDigitsValue(n: nat)
    ensures DigitsValue(NatDigits(n), 10) == n
  {
    if n >= 10 {
      var s := NatDigits(n);
      assert s[..|s| - 1] == NatDigits(n / 10);
      NatDigitsValue(n / 10);
    }
  }

  /** `parseInt(String(n)) == n` for every integer. */
  lemma ParseIntDecimalString(n: int)
    ensures ParseInt(DecimalString(n)) == Some(n)
  {
    var s := DecimalString(n);
    var m: nat := if n < 0 then -n else n;
    var d := NatDigits(m);
    assert !IsSpace(s[0]) by {
      assert s[0] == '-' || s[0] == d[0];
    }
    LeadingSpacesUnique(s, 0);
    assert s[LeadingSpaces(s)..] == s;
    ParseUnsignedDigits(d);
    NatDigitsValue(m);
    if n < 0 {
      assert s[1..] == d;
    }
  }

  /** Decimal digits read as their value. */
  lemma ParseUnsignedDigits(d: string)
    requires |d| >= 1 && forall i :: 0 <= i < |d| ==> '0' <= d[i] <= '9'
    ensures ParseUnsigned(d) == Some(DigitsValue(d, 10))
  {
    DigitRun10(d);
    assert d[..|d|] == d;
  }

  lemma DigitRun10(d: string)
    requires forall i :: 0 <= i < |d| ==> '0' <= d[i] <= '9'
    ensures DigitRun(d, 10) == |d|
  {
    var n := DigitRun(d, 10);
  }

  /** True when a JSON string field is present and non-empty (JavaScript truthiness). */
  predicate Truthy(s: Option<string>) {
    s.Some? && s.value != ""
  }
}

=== FILE: paging.dfy ===
/**
 * The list routes' shared paging: `page`/`limit` query parameters read with
 * `parseInt(q) || default`, the ORM's `skip`/`take` window, and the
 * `pagination` object with `totalPages = Math.ceil(total / limit)` and
 * `hasMore = skip + returned < total`.
 */
module Paging {
  import opened Wrappers
  import opened JsText

  /** `parseInt(q) || fallback` for an optional query parameter (absent reads as NaN). */
  function QueryInt(q: Option<string>, fallback: int): (r: int)
    ensures q.None? ==> r == fallback
    ensures r == fallback || r != 0
  {
    match q
    case None => fallback
    case Some(s) => IntOr(ParseInt(s), fallback)
  }

  /** `Math.ceil(a / b)` for a count `a` and a non-zero divisor. */
  function CeilDiv(a: nat, b: int): (r: int)
    requires b != 0
    ensures b > 0 ==> (r - 1) * b < a <= r * b
    ensures b < 0 ==> r * b <= a < (r - 1) * b
  {
    if b > 0 then (a + b - 1) / b else -(a / -b)
  }

  /**
   * The ORM's `findMany({ skip, take })` window over rows in result order: a
   * negative `skip` is refused; a negative `take` counts from the end of the list.
   */
  function Window<T>(xs: seq<T>, skip: int, take: int): (r: Option<seq<T>>)
    ensures r.None? <==> skip < 0
    ensures r.Some? && take >= 0 ==>
      && |r.value| == Min(take, Max(0, |xs| - skip))
      && forall i :: 0 <= i < |r.value| ==> r.value[i] == xs[skip + i]
    ensures r.Some? && take < 0 ==>
      && |r.value| == Min(-take, Max(0, |xs| - skip))
      && forall i :: 0 <= i < |r.value| ==> r.value[i] == xs[|xs| - skip - |r.value| + i]
  {
    if skip < 0 then None
    else if take >= 0 then
      var lo := Min(skip, |xs|);
      Some(xs[lo..Min(skip + take, |xs|)])
    else
      var hi := Max(0, |xs| - skip);
      Some(xs[Max(0, hi + take)..hi])
  }

  /** Where an unlimited query starts: `findMany({ take })` with no skip. */
  function Take<T>(xs: seq<T>, take: int): (r: seq<T>)
    ensures |r| == Min(if take >= 0 then take else -take, |xs|)
    ensures take >= 0 ==> r == xs[..|r|]
    ensures take < 0 ==> r == xs[|xs| - |r|..]
  {
    Window(xs, 0, take).value
  }

  datatype Pagination = Pagination(page: int, limit: int, total: nat, totalPages: int, hasMore: bool)

  datatype Page<T> = Page(items: seq<T>, pagination: Pagination)

  /** One page of `all` (already filtered and ordered) for parsed `page` and non-zero `limit`. */
  function PageOf<T>(all: seq<T>, page: int, limit: int): (r: Reply<Page<T>>)
    requires limit != 0
    ensures r.Err? <==> (page - 1) * limit < 0
    ensures r.Err? ==> r == Err(500, "Internal server error")
    ensures r.Ok? ==>
      && r.value.items == Window(all, (page - 1) * limit, limit).value
      && r.value.pagination == Pagination(page, limit, |all|, CeilDiv(|all|, limit),
                                          (page - 1) * limit + |r.value.items| < |all|)
  {
    var skip := (page - 1) * limit;
    match Window(all, skip, limit)
    case None => Err(500, "Internal server error")
    case Some(items) =>
      Ok(Page(items, Pagination(page, limit, |all|, CeilDiv(|all|, limit), skip + |items| < |all|)))
  }

  /**
   * The page for the raw `page` and `limit` query parameters, page 1 and
   * `defaultLimit` when absent, zero or not a number.
   */
  function Paginate<T>(all: seq<T>, pageQ: Option<string>, limitQ: Option<string>, defaultLimit: int): (r: Reply<Page<T>>)
    requires defaultLimit != 0
    ensures r.Err? <==> (QueryInt(pageQ, 1) - 1) * QueryInt(limitQ, defaultLimit) < 0
    ensures r.Ok? ==>
      && r.value.pagination.page == QueryInt(pageQ, 1)
      && r.value.pagination.limit == QueryInt(limitQ, defaultLimit)
      && r.value.pagination.total == |all|
      && forall i :: 0 <= i < |r.value.items| ==> r.value.items[i] in all
    ensures r == PageOf(all, QueryInt(pageQ, 1), QueryInt(limitQ, defaultLimit))
  {
    PageItemsFrom(all, QueryInt(pageQ, 1), QueryInt(limitQ, defaultLimit));
    PageOf(all, QueryInt(pageQ, 1), QueryInt(limitQ, defaultLimit))
  }

  /** Every row on a page is one of the rows paged. */
  lemma PageItemsFrom<T>(all: seq<T>, page: int, limit: int)
    requires limit != 0
    ensures var r := PageOf(all, page, limit);
      r.Ok? ==> forall i :: 0 <= i < |r.value.items| ==> r.value.items[i] in all
  {
    var r := PageOf(all, page, limit);
    if r.Ok? {
      var skip := (page - 1) * limit;
      var items := r.value.items;
      forall i | 0 <= i < |items| ensures items[i] in all {
        if limit >= 0 {
          assert items[i] == all[skip + i];
        } else {
          assert items[i] == all[|all| - skip - |items| + i];
        }
      }
    }
  }

  lemma MulMonotone(a: int, b: int, c: int)
    requires a <= b && c > 0
    ensures a * c <= b * c
  {
    assert b * c - a * c == (b - a) * c;
  }

  /** With `t = ceil(total / limit)`, page `page` ends before the total exactly when `page < t`. */
  lemma BeforeLastPage(page: int, limit: int, total: nat, t: int)
    requires limit > 0 && (t - 1) * limit < total <= t * limit
    ensures page * limit < total <==> page < t
  {
    if page < t {
      MulMonotone(page, t - 1, limit);
    } else {
      MulMonotone(t, page, limit);
    }
  }

  /** With a positive limit, a page reports more to come exactly when it is not the last page. */
  lemma HasMoreIffNotLast<T>(all: seq<T>, page: int, limit: int)
    requires page >= 1 && limit > 0
    ensures PageOf(all, page, limit).Ok?
    ensures var p := PageOf(all, page, limit).value.pagination;
      p.hasMore <==> p.page < p.totalPages
  {
    var skip := (page - 1) * limit;
    MulMonotone(1, page, limit);
    assert page * limit == skip + limit;
    var r := PageOf(all, page, limit);
    var n := |r.value.items|;
    assert skip + n < |all| <==> page * limit < |all|;
    BeforeLastPage(page, limit, |all|, CeilDiv(|all|, limit));
  }

  /** Pages 1..k with a fixed positive limit, concatenated. */
  function FirstPages<T>(all: seq<T>, limit: int, k: nat): seq<T>
    requires limit > 0
  {
    if k == 0 then [] else FirstPages(all, limit, k - 1) + Window(all, (k - 1) * limit, limit).value
  }

  /** Walking the pages in order lists every row once, in order, and nothing else. */
  lemma {:induction false} FirstPagesPrefix<T>(all: seq<T>, limit: int, k: nat)
    requires limit > 0
    ensures FirstPages(all, limit, k) == all[..Min(k * limit, |all|)]
  {
    if k > 0 {
      FirstPagesPrefix(all, limit, k - 1);
      var prev := Min((k - 1) * limit, |all|);
      var w := Window(all, (k - 1) * limit, limit).value;
      assert (k - 1) * limit + limit == k * limit;
      assert w == all[prev..Min(k * limit, |all|)];
      assert all[..prev] + all[prev..Min(k * limit, |all|)] == all[..Min(k * limit, |all|)];
    }
  }

  /** The pages up to `totalPages` cover the whole list. */
  lemma AllPagesCover<T>(all: seq<T>, limit: int)
    requires limit > 0
    ensures FirstPages(all, limit, CeilDiv(|all|, limit)) == all
  {
    var t := CeilDiv(|all|, limit);
    assert t >= 0;
    FirstPagesPrefix(all, limit, t);
    assert all[..|all|] == all;
  }
}

=== FILE: points_route.dfy ===
/**
 * The two write routes of the points ledger: `POST /earn`, which evaluates a
 * reported session, appends one game-play row and credits the balance, and
 * `POST /ad-click`, which adds one click's worth to an existing row and to the
 * caller's balance with no cap.
 */
module PointsRoute {
  import opened Wrappers
  import opened JsText
  import opened Db
  import opened PointsRules

  /**
   * The body of `/earn` with the wallet header. An empty wallet is a missing
   * header, gameId 0 a missing or falsy id, and an absent duration or click
   * count is 0.
   */
  datatype EarnRequest = EarnRequest(wallet: string, gameId: int, duration: int, adClicks: int)

  datatype EarnBody = EarnBody(
    earnedPoints: int, timePoints: int, adPoints: int, openGameCost: int,
    durationMinutes: int, milestone: string, totalPoints: int, gamePlayId: nat)

  datatype AdClickBody = AdClickBody(adPoints: int, totalPoints: int)

  /** Rows of one user created on a given day. */
  function PlaysOnDay(plays: seq<GamePlay>, userId: nat, day: int): (r: seq<GamePlay>)
    ensures forall p :: p in r <==> p in plays && p.userId == userId && p.day == day
  {
    if |plays| == 0 then []
    else
      var last := plays[|plays| - 1];
      PlaysOnDay(plays[..|plays| - 1], userId, day) + (if last.userId == userId && last.day == day then [last] else [])
  }

  /** Rows of one game among some rows. */
  function PlaysOfGame(plays: seq<GamePlay>, gameId: int): (r: seq<GamePlay>)
    ensures forall p :: p in r <==> p in plays && p.gameId == gameId
  {
    if |plays| == 0 then []
    else
      var last := plays[|plays| - 1];
      PlaysOfGame(plays[..|plays| - 1], gameId) + (if last.gameId == gameId then [last] else [])
  }

  function Durations(plays: seq<GamePlay>): (ds: seq<int>)
    ensures |ds| == |plays|
    ensures forall i :: 0 <= i < |plays| ==> ds[i] == plays[i].duration
  {
    seq(|plays|, i requires 0 <= i < |plays| => plays[i].duration)
  }

  /** Time points the user already took today on this game, recomputed from durations. */
  function SameGameTimePoints(plays: seq<GamePlay>, userId: nat, gameId: int, day: int): int {
    HistoricalTimePoints(Durations(PlaysOfGame(PlaysOnDay(plays, userId, day), gameId)))
  }

  /** Ad clicks the user reported today over all games. */
  function ClicksToday(plays: seq<GamePlay>, userId: nat, day: int): (r: int)
    ensures (forall p :: p in plays && p.userId == userId && p.day == day ==> p.adClicks >= 0) ==> r >= 0
  {
    var rows := PlaysOnDay(plays, userId, day);
    AdClickSumNonNegative(rows);
    AdClickSum(rows)
  }

  /** The award of a request from the user at position `i`, against today's stored rows. */
  function Assess(db: Db, uid: nat, req: EarnRequest, today: int): Award {
    Evaluate(LoadRules(db.configs), req.duration, req.adClicks,
      Durations(PlaysOfGame(PlaysOnDay(db.plays, uid, today), req.gameId)),
      ClicksToday(db.plays, uid, today))
  }

  /**
   * `POST /earn` on local day `today` at time `now`. Errors write nothing. A
   * `gameId` with no game fails with 500: the new row's foreign key is refused.
   */
  function Earn(db: Db, req: EarnRequest, today: int, now: int): (r: (Db, Reply<EarnBody>))
    ensures req.wallet == "" ==> r == (db, Err(401, "Unauthorized"))
    ensures req.wallet != "" && req.gameId == 0 ==> r == (db, Err(400, "Missing gameId"))
    ensures req.wallet != "" && req.gameId != 0 && UserByWallet(db.users, req.wallet).None? ==>
      r == (db, Err(404, "User not found"))
    ensures req.wallet != "" && req.gameId != 0 && UserByWallet(db.users, req.wallet).Some? ==>
      (r.1.Ok? <==> GameById(db.games, req.gameId).Some?)
    ensures (req.wallet != "" && req.gameId != 0 && UserByWallet(db.users, req.wallet).Some?
             && GameById(db.games, req.gameId).None?) ==> r == (db, Err(500, "Internal server error"))
    ensures r.1.Err? ==> r.0 == db
    ensures r.1.Ok? ==>
      && UserByWallet(db.users, req.wallet).Some?
      && GameById(db.games, req.gameId).Some?
      && var i := UserByWallet(db.users, req.wallet).value;
      var body := r.1.value;
      && body.earnedPoints >= 0
      && r.0 == Record(db, i, GamePlay(db.nextPlayId, db.users[i].id, req.gameId, req.duration,
                                       req.adClicks, body.earnedPoints, today, now))
      && body.totalPoints == db.users[i].points + body.earnedPoints
      && body.gamePlayId == db.nextPlayId
  {
    if req.wallet == "" then (db, Err(401, "Unauthorized"))
    else if req.gameId == 0 then (db, Err(400, "Missing gameId"))
    else match UserByWallet(db.users, req.wallet)
      case None => (db, Err(404, "User not found"))
      case Some(i) =>
        if GameById(db.games, req.gameId).None? then (db, Err(500, "Internal server error"))
        else
          var user := db.users[i];
          var a := Assess(db, user.id, req, today);
          var play := GamePlay(db.nextPlayId, user.id, req.gameId, req.duration, req.adClicks,
            a.earnedPoints, today, now);
          (Record(db, i, play), Ok(EarnBody(a.earnedPoints, a.timePoints, a.adPoints, a.openGameCost,
            a.durationMinutes, a.milestone, user.points + a.earnedPoints, play.id)))
  }

  /** The award `/earn` computes, stated against the rules and today's stored rows. */
  lemma EarnAward(db: Db, req: EarnRequest, today: int, now: int)
    requires Earn(db, req, today, now).1.Ok?
    ensures var i := UserByWallet(db.users, req.wallet).value;
      var uid := db.users[i].id;
      var body := Earn(db, req, today, now).1.value;
      var rules := LoadRules(db.configs);
      var taken := SameGameTimePoints(db.plays, uid, req.gameId, today);
      && body.timePoints == CapTimePoints(RawTimePoints(req.duration, rules.minPlayTime), taken)
      && body.adPoints == ValidAdClicks(req.adClicks, ClicksToday(db.plays, uid, today)) * rules.pointsPerAdClick
      && body.earnedPoints == Max(0, body.timePoints + body.adPoints - rules.openGameCost)
      && body.milestone == Milestone(Minutes(req.duration))
  {
  }

  /** A request for one game leaves the same-game sum of every other game alone. */
  lemma {:induction false} PlaysOnDayAppend(plays: seq<GamePlay>, p: GamePlay, userId: nat, day: int)
    ensures PlaysOnDay(plays + [p], userId, day)
      == PlaysOnDay(plays, userId, day) + (if p.userId == userId && p.day == day then [p] else [])
  {
    assert (plays + [p])[..|plays + [p]| - 1] == plays;
  }

  lemma {:induction false} PlaysOfGameAppend(plays: seq<GamePlay>, p: GamePlay, gameId: int)
    ensures PlaysOfGame(plays + [p], gameId) == PlaysOfGame(plays, gameId) + (if p.gameId == gameId then [p] else [])
  {
    assert (plays + [p])[..|plays + [p]| - 1] == plays;
  }

  lemma {:induction false} HistoricalAppend(ds: seq<int>, d: int)
    ensures HistoricalTimePoints(ds + [d]) == HistoricalTimePoints(ds) + Tier(Minutes(d))
  {
    assert (ds + [d])[..|ds + [d]| - 1] == ds;
  }

  /**
   * After a successful `/earn`, the stored sum for that user, game and day has
   * grown by the tier of the reported duration, whatever was awarded: this is
   * the running sum `DayTimePoints` caps against.
   */
  lemma EarnAdvancesSameGameSum(db: Db, req: EarnRequest, today: int, now: int)
    requires Earn(db, req, today, now).1.Ok?
    ensures var uid := db.users[UserByWallet(db.users, req.wallet).value].id;
      SameGameTimePoints(Earn(db, req, today, now).0.plays, uid, req.gameId, today)
        == SameGameTimePoints(db.plays, uid, req.gameId, today) + Tier(Minutes(req.duration))
  {
    var i := UserByWallet(db.users, req.wallet).value;
    var r := Earn(db, req, today, now);
    var p := GamePlay(db.nextPlayId, db.users[i].id, req.gameId, req.duration,
                      req.adClicks, r.1.value.earnedPoints, today, now);
    assert r.0.plays == db.plays + [p];
    SameGameAppend(db.plays, p);
  }

  /** A new row adds the tier of its duration to the sum of its own user, game and day. */
  lemma SameGameAppend(plays: seq<GamePlay>, p: GamePlay)
    ensures SameGameTimePoints(plays + [p], p.userId, p.gameId, p.day)
      == SameGameTimePoints(plays, p.userId, p.gameId, p.day) + Tier(Minutes(p.duration))
  {
    PlaysOnDayAppend(plays, p, p.userId, p.day);
    var onDay := PlaysOnDay(plays, p.userId, p.day);
    PlaysOfGameAppend(onDay, p, p.gameId);
    var ds := Durations(PlaysOfGame(onDay, p.gameId));
    assert Durations(PlaysOfGame(onDay, p.gameId) + [p]) == ds + [p.duration];
    HistoricalAppend(ds, p.duration);
  }

  /** After a successful `/earn`, the clicks stored today have grown by the reported count. */
  lemma EarnAdvancesClicks(db: Db, req: EarnRequest, today: int, now: int)
    requires Earn(db, req, today, now).1.Ok?
    ensures var uid := db.users[UserByWallet(db.users, req.wallet).value].id;
      ClicksToday(Earn(db, req, today, now).0.plays, uid, today) == ClicksToday(db.plays, uid, today) + req.adClicks
  {
    var i := UserByWallet(db.users, req.wallet).value;
    var uid := db.users[i].id;
    var r := Earn(db, req, today, now);
    var p := r.0.plays[|db.plays|];
    assert r.0.plays == db.plays + [p];
    PlaysOnDayAppend(db.plays, p, uid, today);
    var xs := PlaysOnDay(db.plays, uid, today);
    assert (xs + [p])[..|xs + [p]| - 1] == xs;
  }

  /**
   * A run of `/earn` calls on one day: the ledger after them, and the time
   * points granted by those that succeeded.
   */
  function EarnDay(db: Db, reqs: seq<EarnRequest>, today: int, now: int): (r: (Db, int))
    ensures r.0.games == db.games && r.0.configs == db.configs
    ensures db.plays <= r.0.plays && |r.0.plays| <= |db.plays| + |reqs|
    decreases |reqs|
  {
    if |reqs| == 0 then (db, 0)
    else
      var first := Earn(db, reqs[0], today, now);
      var rest := EarnDay(first.0, reqs[1..], today, now);
      (rest.0, rest.1 + Granted(first))
  }

  /** The time points one `/earn` call granted: none when it failed. */
  function Granted(e: (Db, Reply<EarnBody>)): int {
    if e.1.Ok? then e.1.value.timePoints else 0
  }

  /** What is left of the daily 45 time points for the wallet's user on one game. */
  function CapLeft(db: Db, wallet: string, gameId: int, today: int): int
    requires UserByWallet(db.users, wallet).Some?
  {
    Max(0, MaxTimePointsPerGamePerDay - SameGameTimePoints(db.plays, db.users[UserByWallet(db.users, wallet).value].id, gameId, today))
  }

  /** One call grants at most what it uses up of the day's allowance. */
  lemma EarnStepCap(db: Db, req: EarnRequest, today: int, now: int)
    requires UserByWallet(db.users, req.wallet).Some?
    ensures var e := Earn(db, req, today, now);
      && UserByWallet(e.0.users, req.wallet).Some?
      && Granted(e) + CapLeft(e.0, req.wallet, req.gameId, today) <= CapLeft(db, req.wallet, req.gameId, today)
  {
    var i := UserByWallet(db.users, req.wallet).value;
    var uid := db.users[i].id;
    var e := Earn(db, req, today, now);
    EarnStep(db, req, today, now);
    CapStep(SameGameTimePoints(db.plays, uid, req.gameId, today), SameGameTimePoints(e.0.plays, uid, req.gameId, today),
            Tier(Minutes(req.duration)), Granted(e), e.1.Ok?);
  }

  /** One `/earn` call as seen by the daily cap on one user's game. */
  lemma EarnStep(db: Db, req: EarnRequest, today: int, now: int)
    requires UserByWallet(db.users, req.wallet).Some?
    ensures var i := UserByWallet(db.users, req.wallet).value;
      var uid := db.users[i].id;
      var s := SameGameTimePoints(db.plays, uid, req.gameId, today);
      var r := Earn(db, req, today, now);
      && UserByWallet(r.0.users, req.wallet) == Some(i)
      && r.0.users[i].id == uid
      && (r.1.Err? ==> r.0 == db)
      && (r.1.Ok? ==>
            && r.1.value.timePoints <= Tier(Minutes(req.duration))
            && r.1.value.timePoints <= Max(0, MaxTimePointsPerGamePerDay - s)
            && SameGameTimePoints(r.0.plays, uid, req.gameId, today) == s + Tier(Minutes(req.duration)))
  {
    var i := UserByWallet(db.users, req.wallet).value;
    var r := Earn(db, req, today, now);
    if r.1.Ok? {
      var p := GamePlay(db.nextPlayId, db.users[i].id, req.gameId, req.duration, req.adClicks,
                        r.1.value.earnedPoints, today, now);
      CreditKeepsWallets(db.users, i, p.earnedPoints, req.wallet);
      EarnAward(db, req, today, now);
      EarnAdvancesSameGameSum(db, req, today, now);
    }
  }

  /**
   * However one user's sessions on one game are split across a day, the time
   * points granted for them never exceed what was left of the 45 when the run
   * began (0 if nothing was left).
   */
  lemma {:induction false} EarnDayTimeCap(db: Db, reqs: seq<EarnRequest>, today: int, now: int, wallet: string, gameId: int)
    requires forall j :: 0 <= j < |reqs| ==> reqs[j].wallet == wallet && reqs[j].gameId == gameId
    requires UserByWallet(db.users, wallet).Some?
    ensures EarnDay(db, reqs, today, now).1 <= CapLeft(db, wallet, gameId, today)
    decreases |reqs|
  {
    if |reqs| > 0 {
      var first := Earn(db, reqs[0], today, now);
      SameRunTail(reqs, wallet, gameId);
      EarnStepCap(db, reqs[0], today, now);
      EarnDayTimeCap(first.0, reqs[1..], today, now, wallet, gameId);
    }
  }

  lemma SameRunTail(reqs: seq<EarnRequest>, wallet: string, gameId: int)
    requires |reqs| > 0
    requires forall j :: 0 <= j < |reqs| ==> reqs[j].wallet == wallet && reqs[j].gameId == gameId
    ensures reqs[0].wallet == wallet && reqs[0].gameId == gameId
    ensures forall j :: 0 <= j < |reqs[1..]| ==> reqs[1..][j].wallet == wallet && reqs[1..][j].gameId == gameId
  {
    assert forall j :: 0 <= j < |reqs[1..]| ==> reqs[1..][j] == reqs[j + 1];
  }

  /** The cap arithmetic of one step: the grant and what is left afterwards fit in what was left before. */
  lemma CapStep(s: int, s1: int, tier: int, t: int, ok: bool)
    requires ok ==> t <= tier && t <= Max(0, MaxTimePointsPerGamePerDay - s) && s1 == s + tier
    requires !ok ==> t == 0 && s1 == s
    ensures t + Max(0, MaxTimePointsPerGamePerDay - s1) <= Max(0, MaxTimePointsPerGamePerDay - s)
  {
  }

  /**
   * The ad clicks one `/earn` call paid for (`validAdClicks`): none when it
   * failed, otherwise the reported count cut to what is left of the day's 3.
   */
  function PaidClicks(db: Db, req: EarnRequest, today: int, now: int): int {
    if Earn(db, req, today, now).1.Ok? then
      ValidAdClicks(req.adClicks, ClicksToday(db.plays, db.users[UserByWallet(db.users, req.wallet).value].id, today))
    else 0
  }

  /** The ad points of a successful call are its paid clicks at the stored click price. */
  lemma PaidClicksPriced(db: Db, req: EarnRequest, today: int, now: int)
    requires Earn(db, req, today, now).1.Ok?
    ensures Earn(db, req, today, now).1.value.adPoints
      == PaidClicks(db, req, today, now) * LoadRules(db.configs).pointsPerAdClick
  {
    EarnAward(db, req, today, now);
  }

  /** The ad clicks paid for by a run of `/earn` calls on one day. */
  function EarnDayClicks(db: Db, reqs: seq<EarnRequest>, today: int, now: int): int
    decreases |reqs|
  {
    if |reqs| == 0 then 0
    else PaidClicks(db, reqs[0], today, now) + EarnDayClicks(Earn(db, reqs[0], today, now).0, reqs[1..], today, now)
  }

  /** What is left of the day's 3 paid ad clicks for the wallet's user, over all games. */
  function ClicksLeft(db: Db, wallet: string, today: int): int
    requires UserByWallet(db.users, wallet).Some?
  {
    Max(0, MaxAdClicksPerDay - ClicksToday(db.plays, db.users[UserByWallet(db.users, wallet).value].id, today))
  }

  /** One call with an honest click count pays for at most what it uses up of the day's clicks. */
  lemma EarnStepClicks(db: Db, req: EarnRequest, today: int, now: int)
    requires UserByWallet(db.users, req.wallet).Some?
    requires req.adClicks >= 0
    ensures var e := Earn(db, req, today, now);
      && UserByWallet(e.0.users, req.wallet).Some?
      && PaidClicks(db, req, today, now) + ClicksLeft(e.0, req.wallet, today) <= ClicksLeft(db, req.wallet, today)
  {
    var i := UserByWallet(db.users, req.wallet).value;
    var uid := db.users[i].id;
    var e := Earn(db, req, today, now);
    EarnStep(db, req, today, now);
    var c := ClicksToday(db.plays, uid, today);
    var c1 := ClicksToday(e.0.plays, uid, today);
    if e.1.Ok? {
      EarnAdvancesClicks(db, req, today, now);
    }
    assert ClicksLeft(e.0, req.wallet, today) == Max(0, MaxAdClicksPerDay - c1);
    ClickStep(c, c1, req.adClicks, PaidClicks(db, req, today, now), e.1.Ok?);
  }

  /** The click-cap arithmetic of one step: the paid clicks and what is left afterwards fit in what was left before. */
  lemma ClickStep(c: int, c1: int, a: int, v: int, ok: bool)
    requires a >= 0
    requires ok ==> v == ValidAdClicks(a, c) && c1 == c + a
    requires !ok ==> v == 0 && c1 == c
    ensures v + Max(0, MaxAdClicksPerDay - c1) <= Max(0, MaxAdClicksPerDay - c)
  {
  }

  /**
   * However one user's sessions are spread over games during a day, the `/earn`
   * calls pay for at most the ad clicks left of the day's 3 when the run began,
   * provided no call reports a negative count.
   */
  lemma {:induction false} EarnDayAdCap(db: Db, reqs: seq<EarnRequest>, today: int, now: int, wallet: string)
    requires forall j :: 0 <= j < |reqs| ==> reqs[j].wallet == wallet && reqs[j].adClicks >= 0
    requires UserByWallet(db.users, wallet).Some?
    ensures EarnDayClicks(db, reqs, today, now) <= ClicksLeft(db, wallet, today)
    decreases |reqs|
  {
    if |reqs| > 0 {
      var first := Earn(db, reqs[0], today, now);
      HonestRunTail(reqs, wallet);
      EarnStepClicks(db, reqs[0], today, now);
      EarnDayAdCap(first.0, reqs[1..], today, now, wallet);
    }
  }

  lemma HonestRunTail(reqs: seq<EarnRequest>, wallet: string)
    requires |reqs| > 0
    requires forall j :: 0 <= j < |reqs| ==> reqs[j].wallet == wallet && reqs[j].adClicks >= 0
    ensures reqs[0].wallet == wallet && reqs[0].adClicks >= 0
    ensures forall j :: 0 <= j < |reqs[1..]| ==> reqs[1..][j].wallet == wallet && reqs[1..][j].adClicks >= 0
  {
    assert forall j :: 0 <= j < |reqs[1..]| ==> reqs[1..][j] == reqs[j + 1];
  }

  /** `/earn` keeps every balance equal to the sum of its owner's rows. */
  lemma EarnPreservesBalanced(db: Db, req: EarnRequest, today: int, now: int)
    requires Balanced(db)
    ensures Balanced(Earn(db, req, today, now).0)
  {
    var r := Earn(db, req, today, now);
    if r.1.Ok? {
      var i := UserByWallet(db.users, req.wallet).value;
      var p := GamePlay(db.nextPlayId, db.users[i].id, req.gameId, req.duration,
                        req.adClicks, r.1.value.earnedPoints, today, now);
      RecordPreservesBalanced(db, i, p);
    }
  }

  /** The click value `/ad-click` reads: `parseInt(value || '50')`, `None` for NaN. */
  function ClickValue(configs: seq<ConfigRow>): (r: Option<int>)
    ensures ConfigValue(configs, "points_per_ad_click").None? ==> r == Some(DefaultPointsPerAdClick)
    ensures ConfigValue(configs, "points_per_ad_click") == Some("") ==> r == Some(DefaultPointsPerAdClick)
    ensures forall n :: ConfigValue(configs, "points_per_ad_click") == Some(DecimalString(n)) ==> r == Some(n)
  {
    var raw := ConfigValue(configs, "points_per_ad_click");
    ClickValueCases(raw);
    ParseInt(if raw.Some? && raw.value != "" then raw.value else "50")
  }

  lemma ClickValueCases(raw: Option<string>)
    ensures ParseInt("50") == Some(DefaultPointsPerAdClick)
    ensures forall n :: raw == Some(DecimalString(n)) ==> ParseInt(raw.value) == Some(n)
  {
    ParseIntDecimalString(50);
    assert DecimalString(50) == "50";
    forall n | raw == Some(DecimalString(n)) ensures ParseInt(raw.value) == Some(n) {
      ParseIntDecimalString(n);
    }
  }

  /** Adds one click worth `pts` to the row at position `k`. */
  function Bump(plays: seq<GamePlay>, k: nat, pts: int): (r: seq<GamePlay>)
    requires k < |plays|
    ensures |r| == |plays|
    ensures r[k] == plays[k].(adClicks := plays[k].adClicks + 1, earnedPoints := plays[k].earnedPoints + pts)
    ensures forall j :: 0 <= j < |plays| && j != k ==> r[j] == plays[j]
  {
    plays[k := plays[k].(adClicks := plays[k].adClicks + 1, earnedPoints := plays[k].earnedPoints + pts)]
  }

  /**
   * `POST /ad-click`. An empty wallet or a gamePlayId of 0 is missing. A click
   * value without digits would be NaN, which the database refuses (500), as it
   * refuses an id with no row. The row is looked up by id alone.
   */
  function AdClick(db: Db, wallet: string, gamePlayId: int): (r: (Db, Reply<AdClickBody>))
    ensures wallet == "" || gamePlayId == 0 ==> r == (db, Err(400, "Missing required fields"))
    ensures wallet != "" && gamePlayId != 0 && UserByWallet(db.users, wallet).None? ==> r == (db, Err(404, "User not found"))
    ensures wallet != "" && gamePlayId != 0 && UserByWallet(db.users, wallet).Some? ==>
      (r.1.Ok? <==> ClickValue(db.configs).Some? && PlayById(db.plays, gamePlayId).Some?)
    ensures (wallet != "" && gamePlayId != 0 && UserByWallet(db.users, wallet).Some?
             && (ClickValue(db.configs).None? || PlayById(db.plays, gamePlayId).None?)) ==> r == (db, Err(500, "Internal server error"))
    ensures r.1.Err? ==> r.0 == db
    ensures r.1.Ok? ==>
      && UserByWallet(db.users, wallet).Some?
      && PlayById(db.plays, gamePlayId).Some?
      && ClickValue(db.configs) == Some(r.1.value.adPoints)
      && var i := UserByWallet(db.users, wallet).value;
      var k := PlayById(db.plays, gamePlayId).value;
      var pts := r.1.value.adPoints;
      && r.0 == db.(plays := Bump(db.plays, k, pts), users := Credit(db.users, i, pts))
      && r.1.value.totalPoints == db.users[i].points + pts
  {
    if wallet == "" || gamePlayId == 0 then (db, Err(400, "Missing required fields"))
    else match UserByWallet(db.users, wallet)
      case None => (db, Err(404, "User not found"))
      case Some(i) =>
        match ClickValue(db.configs)
        case None => (db, Err(500, "Internal server error"))
        case Some(pts) =>
          match PlayById(db.plays, gamePlayId)
          case None => (db, Err(500, "Internal server error"))
          case Some(k) =>
            (db.(plays := Bump(db.plays, k, pts), users := Credit(db.users, i, pts)),
             Ok(AdClickBody(pts, db.users[i].points + pts)))
  }

  /** Unlike `/earn`, a stored value "0" is kept: the click is worth nothing. */
  lemma AdClickZeroValue(db: Db, wallet: string, gamePlayId: int)
    requires ConfigValue(db.configs, "points_per_ad_click") == Some("0")
    requires AdClick(db, wallet, gamePlayId).1.Ok?
    ensures AdClick(db, wallet, gamePlayId).1.value.adPoints == 0
    ensures LoadRules(db.configs).pointsPerAdClick == DefaultPointsPerAdClick
  {
    assert DecimalString(0) == "0";
    RuleValueDecimal(db.configs, "points_per_ad_click", DefaultPointsPerAdClick, 0);
  }

  /** Changing one row's points changes only its owner's sum, by the difference. */
  lemma {:induction false} EarnedSumUpdate(plays: seq<GamePlay>, k: nat, p: GamePlay, userId: nat)
    requires k < |plays| && p.userId == plays[k].userId
    ensures EarnedSum(PlaysOf(plays[k := p], userId)) == EarnedSum(PlaysOf(plays, userId))
      + (if p.userId == userId then p.earnedPoints - plays[k].earnedPoints else 0)
    decreases |plays|
  {
    var n := |plays| - 1;
    var init := plays[..n];
    var last := plays[n];
    if k == n {
      assert plays[k := p] == init + [p];
      assert plays == init + [last];
      EarnedSumAppend(init, p, userId);
      EarnedSumAppend(init, last, userId);
    } else {
      assert plays[k := p] == init[k := p] + [last];
      assert plays == init + [last];
      EarnedSumUpdate(init, k, p, userId);
      EarnedSumAppend(init[k := p], last, userId);
      EarnedSumAppend(init, last, userId);
    }
  }

  /** `/ad-click` on one of the caller's own rows keeps the ledger balanced. */
  lemma AdClickOwnRowPreservesBalanced(db: Db, wallet: string, gamePlayId: int)
    requires Balanced(db)
    requires var i := UserByWallet(db.users, wallet); var k := PlayById(db.plays, gamePlayId);
      i.Some? && k.Some? ==> db.plays[k.value].userId == db.users[i.value].id
    ensures Balanced(AdClick(db, wallet, gamePlayId).0)
  {
    var r := AdClick(db, wallet, gamePlayId);
    if r.1.Ok? {
      BumpOwnRowPreservesBalanced(db, UserByWallet(db.users, wallet).value,
        PlayById(db.plays, gamePlayId).value, r.1.value.adPoints);
    }
  }

  /** Adding points to a row and the same points to its owner's balance keeps the ledger balanced. */
  lemma BumpOwnRowPreservesBalanced(db: Db, i: nat, k: nat, pts: int)
    requires Balanced(db) && i < |db.users| && k < |db.plays|
    requires db.plays[k].userId == db.users[i].id
    ensures Balanced(db.(plays := Bump(db.plays, k, pts), users := Credit(db.users, i, pts)))
  {
    var plays' := Bump(db.plays, k, pts);
    var users' := Credit(db.users, i, pts);
    var p := plays'[k];
    assert plays' == db.plays[k := p];
    forall j | 0 <= j < |db.users|
      ensures EarnedSum(PlaysOf(plays', db.users[j].id))
        == EarnedSum(PlaysOf(db.plays, db.users[j].id)) + (if j == i then pts else 0)
    {
      EarnedSumUpdate(db.plays, k, p, db.users[j].id);
    }
    CreditKeepsMatch(db.users, db.plays, plays', i, pts);
    assert PlaysAllocated(plays', db.nextUserId, db.nextPlayId) by {
      forall m | 0 <= m < |plays'| ensures plays'[m].userId < db.nextUserId && plays'[m].id < db.nextPlayId {
        if m != k { assert plays'[m] == db.plays[m]; }
      }
    }
    assert UsersAllocated(users', db.nextUserId) by {
      forall j | 0 <= j < |users'| ensures users'[j].id < db.nextUserId {
        assert users'[j].id == db.users[j].id;
      }
    }
  }

  /**
   * Nothing ties the row to the caller: a click worth something on another
   * user's row credits the caller's balance but not the caller's rows, so the
   * ledger no longer balances.
   */
  lemma AdClickForeignRowUnbalances(db: Db, wallet: string, gamePlayId: int)
    requires Balanced(db)
    requires AdClick(db, wallet, gamePlayId).1.Ok?
    requires db.plays[PlayById(db.plays, gamePlayId).value].userId != db.users[UserByWallet(db.users, wallet).value].id
    requires AdClick(db, wallet, gamePlayId).1.value.adPoints != 0
    ensures !Balanced(AdClick(db, wallet, gamePlayId).0)
  {
    var r := AdClick(db, wallet, gamePlayId);
    var i := UserByWallet(db.users, wallet).value;
    var k := PlayById(db.plays, gamePlayId).value;
    var uid := db.users[i].id;
    EarnedSumUpdate(db.plays, k, r.0.plays[k], uid);
    assert r.0.plays == db.plays[k := r.0.plays[k]];
    assert r.0.users[i].points == db.users[i].points + r.1.value.adPoints;
    assert r.0.users[i].points != EarnedSum(PlaysOf(r.0.plays, r.0.users[i].id));
  }
}

=== FILE: points_rules.dfy ===
/**
 * The award rules of the earn route as pure integer functions: the rule table
 * with its fallbacks, the duration tier, the per-game daily cap on time points,
 * the per-user daily cap on ad clicks, and the final floor at zero.
 */
module PointsRules {
  import opened Wrappers
  import opened JsText
  import opened Db

  /** Time points one game can yield per user and day. */
  const MaxTimePointsPerGamePerDay: int := 45
  /** Ad clicks that earn points per user and day, over all games. */
  const MaxAdClicksPerDay: int := 3
  const DefaultPointsPerAdClick: int := 50
  /** Seconds of play below which a session earns no time points. */
  const DefaultMinPlayTime: int := 900

  datatype Rules = Rules(pointsPerAdClick: int, openGameCost: int, minPlayTime: int)

  /**
   * `parseInt(value) || fallback` for the row stored under `key`: a missing row,
   * a value without leading digits and a value reading as zero all give the fallback.
   */
  function RuleValue(configs: seq<ConfigRow>, key: string, fallback: int): (r: int)
    ensures ConfigValue(configs, key).None? ==> r == fallback
    ensures ConfigValue(configs, key).Some? && ParseInt(ConfigValue(configs, key).value).None? ==> r == fallback
    ensures r == fallback || r != 0
  {
    match ConfigValue(configs, key)
    case None => fallback
    case Some(v) => IntOr(ParseInt(v), fallback)
  }

  /** A value written as `String(n)` reads back as `n`, except that 0 falls back. */
  lemma RuleValueDecimal(configs: seq<ConfigRow>, key: string, fallback: int, n: int)
    requires ConfigValue(configs, key) == Some(DecimalString(n))
    ensures RuleValue(configs, key, fallback) == if n == 0 then fallback else n
  {
    ParseIntDecimalString(n);
  }

  /** The rules the earn route reads, with their fallbacks. */
  function LoadRules(configs: seq<ConfigRow>): (r: Rules)
    ensures r.pointsPerAdClick != 0 && r.minPlayTime != 0
    ensures ConfigValue(configs, "points_per_ad_click").None? ==> r.pointsPerAdClick == DefaultPointsPerAdClick
    ensures ConfigValue(configs, "open_game_cost").None? ==> r.openGameCost == 0
    ensures ConfigValue(configs, "min_play_time").None? ==> r.minPlayTime == DefaultMinPlayTime
  {
    Rules(
      RuleValue(configs, "points_per_ad_click", DefaultPointsPerAdClick),
      RuleValue(configs, "open_game_cost", 0),
      RuleValue(configs, "min_play_time", DefaultMinPlayTime))
  }

  /** Whole minutes in a duration given in seconds (`Math.floor(d / 60)`). */
  function Minutes(duration: int): (m: int)
    ensures 60 * m <= duration < 60 * m + 60
  {
    duration / 60
  }

  /** Points of the 60-, 30- and 15-minute milestones, from whole minutes. */
  function Tier(minutes: int): (p: int)
    ensures p == 0 || p == 10 || p == 20 || p == 45
  {
    if minutes >= 60 then 45
    else if minutes >= 30 then 20
    else if minutes >= 15 then 10
    else 0
  }

  /** The same tiers read directly off a duration in seconds. */
  function TierOfSeconds(duration: int): int {
    if duration >= 3600 then 45
    else if duration >= 1800 then 20
    else if duration >= 900 then 10
    else 0
  }

  /** Flooring to minutes first does not move any threshold. */
  lemma TierMinutes(duration: int)
    ensures Tier(Minutes(duration)) == TierOfSeconds(duration)
  {
    var m := Minutes(duration);
    assert m >= 60 <==> duration >= 3600;
    assert m >= 30 <==> duration >= 1800;
    assert m >= 15 <==> duration >= 900;
  }

  /** A longer session never earns a lower tier. */
  lemma TierMonotone(d1: int, d2: int)
    requires d1 <= d2
    ensures Tier(Minutes(d1)) <= Tier(Minutes(d2))
  {
    TierMinutes(d1);
    TierMinutes(d2);
  }

  /** Tier points of the reported session, gated by the minimum play time. */
  function RawTimePoints(duration: int, minPlayTime: int): (p: int)
    ensures duration < minPlayTime ==> p == 0
    ensures duration >= minPlayTime ==> p == TierOfSeconds(duration)
    ensures 0 <= p <= Tier(Minutes(duration))
  {
    TierMinutes(duration);
    if duration >= minPlayTime then Tier(Minutes(duration)) else 0
  }

  /**
   * Time points already taken today on one game, recomputed from the stored
   * durations with the tier thresholds and without the minimum-play-time gate.
   */
  function HistoricalTimePoints(durations: seq<int>): (s: int)
    ensures 0 <= s <= MaxTimePointsPerGamePerDay * |durations|
  {
    if |durations| == 0 then 0
    else HistoricalTimePoints(durations[..|durations| - 1]) + Tier(Minutes(durations[|durations| - 1]))
  }

  /**
   * Applies the daily cap of 45 time points per game to the raw tier points,
   * given the points already taken today (`earnedToday`).
   */
  function CapTimePoints(raw: int, earnedToday: int): (t: int)
    ensures raw >= 0 && earnedToday <= MaxTimePointsPerGamePerDay ==>
      t == Min(raw, MaxTimePointsPerGamePerDay - earnedToday)
    ensures raw >= 0 && earnedToday <= MaxTimePointsPerGamePerDay ==>
      0 <= t <= MaxTimePointsPerGamePerDay - earnedToday
    ensures raw > 0 && earnedToday >= MaxTimePointsPerGamePerDay ==> t == 0
    ensures raw == 0 && earnedToday > MaxTimePointsPerGamePerDay ==>
      t == MaxTimePointsPerGamePerDay - earnedToday && t < 0
    ensures t <= raw
    ensures raw >= 0 ==> t <= Max(0, MaxTimePointsPerGamePerDay - earnedToday)
  {
    var remaining := MaxTimePointsPerGamePerDay - earnedToday;
    if raw > 0 && remaining <= 0 then 0
    else if raw > remaining then remaining
    else raw
  }

  /** Ad clicks of this session that earn points, given those already stored today. */
  function ValidAdClicks(reported: int, clicksToday: int): (v: int)
    ensures reported >= 0 ==> 0 <= v <= reported
    ensures v <= Max(0, MaxAdClicksPerDay - clicksToday)
    ensures reported >= 0 && clicksToday >= 0 ==> v + clicksToday <= Max(MaxAdClicksPerDay, clicksToday)
    ensures reported < 0 ==> v == reported
  {
    Min(reported, Max(0, MaxAdClicksPerDay - clicksToday))
  }

  /** The milestone label of the response, named after the tier reached. */
  function Milestone(minutes: int): (name: string)
    ensures name == "60分钟" <==> Tier(minutes) == 45
    ensures name == "30分钟" <==> Tier(minutes) == 20
    ensures name == "15分钟" <==> Tier(minutes) == 10
    ensures name == "未达标" <==> Tier(minutes) == 0
  {
    if minutes >= 60 then "60分钟"
    else if minutes >= 30 then "30分钟"
    else if minutes >= 15 then "15分钟"
    else "未达标"
  }

  /** What one session is worth, before it is stored. */
  datatype Award = Award(
    timePoints: int, adPoints: int, validAdClicks: int, openGameCost: int,
    durationMinutes: int, milestone: string, earnedPoints: int)

  /**
   * Evaluates one reported session (`duration` seconds, `adClicks` clicks, both 0
   * when absent) against the durations stored today for the same game and the
   * ad clicks stored today for any game.
   */
  function Evaluate(rules: Rules, duration: int, adClicks: int, sameGameDurations: seq<int>, clicksToday: int): (a: Award)
    ensures a.earnedPoints >= 0
    ensures a.earnedPoints >= a.timePoints + a.adPoints - rules.openGameCost
    ensures a.earnedPoints == 0 || a.earnedPoints == a.timePoints + a.adPoints - rules.openGameCost
    ensures a.adPoints == a.validAdClicks * rules.pointsPerAdClick
    ensures a.validAdClicks <= Max(0, MaxAdClicksPerDay - clicksToday)
    ensures a.timePoints <= RawTimePoints(duration, rules.minPlayTime)
    ensures HistoricalTimePoints(sameGameDurations) <= MaxTimePointsPerGamePerDay ==>
      0 <= a.timePoints <= MaxTimePointsPerGamePerDay - HistoricalTimePoints(sameGameDurations)
    ensures a.durationMinutes == Minutes(duration) && a.openGameCost == rules.openGameCost
  {
    var minutes := Minutes(duration);
    var raw := RawTimePoints(duration, rules.minPlayTime);
    var timePoints := CapTimePoints(raw, HistoricalTimePoints(sameGameDurations));
    var valid := ValidAdClicks(adClicks, clicksToday);
    var adPoints := valid * rules.pointsPerAdClick;
    Award(timePoints, adPoints, valid, rules.openGameCost, minutes, Milestone(minutes),
      Max(0, timePoints + adPoints - rules.openGameCost))
  }

  /**
   * Time points awarded to a run of sessions on one game in one day, in order:
   * each is capped against the tiers of the sessions stored before it.
   */
  function DayTimePoints(earnedToday: int, minPlayTime: int, durations: seq<int>): int
    decreases |durations|
  {
    if |durations| == 0 then 0
    else
      CapTimePoints(RawTimePoints(durations[0], minPlayTime), earnedToday)
      + DayTimePoints(earnedToday + Tier(Minutes(durations[0])), minPlayTime, durations[1..])
  }

  /** However a day's sessions are split, one game yields at most what is left of its 45 points. */
  lemma {:induction false} DailyTimeCap(earnedToday: int, minPlayTime: int, durations: seq<int>)
    ensures DayTimePoints(earnedToday, minPlayTime, durations) <= Max(0, MaxTimePointsPerGamePerDay - earnedToday)
    decreases |durations|
  {
    if |durations| > 0 {
      DailyTimeCap(earnedToday + Tier(Minutes(durations[0])), minPlayTime, durations[1..]);
    }
  }

  /** Ad clicks that earn points over a run of sessions in one day, in order. */
  function DayValidClicks(clicksToday: int, clicks: seq<int>): int
    decreases |clicks|
  {
    if |clicks| == 0 then 0
    else ValidAdClicks(clicks[0], clicksToday) + DayValidClicks(clicksToday + clicks[0], clicks[1..])
  }

  /** With honest (non-negative) click counts, a day pays for at most the 3 clicks left. */
  lemma {:induction false} DailyAdCap(clicksToday: int, clicks: seq<int>)
    requires forall i :: 0 <= i < |clicks| ==> clicks[i] >= 0
    ensures DayValidClicks(clicksToday, clicks) <= Max(0, MaxAdClicksPerDay - clicksToday)
    decreases |clicks|
  {
    if |clicks| > 0 {
      DailyAdCap(clicksToday + clicks[0], clicks[1..]);
    }
  }

  /**
   * The click cap trusts the reported count: a session reporting -5 clicks lowers
   * the stored sum, so a later session that day is paid for 8 clicks.
   */
  lemma NegativeClicksRaiseCap()
    ensures ValidAdClicks(-5, 0) == -5
    ensures ValidAdClicks(8, -5) == 8
    ensures Evaluate(Rules(50, 0, 900), 0, 8, [], -5).earnedPoints == 400
  {
  }

  /**
   * Once the recomputed sum exceeds 45, a session below every tier gets negative
   * time points, which eat into its ad points before the floor.
   */
  lemma NegativeTimePoints()
    ensures Evaluate(Rules(50, 0, 900), 600, 3, [3600, 3600], 0).timePoints == -45
    ensures Evaluate(Rules(50, 0, 900), 600, 3, [3600, 3600], 0).earnedPoints == 105
  {
    assert HistoricalTimePoints([3600, 3600]) == 90 by {
      assert [3600, 3600][..1] == [3600];
      assert [3600][..0] == [];
    }
  }
}

=== FILE: seed.dfy ===
/**
 * Start-up seeding: optionally clear the catalogue and the rule table, create
 * the missing rule keys and demo games, and create the default administrator
 * when the administrator table exists and is empty. Users and game plays are
 * never touched. The seed rows themselves are parameters.
 */
module Seed {
  import opened Wrappers
  import opened Db
  import opened Sorting

  /** The two switches, read from `ENABLE_DEMO_SEED` and `FORCE_SEED`: only the exact text "true" turns one on. */
  datatype Env = Env(demoSeed: Option<string>, forceSeed: Option<string>)

  predicate DemoEnabled(env: Env) { env.demoSeed == Some("true") }

  predicate Forced(env: Env) { env.forceSeed == Some("true") }

  /** The tables and the administrator table, `None` when that table does not exist. */
  datatype World = World(db: Db, admins: Option<seq<Admin>>, nextAdminId: nat)

  /** Some row exists in one of the four tables the seeder counts. */
  predicate HasData(db: Db) {
    |db.users| > 0 || |db.plays| > 0 || |db.games| > 0 || |db.configs| > 0
  }

  /** The catalogue and the rule table are emptied: demo seeding on, and an empty database or a forced run. */
  predicate Clears(env: Env, db: Db) {
    DemoEnabled(env) && (!HasData(db) || Forced(env))
  }

  /** The rule table after seeding, with the counts of created and preserved entries. */
  datatype ConfigSeeding = ConfigSeeding(table: seq<ConfigRow>, created: nat, preserved: nat)

  /** A key is stored in the rule table. */
  predicate HasKey(configs: seq<ConfigRow>, key: string) {
    exists k :: 0 <= k < |configs| && configs[k].key == key
  }

  /** Creates, in order, each seed entry whose key is not stored yet. */
  function SeedConfigs(configs: seq<ConfigRow>, entries: seq<ConfigRow>): (r: ConfigSeeding)
    ensures r.created + r.preserved == |entries|
    ensures |r.table| == |configs| + r.created
    ensures r.table[..|configs|] == configs
    ensures forall i :: 0 <= i < |entries| ==> HasKey(r.table, entries[i].key)
    ensures forall k :: |configs| <= k < |r.table| ==> r.table[k] in entries && !HasKey(configs, r.table[k].key)
    decreases |entries|
  {
    if |entries| == 0 then ConfigSeeding(configs, 0, 0)
    else
      var e := entries[0];
      var known := ConfigByKey(configs, e.key).Some?;
      var next := if known then configs else configs + [e];
      var rest := SeedConfigs(next, entries[1..]);
      assert rest.table[..|configs|] == configs by {
        assert rest.table[..|next|][..|configs|] == next[..|configs|];
      }
      assert HasKey(rest.table, e.key) by {
        if known {
          var k := ConfigByKey(configs, e.key).value;
          assert rest.table[k] == configs[k];
        } else {
          assert rest.table[|configs|] == next[|configs|];
        }
      }
      assert forall i :: 0 <= i < |entries| ==> HasKey(rest.table, entries[i].key) by {
        forall i | 0 <= i < |entries| ensures HasKey(rest.table, entries[i].key) {
          if i > 0 { assert entries[i] == entries[1..][i - 1]; }
        }
      }
      assert forall k :: |configs| <= k < |rest.table| ==> rest.table[k] in entries && !HasKey(configs, rest.table[k].key) by {
        forall k | |configs| <= k < |rest.table|
          ensures rest.table[k] in entries && !HasKey(configs, rest.table[k].key)
        {
          if k < |next| {
            assert rest.table[k] == next[k] == e;
          } else {
            assert rest.table[k] in entries[1..];
            assert forall j :: 0 <= j < |configs| ==> next[j] == configs[j];
          }
        }
      }
      ConfigSeeding(rest.table, rest.created + (if known then 0 else 1), rest.preserved + (if known then 1 else 0))
  }

  /** When every seed key is stored, seeding the rules creates nothing. */
  lemma {:induction false} SeedConfigsNothingMissing(configs: seq<ConfigRow>, entries: seq<ConfigRow>)
    requires forall i :: 0 <= i < |entries| ==> HasKey(configs, entries[i].key)
    ensures SeedConfigs(configs, entries) == ConfigSeeding(configs, 0, |entries|)
    decreases |entries|
  {
    if |entries| > 0 {
      assert HasKey(configs, entries[0].key);
      SeedConfigsNothingMissing(configs, entries[1..]);
    }
  }

  /** Some stored game has this name. */
  predicate HasName(games: seq<Game>, name: string) {
    exists k :: 0 <= k < |games| && games[k].name == name
  }

  /** Some stored game has this URL. */
  predicate HasUrl(games: seq<Game>, url: string) {
    exists k :: 0 <= k < |games| && games[k].url == url
  }

  /** Seed games whose name and URL are both new, checked against the table as it was read. */
  function NewGames(games: seq<Game>, seeds: seq<Game>): (r: seq<Game>)
    ensures forall g :: g in r <==> g in seeds && !HasName(games, g.name) && !HasUrl(games, g.url)
    ensures |r| <= |seeds|
  {
    var keep := (s: Game) => !HasName(games, s.name) && !HasUrl(games, s.url);
    FilterMembers(seeds, keep);
    Filter(seeds, keep)
  }

  /** Rows handed ids `next`, `next + 1`, ... in order. */
  function Numbered(rows: seq<Game>, next: nat): (r: seq<Game>)
    ensures |r| == |rows|
    ensures forall i :: 0 <= i < |rows| ==> r[i] == rows[i].(id := next + i)
  {
    seq(|rows|, i requires 0 <= i < |rows| => rows[i].(id := next + i))
  }

  /** `createMany` of the new seed games: the table and the id counter afterwards. */
  function SeedGames(games: seq<Game>, next: nat, seeds: seq<Game>): (r: (seq<Game>, nat))
    ensures r.0 == games + Numbered(NewGames(games, seeds), next)
    ensures r.1 == next + |NewGames(games, seeds)|
  {
    var created := NewGames(games, seeds);
    (games + Numbered(created, next), next + |created|)
  }

  /** After the games are seeded, every seed game's name or URL is taken. */
  lemma SeededGamesTaken(games: seq<Game>, next: nat, seeds: seq<Game>)
    ensures var after := SeedGames(games, next, seeds).0;
      forall i :: 0 <= i < |seeds| ==> HasName(after, seeds[i].name) || HasUrl(after, seeds[i].url)
  {
    var keep := (s: Game) => !HasName(games, s.name) && !HasUrl(games, s.url);
    var created := NewGames(games, seeds);
    var after := SeedGames(games, next, seeds).0;
    forall i | 0 <= i < |seeds| ensures HasName(after, seeds[i].name) || HasUrl(after, seeds[i].url) {
      var s := seeds[i];
      if HasName(games, s.name) {
        var k :| 0 <= k < |games| && games[k].name == s.name;
        assert after[k] == games[k];
      } else if HasUrl(games, s.url) {
        var k :| 0 <= k < |games| && games[k].url == s.url;
        assert after[k] == games[k];
      } else {
        FilterKeeps(seeds, keep, s);
        assert s in multiset(created);
        var j :| 0 <= j < |created| && created[j] == s;
        assert after[|games| + j] == s.(id := next + j);
      }
    }
  }

  /** When every seed game's name or URL is taken, no game is created. */
  lemma NoNewGames(games: seq<Game>, seeds: seq<Game>)
    requires forall i :: 0 <= i < |seeds| ==> HasName(games, seeds[i].name) || HasUrl(games, seeds[i].url)
    ensures NewGames(games, seeds) == []
  {
    FilterNone(seeds, (s: Game) => !HasName(games, s.name) && !HasUrl(games, s.url));
  }

  /** The default administrator: created only in an existing, empty administrator table. */
  function SeedAdmin(admins: Option<seq<Admin>>, nextAdminId: nat, passwordHash: string): (r: (Option<seq<Admin>>, nat))
    ensures admins.Some? && |admins.value| == 0 ==>
      r == (Some([Admin(nextAdminId, "admin", passwordHash, "admin")]), nextAdminId + 1)
    ensures !(admins.Some? && |admins.value| == 0) ==> r == (admins, nextAdminId)
  {
    if admins.Some? && |admins.value| == 0 then (Some([Admin(nextAdminId, "admin", passwordHash, "admin")]), nextAdminId + 1)
    else (admins, nextAdminId)
  }

  /** The table part of `seedDatabase()`: clear, then create missing rules, then new games. */
  function SeedTables(db: Db, env: Env, configSeeds: seq<ConfigRow>, gameSeeds: seq<Game>): (r: Db)
    ensures r.users == db.users && r.plays == db.plays
    ensures r.nextUserId == db.nextUserId && r.nextPlayId == db.nextPlayId
    ensures !DemoEnabled(env) ==> r == db
    ensures DemoEnabled(env) && !Clears(env, db) ==>
      && |db.configs| <= |r.configs| && r.configs[..|db.configs|] == db.configs
      && |db.games| <= |r.games| && r.games[..|db.games|] == db.games
    ensures DemoEnabled(env) ==> forall i :: 0 <= i < |configSeeds| ==> HasKey(r.configs, configSeeds[i].key)
    ensures DemoEnabled(env) ==> forall i :: 0 <= i < |gameSeeds| ==>
      HasName(r.games, gameSeeds[i].name) || HasUrl(r.games, gameSeeds[i].url)
  {
    var db0 := if Clears(env, db) then db.(games := [], configs := []) else db;
    var db1 := if DemoEnabled(env) then db0.(configs := SeedConfigs(db0.configs, configSeeds).table) else db0;
    var seeded := SeedGames(db1.games, db1.nextGameId, gameSeeds);
    SeededGamesTaken(db1.games, db1.nextGameId, gameSeeds);
    if DemoEnabled(env) then db1.(games := seeded.0, nextGameId := seeded.1) else db1
  }

  /** When every seed game's name or URL is taken, seeding the games changes nothing. */
  lemma SeedGamesNothingNew(games: seq<Game>, next: nat, seeds: seq<Game>)
    requires forall i :: 0 <= i < |seeds| ==> HasName(games, seeds[i].name) || HasUrl(games, seeds[i].url)
    ensures SeedGames(games, next, seeds) == (games, next)
  {
    NoNewGames(games, seeds);
    var numbered := Numbered(NewGames(games, seeds), next);
    assert |numbered| == 0;
    assert games + numbered == games;
  }

  /** Without a forced run, seeding the tables a second time changes nothing. */
  lemma SeedTablesIdempotent(db: Db, env: Env, configSeeds: seq<ConfigRow>, gameSeeds: seq<Game>)
    requires !Forced(env)
    ensures var once := SeedTables(db, env, configSeeds, gameSeeds);
      SeedTables(once, env, configSeeds, gameSeeds) == once
  {
    var once := SeedTables(db, env, configSeeds, gameSeeds);
    if DemoEnabled(env) {
      var db0 := if Clears(env, once) then once.(games := [], configs := []) else once;
      assert db0 == once by {
        if Clears(env, once) {
          assert once.(games := [], configs := []) == once;
        }
      }
      assert SeedConfigs(once.configs, configSeeds).table == once.configs by {
        SeedConfigsNothingMissing(once.configs, configSeeds);
      }
      SeedGamesNothingNew(once.games, once.nextGameId, gameSeeds);
    }
  }

  /**
   * `seedDatabase()`: `configSeeds` and `gameSeeds` are the seed rows and
   * `passwordHash` the hash of the default password.
   */
  function SeedDatabase(w: World, env: Env, configSeeds: seq<ConfigRow>, gameSeeds: seq<Game>, passwordHash: string): (r: World)
    ensures r.db.users == w.db.users && r.db.plays == w.db.plays
    ensures !DemoEnabled(env) ==> r.db == w.db
    ensures r.admins.Some? <==> w.admins.Some?
    ensures w.admins.Some? ==> |r.admins.value| > 0
    ensures w.admins.Some? && |w.admins.value| > 0 ==> r.admins == w.admins && r.nextAdminId == w.nextAdminId
    ensures w.admins.Some? && |w.admins.value| == 0 ==>
      r.admins.value[0].username == "admin" && r.admins.value[0].password == passwordHash
  {
    var admin := SeedAdmin(w.admins, w.nextAdminId, passwordHash);
    World(SeedTables(w.db, env, configSeeds, gameSeeds), admin.0, admin.1)
  }

  /** Without a forced run, seeding a second time changes nothing. */
  lemma SeedIdempotent(w: World, env: Env, configSeeds: seq<ConfigRow>, gameSeeds: seq<Game>, passwordHash: string)
    requires !Forced(env)
    ensures var once := SeedDatabase(w, env, configSeeds, gameSeeds, passwordHash);
      SeedDatabase(once, env, configSeeds, gameSeeds, passwordHash) == once
  {
    SeedTablesIdempotent(w.db, env, configSeeds, gameSeeds);
  }

  /** A forced run re-creates the catalogue from the seeds, with fresh ids. */
  lemma ForcedRunRecreates(w: World, env: Env, configSeeds: seq<ConfigRow>, gameSeeds: seq<Game>, passwordHash: string)
    requires DemoEnabled(env) && Forced(env)
    ensures var r := SeedDatabase(w, env, configSeeds, gameSeeds, passwordHash);
      && r.db.games == Numbered(NewGames([], gameSeeds), w.db.nextGameId)
      && r.db.configs == SeedConfigs([], configSeeds).table
  {
  }
}

=== FILE: sorting.dfy ===
/**
 * Ordering by an integer column (`orderBy: { column: 'asc' }`). Rows with equal
 * keys keep their table order.
 */
module Sorting {

  predicate SortedBy<T>(xs: seq<T>, key: T -> int) {
    forall i, j :: 0 <= i < j < |xs| ==> key(xs[i]) <= key(xs[j])
  }

  /** Places `x` after every row whose key is not larger. */
  function Insert<T>(x: T, xs: seq<T>, key: T -> int): (r: seq<T>)
    requires SortedBy(xs, key)
    ensures SortedBy(r, key)
    ensures multiset(r) == multiset(xs) + multiset{x}
    ensures |r| == |xs| + 1
    ensures r[0] == x || (|xs| > 0 && r[0] == xs[0])
    decreases |xs|
  {
    if |xs| == 0 then [x]
    else if key(x) < key(xs[0]) then [x] + xs
    else
      var rest := Insert(x, xs[1..], key);
      assert xs == [xs[0]] + xs[1..];
      assert key(xs[0]) <= key(rest[0]);
      [xs[0]] + rest
  }

  /** The rows in ascending key order. */
  function SortBy<T>(xs: seq<T>, key: T -> int): (r: seq<T>)
    ensures SortedBy(r, key)
    ensures multiset(r) == multiset(xs)
    ensures |r| == |xs|
    decreases |xs|
  {
    if |xs| == 0 then []
    else
      assert xs == xs[..|xs| - 1] + [xs[|xs| - 1]];
      Insert(xs[|xs| - 1], SortBy(xs[..|xs| - 1], key), key)
  }

  /** The rows that satisfy `keep`, in table order. */
  function Filter<T>(xs: seq<T>, keep: T -> bool): (r: seq<T>)
    ensures |r| <= |xs|
    ensures forall i :: 0 <= i < |r| ==> keep(r[i])
    ensures multiset(r) <= multiset(xs)
    decreases |xs|
  {
    if |xs| == 0 then []
    else
      var rest := Filter(xs[1..], keep);
      assert xs == [xs[0]] + xs[1..];
      if keep(xs[0]) then [xs[0]] + rest else rest
  }

  /** Every row that satisfies `keep` is kept, as often as it occurs. */
  lemma {:induction false} FilterKeeps<T>(xs: seq<T>, keep: T -> bool, x: T)
    requires keep(x)
    ensures multiset(Filter(xs, keep))[x] == multiset(xs)[x]
    decreases |xs|
  {
    if |xs| > 0 {
      FilterKeeps(xs[1..], keep, x);
      var rest := Filter(xs[1..], keep);
      assert xs == [xs[0]] + xs[1..];
      assert multiset(xs) == multiset{xs[0]} + multiset(xs[1..]);
      if keep(xs[0]) {
        assert Filter(xs, keep) == [xs[0]] + rest;
        assert multiset(Filter(xs, keep)) == multiset{xs[0]} + multiset(rest);
      } else {
        assert Filter(xs, keep) == rest;
        assert xs[0] != x;
      }
    }
  }

  /** A row is kept exactly when it is in the list and passes the test. */
  lemma FilterMembers<T>(xs: seq<T>, keep: T -> bool)
    ensures forall x :: x in Filter(xs, keep) <==> x in xs && keep(x)
  {
    forall x | x in xs && keep(x) ensures x in Filter(xs, keep) {
      FilterKeeps(xs, keep, x);
      assert x in multiset(xs);
    }
    forall x | x in Filter(xs, keep) ensures x in xs {
      assert x in multiset(Filter(xs, keep));
    }
  }

  /** A test every row passes keeps the whole list. */
  lemma {:induction false} FilterAll<T>(xs: seq<T>, keep: T -> bool)
    requires forall i :: 0 <= i < |xs| ==> keep(xs[i])
    ensures Filter(xs, keep) == xs
    decreases |xs|
  {
    if |xs| > 0 {
      FilterAll(xs[1..], keep);
      assert xs == [xs[0]] + xs[1..];
    }
  }

  /** A test no row passes keeps nothing. */
  lemma {:induction false} FilterNone<T>(xs: seq<T>, keep: T -> bool)
    requires forall i :: 0 <= i < |xs| ==> !keep(xs[i])
    ensures Filter(xs, keep) == []
    decreases |xs|
  {
    if |xs| > 0 {
      FilterNone(xs[1..], keep);
    }
  }

  /** Filtering a sorted list leaves it sorted. */
  lemma {:induction false} FilterSorted<T>(xs: seq<T>, keep: T -> bool, key: T -> int)
    requires SortedBy(xs, key)
    ensures SortedBy(Filter(xs, keep), key)
    decreases |xs|
  {
    if |xs| > 0 {
      FilterSorted(xs[1..], keep, key);
      var rest := Filter(xs[1..], keep);
      forall j | 0 <= j < |rest| ensures key(xs[0]) <= key(rest[j]) {
        assert rest[j] in multiset(xs[1..]);
      }
    }
  }

  /** The rows in reverse order: newest first for rows kept in insertion order. */
  function Reverse<T>(xs: seq<T>): (r: seq<T>)
    ensures |r| == |xs|
    ensures forall i :: 0 <= i < |xs| ==> r[i] == xs[|xs| - 1 - i]
    ensures multiset(r) == multiset(xs)
  {
    if |xs| == 0 then []
    else
      assert xs == xs[..|xs| - 1] + [xs[|xs| - 1]];
      [xs[|xs| - 1]] + Reverse(xs[..|xs| - 1])
  }

  /** Reversing twice gives the rows back. */
  lemma ReverseReverse<T>(xs: seq<T>)
    ensures Reverse(Reverse(xs)) == xs
  {
  }
}

=== FILE: user_routes.dfy ===
/**
 * The player's own pages, keyed by the `x-wallet-address` header: the profile
 * with lifetime totals, and the paged history newest first.
 */
module UserRoutes {
  import opened Wrappers
  import opened JsText
  import opened Db
  import opened Sorting
  import opened Paging

  const HistoryLimit: int := 20

  /** Lifetime totals over the user's rows. */
  datatype Stats = Stats(gamesPlayed: nat, playTime: int, pointsEarned: int)

  datatype Profile = Profile(user: User, stats: Stats)

  /** The user a request speaks for: 401 without the header, 404 for an unknown wallet. */
  function Caller(users: seq<User>, wallet: Option<string>): (r: Reply<nat>)
    ensures !Truthy(wallet) ==> r == Err(401, "Unauthorized")
    ensures Truthy(wallet) && UserByWallet(users, wallet.value).None? ==> r == Err(404, "User not found")
    ensures r.Ok? <==> Truthy(wallet) && UserByWallet(users, wallet.value).Some?
    ensures r.Ok? ==> r.value < |users| && users[r.value].walletAddr == wallet.value
  {
    if !Truthy(wallet) then Err(401, "Unauthorized")
    else match UserByWallet(users, wallet.value)
      case None => Err(404, "User not found")
      case Some(i) => Ok(i)
  }

  /** `GET /user/profile`: the user row and the count and sums over the user's rows. */
  function GetProfile(db: Db, wallet: Option<string>): (r: Reply<Profile>)
    ensures r.Err? <==> Caller(db.users, wallet).Err?
    ensures r.Err? ==> r == Err(Caller(db.users, wallet).status, Caller(db.users, wallet).message)
    ensures r.Ok? ==>
      var u := db.users[Caller(db.users, wallet).value];
      && r.value.user == u
      && r.value.stats.gamesPlayed == |PlaysOf(db.plays, u.id)|
      && r.value.stats.playTime == DurationSum(PlaysOf(db.plays, u.id))
      && r.value.stats.pointsEarned == EarnedSum(PlaysOf(db.plays, u.id))
  {
    match Caller(db.users, wallet)
    case Err(status, message) => Err(status, message)
    case Ok(i) =>
      var own := PlaysOf(db.plays, db.users[i].id);
      Ok(Profile(db.users[i], Stats(|own|, DurationSum(own), EarnedSum(own))))
  }

  /** On a balanced ledger the lifetime points earned equal the balance shown. */
  lemma EarnedIsBalance(db: Db, wallet: Option<string>)
    requires Balanced(db)
    requires GetProfile(db, wallet).Ok?
    ensures GetProfile(db, wallet).value.stats.pointsEarned == GetProfile(db, wallet).value.user.points
  {
  }

  /** Recording a session of the caller adds one game, its duration and its points to the totals. */
  lemma RecordShowsInProfile(db: Db, wallet: Option<string>, p: GamePlay)
    requires GetProfile(db, wallet).Ok?
    requires p.userId == GetProfile(db, wallet).value.user.id
    ensures var i := Caller(db.users, wallet).value;
      var before := GetProfile(db, wallet).value.stats;
      var after := GetProfile(Record(db, i, p), wallet);
      && after.Ok?
      && after.value.stats == Stats(before.gamesPlayed + 1, before.playTime + p.duration, before.pointsEarned + p.earnedPoints)
  {
    var i := Caller(db.users, wallet).value;
    var r := Record(db, i, p);
    assert Caller(r.users, wallet) == Ok(i) by {
      CreditKeepsWallets(db.users, i, p.earnedPoints, wallet.value);
    }
    assert r.users[i].id == p.userId;
    assert r.plays == db.plays + [p];
    StatsOfAppend(db.plays, p);
  }

  /** The profile totals over one user's rows. */
  function StatsOf(plays: seq<GamePlay>, userId: nat): Stats {
    var own := PlaysOf(plays, userId);
    Stats(|own|, DurationSum(own), EarnedSum(own))
  }

  lemma StatsOfAppend(plays: seq<GamePlay>, p: GamePlay)
    ensures var before := StatsOf(plays, p.userId);
      StatsOf(plays + [p], p.userId)
        == Stats(before.gamesPlayed + 1, before.playTime + p.duration, before.pointsEarned + p.earnedPoints)
  {
    PlaysOfAppend(plays, p, p.userId);
    SumsAppend(PlaysOf(plays, p.userId), p);
  }

  lemma SumsAppend(own: seq<GamePlay>, p: GamePlay)
    ensures DurationSum(own + [p]) == DurationSum(own) + p.duration
    ensures EarnedSum(own + [p]) == EarnedSum(own) + p.earnedPoints
  {
    assert (own + [p])[..|own|] == own;
  }

  /** One history entry: the row with its creation time shown as `playedAt`. */
  datatype Entry = Entry(id: nat, gameId: int, duration: int, earnedPoints: int, playedAt: int)

  function EntryOf(p: GamePlay): Entry {
    Entry(p.id, p.gameId, p.duration, p.earnedPoints, p.createdAt)
  }

  /** The caller's rows newest first (rows are stored in creation order). */
  function HistoryRows(plays: seq<GamePlay>, userId: nat): (r: seq<Entry>)
    ensures |r| == |PlaysOf(plays, userId)|
    ensures forall k :: 0 <= k < |r| ==> r[k] == EntryOf(PlaysOf(plays, userId)[|r| - 1 - k])
  {
    var rows := Reverse(PlaysOf(plays, userId));
    seq(|rows|, k requires 0 <= k < |rows| => EntryOf(rows[k]))
  }

  /** Rows stored in creation order. */
  predicate CreatedInOrder(plays: seq<GamePlay>) {
    forall a, b :: 0 <= a < b < |plays| ==> plays[a].createdAt <= plays[b].createdAt
  }

  /** Picking one user's rows keeps creation order. */
  lemma {:induction false} PlaysOfInOrder(plays: seq<GamePlay>, userId: nat)
    requires CreatedInOrder(plays)
    ensures CreatedInOrder(PlaysOf(plays, userId))
    decreases |plays|
  {
    if |plays| > 0 {
      var init := plays[..|plays| - 1];
      var last := plays[|plays| - 1];
      assert CreatedInOrder(init) by {
        forall a, b | 0 <= a < b < |init| ensures init[a].createdAt <= init[b].createdAt {
          assert init[a] == plays[a] && init[b] == plays[b];
        }
      }
      PlaysOfInOrder(init, userId);
      var own := PlaysOf(init, userId);
      forall k | 0 <= k < |own| ensures own[k].createdAt <= last.createdAt {
        assert own[k] in init;
      }
    }
  }

  /** When rows are stored in creation order, the history shows the newest first. */
  lemma NewestFirst(plays: seq<GamePlay>, userId: nat)
    requires CreatedInOrder(plays)
    ensures var rows := HistoryRows(plays, userId);
      forall a, b :: 0 <= a < b < |rows| ==> rows[a].playedAt >= rows[b].playedAt
  {
    PlaysOfInOrder(plays, userId);
  }

  /** `GET /user/history`: one page of the caller's entries, 20 per page by default. */
  function History(db: Db, wallet: Option<string>, pageQ: Option<string>, limitQ: Option<string>): (r: Reply<Page<Entry>>)
    ensures Caller(db.users, wallet).Err? ==> r == Err(Caller(db.users, wallet).status, Caller(db.users, wallet).message)
    ensures Caller(db.users, wallet).Ok? ==>
      var id := db.users[Caller(db.users, wallet).value].id;
      && (r.Err? <==> (QueryInt(pageQ, 1) - 1) * QueryInt(limitQ, HistoryLimit) < 0)
      && (r.Ok? ==> r.value.pagination.total == |PlaysOf(db.plays, id)|)
      && (r.Ok? ==> forall k :: 0 <= k < |r.value.items| ==> r.value.items[k] in HistoryRows(db.plays, id))
      && r == PageOf(HistoryRows(db.plays, id), QueryInt(pageQ, 1), QueryInt(limitQ, HistoryLimit))
  {
    match Caller(db.users, wallet)
    case Err(status, message) => Err(status, message)
    case Ok(i) => Paginate(HistoryRows(db.plays, db.users[i].id), pageQ, limitQ, HistoryLimit)
  }

  /** Every history entry shows one of the caller's own rows. */
  lemma OwnEntries(plays: seq<GamePlay>, userId: nat, e: Entry)
    requires e in HistoryRows(plays, userId)
    ensures exists p :: p in plays && p.userId == userId && e == EntryOf(p)
  {
    var all := HistoryRows(plays, userId);
    var own := PlaysOf(plays, userId);
    var k :| 0 <= k < |all| && all[k] == e;
    var p := own[|all| - 1 - k];
    assert p in own;
    assert p in plays && p.userId == userId && e == EntryOf(p);
  }

  /** Recording a session moves nobody in the wallet lookup. */
  lemma CallerAfterRecord(db: Db, wallet: Option<string>, i: nat, p: GamePlay)
    requires i < |db.users|
    ensures Caller(Record(db, i, p).users, wallet) == Caller(db.users, wallet)
  {
    if Truthy(wallet) {
      CreditKeepsWallets(db.users, i, p.earnedPoints, wallet.value);
    }
  }

  /** A row just appended for a user heads that user's history. */
  lemma NewestRow(plays: seq<GamePlay>, p: GamePlay, userId: nat)
    requires p.userId == userId
    ensures var all := HistoryRows(plays + [p], userId);
      |all| > 0 && all[0] == EntryOf(p)
  {
    PlaysOfAppend(plays, p, userId);
  }

  /** The first entry of the first page is the session the caller recorded last. */
  lemma LatestFirst(db: Db, wallet: Option<string>, p: GamePlay, limitQ: Option<string>)
    requires Caller(db.users, wallet).Ok?
    requires p.userId == db.users[Caller(db.users, wallet).value].id
    requires QueryInt(limitQ, HistoryLimit) > 0
    ensures var r := History(Record(db, Caller(db.users, wallet).value, p), wallet, None, limitQ);
      r.Ok? && |r.value.items| > 0 && r.value.items[0] == EntryOf(p)
  {
    var i := Caller(db.users, wallet).value;
    var after := Record(db, i, p);
    CallerAfterRecord(db, wallet, i, p);
    assert after.users[i].id == p.userId;
    NewestRow(db.plays, p, p.userId);
    var all := HistoryRows(after.plays, p.userId);
    var limit := QueryInt(limitQ, HistoryLimit);
    var page := PageOf(all, 1, limit);
    assert page.Ok? && page.value.items[0] == all[0];
  }
}

=== FILE: wrappers.dfy ===
/** Failure-carrying wrappers shared by every module of the model. */
module Wrappers {

  /** A value that may be absent: a missing header, field or row. */
  datatype Option<+T> = None | Some(value: T) {

    /** The value, or `default` when absent. */
    function GetOr(default: T): T {
      match this
      case Some(v) => v
      case None => default
    }
  }

  /**
   * The answer of an HTTP route: a JSON body on success, or an error status with
   * the `error` message the route sends.
   */
  datatype Reply<+T> = Ok(value: T) | Err(status: nat, message: string)

  /** The larger of two integers (JavaScript `Math.max` on integers). */
  function Max(a: int, b: int): (r: int)
    ensures r >= a && r >= b
    ensures r == a || r == b
  {
    if a >= b then a else b
  }

  /** The smaller of two integers (JavaScript `Math.min` on integers). */
  function Min(a: int, b: int): (r: int)
    ensures r <= a && r <= b
    ensures r == a || r == b
  {
    if a <= b then a else b
  }
}
